=== FILE: README.md ===
# claude-discord-gateway, modelled in Dafny

The gateway links Discord channels to project directories and relays each
channel's messages to an agent session. This project models its logic as
pure Dafny functions over immutable data, and proves what the code promises
about that logic:

- **Formatter** (`src/formatter.ts`)
  - The response chunker and the code-fence repair across chunk seams.
  - `truncate`, `formatTokens`, and the structure of the cost footer.
- **Sessions** (`src/sessions.ts`)
  - The session store as two finite maps: the current session per channel, and snapshots keyed by (channel, label).
  - A logical clock stands in for `datetime('now')`.
- **Projects** (`src/projects.ts`)
  - Project discovery as a fold over abstract directory entries.
  - The registry lookups.
- **Claude** (`src/claude.ts`)
  - The agent event fold of `runQuery`, as a left fold over a list of events.
  - The options object and `formatToolUse`.
- **Permissions** (`src/permissions.ts`)
  - The approval decision as a function of the user's responses. A click is `Some`; a timeout is `None`.
  - `formatToolDescription`.
- **Commands** (`src/commands.ts`)
  - The per-channel override maps.
  - Every slash-command branch of `handleCommand`, over a context of registry, store, running-query handles, overrides and last costs.
- **Orchestrator** (`src/discord.ts`)
  - The override application, the session-error test, prompt assembly, the stream throttle, the delivery plan, and the settling of a query's result.
  - The per-channel queue as a sequential state machine with three events: a message arrives, a query reports its creation, a query finishes.
- **Basics**: shared string, decimal and tool-input helpers.

Conventions:

- A `char` is a Unicode scalar value. For text in the Basic Multilingual Plane this is one UTF-16 code unit, so lengths and slices agree with JavaScript's `length` and `slice` there.
- Floating-point rendering (`toFixed`, number to string) comes in as a `Render` parameter.
- `JSON.stringify` comes in as a text parameter.
- The file system comes in as a list of directory entries.
- The SDK's message stream comes in as a list of events.

Where the code and its design description disagree, the model follows the
code:

- A raw chunk may be up to `maxLen + 2` characters long, because a fence that starts just below the limit is kept whole.
- The split point after a fence is the last fence of either kind, not only a closing one.
- A stream update that arrives inside the throttle interval is dropped, including the last one.

## Model

| member | source | states |
|---|---|---|
| Basics.DecimalRoundTrip | src/permissions.ts:111 | the decimal digits of a button index read back as that index |
| Basics.ParseRendered | src/permissions.ts:125-126 | `parseInt` of a rendered index is that index |
| Formatter.IndexOfFence | src/formatter.ts:43 | the result is -1 or the first fence at or after `from`, and no fence lies between `from` and it |
| Formatter.FenceStarts | src/formatter.ts:71-91 | every listed position is a fence, and consecutive fences do not overlap |
| Formatter.WordPrefix | src/formatter.ts:80 | the longest prefix of word characters: all word characters, and the next character is not one |
| Formatter.ScanFences | src/formatter.ts:71-91 | the scan ends inside a block iff it started inside and saw an even number of fences, or outside and saw an odd number; with no fence the state is unchanged |
| Formatter.FindCodeBlockBoundary | src/formatter.ts:37-55 | -1 iff no fence below `maxLen` ends past half of it; otherwise the end of the last fence below `maxLen`, between 3 and `maxLen + 2` |
| Formatter.SplitIndex | src/formatter.ts:17-28 | the cut is between 1 and `maxLen + 2` characters into the remaining text |
| Formatter.SplitPieces | src/formatter.ts:10-31 | the pieces and the dropped seam whitespace concatenate back to the input; each piece has 1 to `maxLen + 2` characters; every later piece starts with non-whitespace |
| Formatter.ChunkResponse | src/formatter.ts:3-35 | one output chunk per raw piece, none for empty text, and each differs from its piece only by added fences |
| Formatter.ShortTextOneChunk | src/formatter.ts:11-13 | text of 1 to `maxLen` characters is one chunk, closed with a fence iff its fence count is odd |
| Formatter.FixFrom | src/formatter.ts:57-106 | the repair keeps the chunk count |
| Formatter.FixFromAt | src/formatter.ts:57-106 | chunk `i` of the repair is the one-chunk step applied in the fence state left by chunks `0..i-1` |
| Formatter.FixFromAddsOnlyFences | src/formatter.ts:57-106 | each repaired chunk is its input with at most a reopening line in front and a closing fence behind |
| Formatter.ContinuationParity | src/formatter.ts:66-96 | a chunk entered outside a block has an even fence count; one entered inside starts with the reopening line and has an odd count |
| Formatter.EvenChunksUnchanged | src/formatter.ts:57-106 | chunks that all have even fence counts pass through unchanged |
| Formatter.ContinuationLeftOpen | src/formatter.ts:66-71 | as written, the continuation of a Python block is reopened but never closed |
| Formatter.FixCodeBlockIntended | src/formatter.ts:57-106 | with the reopening line kept out of the scan, every chunk has an even fence count and only fences are added |
| Formatter.IntendedStateTracksDocument | src/formatter.ts:71-91 | in the corrected repair, the state after a run of chunks is inside a block iff the whole text so far has an odd fence count |
| Formatter.IntendedClosesContinuation | src/formatter.ts:66-96 | the corrected repair closes the continuation chunk that the code leaves open |
| Formatter.Truncate | src/formatter.ts:135-138 | text that fits is unchanged; longer text becomes its first `maxLen - 3` characters plus "...", exactly `maxLen` long |
| Formatter.TruncateIdempotent | src/formatter.ts:135-138 | truncating twice is truncating once |
| Formatter.FormatTokens | src/formatter.ts:108-111 | a "k" suffix iff at least 1000 tokens; the plain count below that; above it, thousands rounded half up; no leading zeros |
| Formatter.TurnsText | src/formatter.ts:123 | "turn" is singular iff the count is 1 |
| Formatter.FormatCost | src/formatter.ts:113-133 | the footer starts with "-# ", the cost and the separator; it ends with the context part iff both token count and window are non-zero, else with the turn count |
| Formatter.FooterShape | src/formatter.ts:124-132 | the same shape for any parts list of the footer's form |
| Sessions.Get | src/sessions.ts:54-60 | a session id exactly when the channel has a current session, and it is that record's id |
| Sessions.Set | src/sessions.ts:62-75 | afterwards the channel's id is the new one; other channels and all snapshots are unchanged |
| Sessions.Clear | src/sessions.ts:77-79 | afterwards the channel has no session; other channels and all snapshots are unchanged |
| Sessions.Save | src/sessions.ts:101-122 | true iff the channel has a current session; on false nothing changes; on true the snapshot under the label holds that session, replacing any earlier one, and nothing else changes |
| Sessions.Restore | src/sessions.ts:144-162 | true iff the snapshot exists; on false nothing changes; on true the snapshot becomes the current session and is removed, and other channels are untouched |
| Sessions.SaveClearRestore | src/sessions.ts:101-162 | save, clear and restore under one label brings back the same session and project and consumes the snapshot |
| Sessions.RestoreConsumes | src/sessions.ts:155-161 | a second restore of the same label fails and changes nothing |
| Sessions.OtherChannelsUntouched | src/sessions.ts:54-162 | no store operation on one channel changes another channel's session |
| Sessions.Insert | src/sessions.ts:124-142 | inserting keeps the list newest first and adds exactly the new entry |
| Sessions.ListSaved | src/sessions.ts:124-142 | exactly the channel's snapshots, each once, with their stored data, newest first |
| Sessions.GetAll | src/sessions.ts:81-99 | one row per channel with a current session, carrying that session's record |
| Projects.Candidate | src/projects.ts:43-73 | an entry registers iff it is a directory whose `discord.json` parses with a non-empty string channel id; name, path, defaults and tool lists are as in the file |
| Projects.DiscoverFrom | src/projects.ts:42-80 | registration keeps channel ids distinct and only appends |
| Projects.Discover | src/projects.ts:32-83 | no registry iff the root is missing; otherwise a fresh registry with distinct channel ids |
| Projects.GetByChannelId | src/projects.ts:85-87 | a project iff one is registered for the channel, and it is that project |
| Projects.GetAll | src/projects.ts:89-91 | exactly the registered projects |
| Projects.Count | src/projects.ts:93-95 | the number of distinct registered channels |
| Projects.DiscoverFirstWins | src/projects.ts:59-62 | the project found for a channel is built from the earliest entry naming it |
| Projects.RediscoverForgets | src/projects.ts:33 | discovery starts empty: entries that register nothing leave no project behind |
| Claude.WithUploads | src/claude.ts:44-48 | without uploads the prompt is unchanged; with uploads every path is listed in order on its own line as "  - path", between the header line and "]" followed by a blank line and the prompt |
| Claude.BuildOptions | src/claude.ts:52-67 | `resume`, `model`, budget and tool lists are present exactly when truthy, with the given values |
| Claude.FormatToolUse | src/claude.ts:178-187 | the bare name for an empty hint; otherwise "name: hint", and a hint over 80 characters becomes its first 77 characters and "..." |
| Claude.EmptyCommandHidesPath | src/claude.ts:179-184 | an empty `command` stops the fallback chain |
| Claude.NullCommandFallsThrough | src/claude.ts:179-184 | a null `command` falls through to `file_path` |
| Claude.RunQuery | src/claude.ts:33-176 | the result text is never empty, an errors list is never empty, and the query gets the built options and prompt |
| Claude.StreamTextGrows | src/claude.ts:92-101 | each streamed text extends the previous one, and the last is all deltas before the result |
| Claude.TextFallback | src/claude.ts:104-108 | the text is the assistant text, else the result's text, else "(No response)" |
| Claude.SessionIdOrder | src/claude.ts:69-89 | the session id is the result's, else the last init's, else the given one or "" |
| Claude.StopsAtFirstResult | src/claude.ts:139-162 | events after the first result change nothing |
| Claude.ErrorsOnlyOnFailure | src/claude.ts:146-148 | errors are present iff the first result failed with a non-empty errors list |
| Permissions.ButtonIdRoundTrip | src/permissions.ts:111-126 | a button id parses back to the index it was made from |
| Permissions.ClickChoosesOption | src/permissions.ts:125-137 | clicking button i chooses option i's label |
| Permissions.AskUserQuestion | src/permissions.ts:79-154 | no questions allows the input unchanged; any unanswered question denies with "Question timed out"; no other denial |
| Permissions.AnsweredQuestionsAllow | src/permissions.ts:150-153 | when every question is answered, the input is allowed with `answers` added, keyed by question index |
| Permissions.ClickedButtonsAnswer | src/permissions.ts:96-153 | clicking one button per question records each clicked label |
| Permissions.CanUseTool | src/permissions.ts:13-77 | questions go to the question handler; other tools are allowed iff approved, denied by the user on reject, and time out otherwise |
| Permissions.FailClosed | src/permissions.ts:13-154 | an allow always comes from an approval or a full set of answers, and changes nothing but `answers` |
| Permissions.QuestionTimeoutDenies | src/permissions.ts:138-147 | one unanswered question denies the whole request |
| Permissions.FormatToolDescription | src/permissions.ts:156-189 | the Bash preview is the command in a block, cut to 497 characters and "..." when over 500; the Task description is cut at 200 and the JSON of other tools at 500 the same way; an Edit with short strings shows both in full |
| Permissions.WriteHidesContent | src/permissions.ts:165-169 | the Write preview depends only on the path and the content's length |
| Commands.GetModelOverride | src/commands.ts:14-16 | the stored model override or nothing |
| Commands.GetPermissionModeOverride | src/commands.ts:18-22 | the stored permission-mode override or nothing |
| Commands.NewSession | src/commands.ts:132-155 | the corrected `/new`: the channel ends with no session and no handle; a running query is signalled; a truthy label saves first and the reply reports the save |
| Commands.NewSessionAsWritten | src/commands.ts:132-155 | `/new` as written: with a running query nothing changes and no reply is sent; otherwise the session is cleared and a reply sent |
| Commands.NewWhileRunning | src/commands.ts:134-137 | with a running query, `/new` as written keeps the session and handle and stays silent, where the corrected `/new` clears, stops and replies |
| Commands.ResumeNamed | src/commands.ts:170-177 | `/resume` with a label is `restore`, replying by its result |
| Commands.ListForResume | src/commands.ts:158-169 | nothing changes; the fixed notice iff the channel has no snapshots, else one line per row of a listing of the store: every snapshot of the channel once, newest first, each row showing the stored snapshot |
| Commands.SessionSummary | src/commands.ts:200 | the status shows at most the first 8 characters of the session id, or "none" |
| Commands.StatusReply | src/commands.ts:181-205 | the not-linked notice exactly when the channel has no project; otherwise five lines: name, path, the model override else the project model else "default", the mode override else the project mode, and the session summary |
| Commands.StatusHidesSessionTail | src/commands.ts:181-205 | sessions that agree on their first 8 characters give the same status |
| Commands.ConfigLines | src/commands.ts:224-256 | the model and mode lines show the effective values and carry the override mark iff an override is set |
| Commands.MarkedLine | src/commands.ts:237-242 | the line ends with the mark iff it was asked for |
| Commands.DisplayName | src/commands.ts:283-288 | Sonnet if the name contains "sonnet", Opus if it contains "opus", else Haiku |
| Commands.SetModel | src/commands.ts:278-292 | a missing option does nothing; otherwise only this channel's model override changes |
| Commands.SetPermissionMode | src/commands.ts:294-301 | a missing option does nothing; otherwise only this channel's mode override changes |
| Commands.AbortQuery | src/commands.ts:303-313 | the corrected `/abort`: without a handle only a reply; with one, the query is signalled, the handle removed and "Query aborted." sent |
| Commands.AbortQueryAsWritten | src/commands.ts:303-313 | `/abort` as written: with a handle nothing changes and no reply is sent; without one, the "nothing running" reply |
| Commands.AbortNeverLands | src/commands.ts:304-310 | as written, no number of repeated `/abort`s stops a running query or gets a reply; the corrected `/abort` stops it at once |
| Commands.CostReply | src/commands.ts:207-222 | the fixed notice iff no cost is recorded; otherwise the recorded cost and turn count |
| Commands.ProjectsReply | src/commands.ts:258-268 | the fixed notice iff no project is registered; otherwise one line per project in registration order |
| Commands.Rescan | src/commands.ts:270-276 | a fresh discovery replaces the registry and the reply counts its projects |
| Commands.HandleCommand | src/commands.ts:125-338 | the command as written: each command changes only its own part of the context; no command stops a running query or forgets its handle, and with one running `/new` and `/abort` change nothing and do not reply; unknown commands get "Unknown command."; every other branch is tied to its operation: `/new` when idle, `/resume` with or without a label, `/abort` when idle, the five reports and their replies, `/rescan`, `/model` and `/permission-mode` |
| Commands.ReportCommand | src/commands.ts:181-268 | the reporting commands change nothing and reply with the status, cost, config, projects or help text |
| Commands.NewSavedThenResumed | src/commands.ts:132-177 | `/new` with a label then `/resume` with it brings the session back and consumes the snapshot; as written the same holds when no query is running |
| Commands.AbortTwice | src/commands.ts:303-313 | a second corrected `/abort` finds nothing to stop; as written `/abort` agrees with it when no query is running |
| Commands.ModelOverrideIsLocal | src/commands.ts:278-292 | `/model` in one channel leaves another channel's status unchanged |
| Commands.StatusShowsOverride | src/commands.ts:189-193 | after `/model`, the status shows the chosen model |
| Orchestrator.ApplyOverrides | src/discord.ts:43-53 | only the model and mode change, and each only when its override is non-empty |
| Orchestrator.ApplyOverridesIdempotent | src/discord.ts:43-53 | applying the overrides twice is applying them once |
| Orchestrator.StatusAgreesWithQuery | src/discord.ts:43-53 | with no empty-string override, `/status` shows the permission mode the query's options carry, and the model too unless the project's model is "" with no override; then status shows "" and the options omit the model |
| Orchestrator.SessionErrorIgnoresCase | src/discord.ts:315-324 | the test ignores letter case |
| Orchestrator.SessionErrorInContext | src/discord.ts:315-324 | a matching message still matches inside longer text |
| Orchestrator.SessionErrorInJoin | src/discord.ts:217-218 | one matching error makes the joined error text match |
| Orchestrator.BuildPrompt | src/discord.ts:103-110 | the prompt is never blank; it is the upload list plus text, or the fixed request when that is blank |
| Orchestrator.UploadsAreKept | src/discord.ts:104-107 | with uploads the list is always kept |
| Orchestrator.DeliveryPlan | src/discord.ts:239-249 | one message per chunk, and only the last carries the footer |
| Orchestrator.DeliveryLossless | src/discord.ts:239-249 | the messages together are the chunks followed by the footer once |
| Orchestrator.Settle | src/discord.ts:205-249 | the session is written, then cleared only for a session error on a resumed session; the cost is recorded; the reply is the expiry notice, the error, or the delivery plan of the chunked answer with the cost footer, which reads back as the chunks, a blank line and the footer |
| Orchestrator.NewSessionSurvivesError | src/discord.ts:216-218 | a fresh query's session is kept even when it fails |
| Orchestrator.Fail | src/discord.ts:250-265 | a thrown error clears the session only if one was resumed and the message matches |
| Orchestrator.StartQuery | src/discord.ts:141-180 | the query runs with the overrides applied and the channel's current session |
| Orchestrator.ArriveStep | src/discord.ts:83-119 | ignored messages change nothing; with a handle the message joins the queue tail; otherwise it is dispatched |
| Orchestrator.CreatedStep | src/discord.ts:178-180 | the channel gets a handle and nothing else changes |
| Orchestrator.Retire | src/discord.ts:266-267 | the finished query is removed from the channel's running list |
| Orchestrator.FinallyStep | src/discord.ts:266-287 | the handle goes; the queue head is removed and dispatched iff the channel is linked and the head has text |
| Orchestrator.AfterQuery | src/discord.ts:151-265 | without a placeholder nothing is posted; a returned query is settled with the result of its events; a thrown query gets the failure reply; a query whose reply fails to post is settled and then failed, as `Undeliver` |
| Orchestrator.Undeliver | src/discord.ts:205-265 | the session and cost `Settle` wrote are kept unless the failure's message clears the session; what was posted is a proper prefix of the settled reply followed by the failure reply, which is the last text posted |
| Orchestrator.UndeliveredDropsSession | src/discord.ts:205-265 | when posting the reply fails with a session error on a resumed session, the session `Settle` wrote is cleared, the cost stays recorded, and the last text posted is the expiry notice |
| Orchestrator.FinishStep | src/discord.ts:141-288 | a finished query posts its reply; the context afterwards is the settled one (session written or cleared, cost recorded) with the channel released; the queue loses its head and the query dispatched next is the head's |
| Orchestrator.FinishRecordsSession | src/discord.ts:205-222 | after a returned query the cost record is the query's, and unless it failed its session is the channel's current one |
| Orchestrator.StepLeavesOthers | src/discord.ts:83-288 | an event for one channel leaves every other channel's queue, queries in flight and handle unchanged, and never touches the registry or overrides |
| Orchestrator.QueuedInArrivalOrder | src/discord.ts:91-97 | messages for a busy channel queue in arrival order |
| Orchestrator.FinishServesHead | src/discord.ts:271-285 | a finishing query dispatches the queue head next |
| Orchestrator.StreamEdits | src/discord.ts:181-189 | edits are spaced by at least 1000 ms, at most 1900 characters, each shows some update, and an update 1000 ms after the last edit is shown first |
| Orchestrator.StreamEditsExtend | src/discord.ts:181-189 | each new update is shown exactly when it comes at least 1000 ms after the last edit made so far, and earlier edits stay as they were |
| Orchestrator.SpacedUpdatesAllShown | src/discord.ts:181-189 | updates that are already spaced are all shown |
| Orchestrator.LastUpdateDropped | src/discord.ts:183 | an update inside the interval is dropped, even the last |
| Orchestrator.RaceDispatchesTwice | src/discord.ts:91-97 | as written, two messages before the creation report both dispatch |
| Orchestrator.QueueStranded | src/discord.ts:271-285 | as written, an empty queued head strands the rest of the queue, and a later message overtakes it |
| Orchestrator.FirstDispatchable | src/discord.ts:277 | the first queued message with text |
| Orchestrator.ReservingFinally | src/discord.ts:266-287 | the corrected release dispatches the first queued message with text, or frees the channel |
| Orchestrator.FinallyLeavesOthers | src/discord.ts:266-287 | releasing one channel leaves every other channel's queue, running queries and hold as they were |
| Orchestrator.ReservedKeepsOne | src/discord.ts:91-97 | in the corrected machine every event keeps one query per busy channel and no waiting message without a query |
| Orchestrator.ReservedRaceQueues | src/discord.ts:91-97 | in the corrected machine the second message queues |
| Orchestrator.ReservedDrainsPastEmpty | src/discord.ts:271-285 | in the corrected machine an empty head does not strand the message behind it |

## Left out

- Discord I/O: the client wiring, typing indicator, embeds, buttons, reactions and message edits. Only the texts they carry are modelled. A failed edit or send of the reply is the `Undelivered` ending, with the number of parts that got through; a failure of the catch block's own edit is not modelled.
- Slash-command registration over REST, `discovery.ts` and `index.ts`: startup plumbing.
- `downloadAttachments`: file system and network I/O. Its result is the `paths` parameter.
- SQLite: the schema, `datetime('now')` and the database lifecycle become two maps and a logical clock.
- The SDK's `query`, `interrupt` and `close`, and the component waits (ten minutes for a permission prompt, src/permissions.ts:43; two minutes for a question, src/permissions.ts:122): the message stream becomes an event list, and each wait becomes a click or a timeout.
- Floating-point rendering (`toFixed`, the cost threshold, durations, the budget display): these come in as the `Render` parameter.
- `JSON.stringify` in the default tool description: a text parameter.
- Concurrency beyond the three queue events. The model runs events one at a time, in any order that is possible.
- `process.exit` when the projects root is missing: `Discover` returns `None`, and `/rescan` then gives no reply.
- Projects.Candidate: `path.join` is modelled as `root + "/" + name`, which agrees for a root without a trailing separator.
- Projects.Candidate: a `channelId` that is not a string is read as absent, so nothing is registered for it. The code tests only truthiness, so a truthy non-string such as `123` is registered under a non-string key. It is then counted and listed by `/projects` and `/rescan`, but no message can reach it. Registry keys are strings in this model.
- Orchestrator.IsSessionError: lower-casing is ASCII only. This is the same as `toLowerCase` for the five ASCII markers.
- Orchestrator.StartQuery: the session id is read when the query is dispatched. The code reads it after the placeholder is posted, and no other event comes between them in this model.
- Commands.NewSession, Commands.AbortQuery: these are the corrected commands. With a running query the code as written throws before it changes anything or replies; that behaviour is `NewSessionAsWritten` and `AbortQueryAsWritten` (see Findings), and `HandleCommand` dispatches to those. Stopping the query is reported as the `signalled` flag, not performed.
- Commands.NewSavedThenResumed: stated for the corrected `/new`. As written, it holds only when no query is running in the channel, because `/new` then throws before saving.
- Commands.AbortTwice: stated for the corrected `/abort`. As written, the first `/abort` of a running query throws and keeps the handle, so no number of repeats finds nothing to stop (`AbortNeverLands`).
- Lengths and cut points (`truncate`, the chunk limit, the stream display cut, the status session prefix) agree with JavaScript only for text in the Basic Multilingual Plane. For text with emoji or other astral characters, JavaScript counts two code units per character and can cut a surrogate pair in half. The model counts one `char` and cannot express a split pair.
- Commands.ConfigLines: the budget line and float rendering are not pinned down. Only the line count, the model and mode lines, and the override marks are stated.
- Orchestrator.StatusAgreesWithQuery: excludes empty-string overrides. `/status` shows an empty override, but the query ignores it. An empty project model is covered: status shows "" while the query runs with the SDK's default model.
- Claude.FormatToolUse: hint values are taken as their text. The code tests `.length` and truthiness on the raw value, so a `command` of `0` or `false` gives the bare name where the model gives "name: 0"; an array is cut by its element count; an empty array gives "name: ".
- Permissions.AskUserQuestion: a `questions` value that is not a list is read as no questions. A parse failure or out-of-range button takes the timeout path.
- Permissions.FormatToolDescription: for Edit, the exact text is stated only when neither string is cut; otherwise only a bound is stated.
- Claude.RunQuery: tool-use summaries and status messages only reach the activity callback, so they are not part of the result.

## Findings

| source | as written | input that shows it | evidently intended | confidence | as-written member | corrected member |
|---|---|---|---|---|---|---|
| src/formatter.ts:66-71 | the reopening fence put in front of a continuation chunk is scanned too, and counts as a close | chunks "```py\nx" and "y": the second comes out as "```py\ny", left open | scan only the raw chunk, so a continuation is reopened and closed again | not executed | Formatter.ContinuationLeftOpen | Formatter.IntendedClosesContinuation |
| src/discord.ts:91-97 | a channel counts as busy only once the query reports its creation | two messages for an idle channel arriving before the first query's creation report: both dispatch | mark the channel busy when a query is dispatched | not executed | Orchestrator.RaceDispatchesTwice | Orchestrator.ReservedKeepsOne |
| src/discord.ts:271-285 | a queued head without text is dropped, and the rest of the queue waits for a query that never starts | queue of an attachment-only message then "second"; the running query finishes; then "third" arrives and is dispatched before "second" | skip to the first queued message with text | not executed | Orchestrator.QueueStranded | Orchestrator.ReservedDrainsPastEmpty |
| src/commands.ts:134-137 | `/new` calls `abort()` on the running-query handle, but the handles stored are `{ interrupt }` records (src/discord.ts:33-35, :179), so the call throws a `TypeError`; the error is only logged | `/new` in a channel with a running query: the session is not cleared, the handle stays, no reply | interrupt the query, forget the handle, clear the session and reply | not executed | Commands.NewWhileRunning | Commands.NewSession |
| src/commands.ts:304-310 | `/abort` calls `abort()` on the same `{ interrupt }` record and throws before the delete and the reply | `/abort` while a query runs, sent any number of times: the handle stays and no reply comes | interrupt the query, forget the handle and reply "Query aborted." | not executed | Commands.AbortNeverLands | Commands.AbortQuery |

=== FILE: basics.dfy ===
/**
  Shared vocabulary for the gateway model: optional values, the string
  operations the TypeScript code relies on (`includes`, `toLowerCase`,
  `trim`, `join`, `replace`), decimal rendering of counts, and the
  JSON-like values that arrive as tool inputs from the agent backend.

  A `char` is a Unicode scalar value. For text in the Basic Multilingual
  Plane that is one UTF-16 code unit, so there `|s|` is JavaScript's
  `s.length` and `s[..k]` is `s.slice(0, k)`; a character outside it is
  one `char` here but two code units in JavaScript.
 */
module Basics {

  datatype Option<+T> = None | Some(value: T) {
    /** JavaScript's `x ?? d` when `None` stands for null/undefined. */
    function GetOr(default: T): T {
      if Some? then value else default
    }
  }

  /** JavaScript truthiness of an optional string: present and non-empty. */
  predicate Truthy(s: Option<string>) {
    s.Some? && s.value != ""
  }

  // ---------------------------------------------------------------------
  // Substrings
  // ---------------------------------------------------------------------

  predicate IsPrefix(p: string, s: string) {
    |p| <= |s| && s[..|p|] == p
  }

  predicate IsSuffix(p: string, s: string) {
    |p| <= |s| && s[|s| - |p|..] == p
  }

  lemma SuffixOfAppend(a: string, b: string)
    ensures IsSuffix(b, a + b)
  {
    assert (a + b)[|a|..] == b;
  }

  lemma AppendAssoc<T>(a: seq<T>, b: seq<T>, c: seq<T>)
    ensures a + (b + c) == a + b + c
  {
  }

  lemma PrefixOfAppend(a: string, b: string)
    ensures IsPrefix(a, a + b)
  {
    assert (a + b)[..|a|] == a;
  }

  lemma SuffixLastChar(p: string, s: string)
    requires |p| > 0 && IsSuffix(p, s)
    ensures s[|s| - 1] == p[|p| - 1]
  {
    assert s[|s| - |p|..][|p| - 1] == s[|s| - 1];
  }

  /** A string whose last character is not `p`'s last character does not
      end with `p`. */
  lemma NotSuffixByLastChar(p: string, s: string)
    requires |p| > 0 && |s| > 0 && s[|s| - 1] != p[|p| - 1]
    ensures !IsSuffix(p, s)
  {
    assert |p| <= |s| ==> s[|s| - |p|..][|p| - 1] == s[|s| - 1];
  }

  lemma SuffixTransitive(a: string, b: string, c: string)
    requires IsSuffix(a, b) && IsSuffix(b, c)
    ensures IsSuffix(a, c)
  {
    assert c[|c| - |a|..] == c[|c| - |b|..][|b| - |a|..];
  }

  /** `s.includes(sub)` */
  predicate Contains(s: string, sub: string)
    decreases |s|
  {
    IsPrefix(sub, s) || (|s| > 0 && Contains(s[1..], sub))
  }

  lemma {:induction false} ContainsInSuffix(a: string, s: string, sub: string)
    requires Contains(s, sub)
    ensures Contains(a + s, sub)
    decreases |a|
  {
    if |a| > 0 {
      ContainsInSuffix(a[1..], s, sub);
      assert (a + s)[1..] == a[1..] + s;
    } else {
      assert a + s == s;
    }
  }

  lemma {:induction false} ContainsInPrefix(s: string, b: string, sub: string)
    requires Contains(s, sub)
    ensures Contains(s + b, sub)
    decreases |s|
  {
    if IsPrefix(sub, s) {
      assert (s + b)[..|sub|] == s[..|sub|];
    } else {
      ContainsInPrefix(s[1..], b, sub);
      assert (s + b)[1..] == s[1..] + b;
    }
  }

  /** An occurrence found anywhere survives any surrounding text. */
  lemma ContainsInContext(a: string, s: string, b: string, sub: string)
    requires Contains(s, sub)
    ensures Contains(a + s + b, sub)
  {
    ContainsInSuffix(a, s, sub);
    ContainsInPrefix(a + s, b, sub);
  }

  /** `s.replace(pat, "")`: removes the first occurrence of `pat`, if any. */
  function RemoveFirst(s: string, pat: string): (r: string)
    decreases |s|
  {
    if |pat| > 0 && IsPrefix(pat, s) then s[|pat|..]
    else if |s| == 0 then s
    else [s[0]] + RemoveFirst(s[1..], pat)
  }

  // ---------------------------------------------------------------------
  // Case and whitespace
  // ---------------------------------------------------------------------

  /** `toLowerCase` restricted to the ASCII letters. */
  function LowerChar(c: char): char {
    if 'A' <= c <= 'Z' then (c as int - 'A' as int + 'a' as int) as char else c
  }

  function Lower(s: string): (r: string)
    ensures |r| == |s|
    ensures forall i :: 0 <= i < |s| ==> r[i] == LowerChar(s[i])
  {
    seq(|s|, i requires 0 <= i < |s| => LowerChar(s[i]))
  }

  /** ECMAScript WhiteSpace and LineTerminator code points, the set that
      `trim` and `trimStart` remove. */
  predicate IsWhitespace(c: char) {
    var n := c as int;
    n == 0x09 || n == 0x0A || n == 0x0B || n == 0x0C || n == 0x0D || n == 0x20
    || n == 0xA0 || n == 0x1680 || (0x2000 <= n <= 0x200A) || n == 0x2028
    || n == 0x2029 || n == 0x202F || n == 0x205F || n == 0x3000 || n == 0xFEFF
  }

  predicate AllWhitespace(s: string) {
    forall i :: 0 <= i < |s| ==> IsWhitespace(s[i])
  }

  /** Length of the whitespace run that `trimStart` removes. */
  function LeadingWhitespace(s: string): (n: nat)
    ensures n <= |s|
    ensures AllWhitespace(s[..n])
    ensures n < |s| ==> !IsWhitespace(s[n])
  {
    if |s| == 0 || !IsWhitespace(s[0]) then 0
    else
      var k := LeadingWhitespace(s[1..]);
      assert s[..k + 1] == [s[0]] + s[1..][..k];
      k + 1
  }

  function TrimStart(s: string): string {
    s[LeadingWhitespace(s)..]
  }

  /** `s.trim()` is empty exactly when every character is whitespace. */
  predicate IsBlank(s: string) {
    AllWhitespace(s)
  }

  /** No element occurs twice. */
  predicate Distinct<T(==)>(xs: seq<T>) {
    forall i, j :: 0 <= i < j < |xs| ==> xs[i] != xs[j]
  }

  /** A sequence without repetitions has as many elements as its set. */
  lemma {:induction false} DistinctCard<T>(xs: seq<T>)
    requires Distinct(xs)
    ensures |set x | x in xs| == |xs|
    decreases |xs|
  {
    if |xs| > 0 {
      var rest := xs[1..];
      assert Distinct(rest) by {
        forall i, j | 0 <= i < j < |rest| ensures rest[i] != rest[j] {
          assert rest[i] == xs[i + 1] && rest[j] == xs[j + 1];
        }
      }
      DistinctCard(rest);
      assert (set x | x in xs) == {xs[0]} + (set x | x in rest) by {
        assert xs == [xs[0]] + rest;
      }
      assert xs[0] !in rest;
    }
  }

  // ---------------------------------------------------------------------
  // Joining
  // ---------------------------------------------------------------------

  /** `parts.join(sep)` */
  function Join(parts: seq<string>, sep: string): string
    decreases |parts|
  {
    if |parts| == 0 then ""
    else if |parts| == 1 then parts[0]
    else parts[0] + sep + Join(parts[1..], sep)
  }

  /** The last part of a join follows the last separator. */
  lemma {:induction false} JoinLast(parts: seq<string>, sep: string)
    requires |parts| >= 2
    ensures Join(parts, sep) == Join(parts[..|parts| - 1], sep) + sep + parts[|parts| - 1]
    decreases |parts|
  {
    if |parts| > 2 {
      JoinLast(parts[1..], sep);
      assert parts[1..][..|parts| - 2] == parts[..|parts| - 1][1..];
    } else {
      assert parts[..1] == [parts[0]];
    }
  }

  // ---------------------------------------------------------------------
  // Decimal numerals
  // ---------------------------------------------------------------------

  predicate IsDigit(c: char) {
    '0' <= c <= '9'
  }

  predicate AllDigits(s: string) {
    forall i :: 0 <= i < |s| ==> IsDigit(s[i])
  }

  function DigitChar(d: nat): (c: char)
    requires d < 10
    ensures IsDigit(c)
  {
    (d + '0' as int) as char
  }

  /** `${n}` for a non-negative integer. */
  function NatToString(n: nat): (r: string)
    decreases n
  {
    if n < 10 then [DigitChar(n)]
    else NatToString(n / 10) + [DigitChar(n % 10)]
  }

  /** The value of a string of decimal digits. */
  function DecimalValue(s: string): nat
    requires AllDigits(s)
    decreases |s|
  {
    if |s| == 0 then 0
    else DecimalValue(s[..|s| - 1]) * 10 + (s[|s| - 1] as int - '0' as int)
  }

  /** Rendering a count and reading it back gives the count. */
  lemma {:induction false} DecimalRoundTrip(n: nat)
    ensures 0 < |NatToString(n)|
    ensures AllDigits(NatToString(n))
    ensures DecimalValue(NatToString(n)) == n
    ensures NatToString(n)[0] == '0' <==> n == 0
    decreases n
  {
    if n >= 10 {
      DecimalRoundTrip(n / 10);
      var s := NatToString(n);
      assert s[..|s| - 1] == NatToString(n / 10);
      assert s[0] == NatToString(n / 10)[0];
    }
  }

  /** Length of the run of leading decimal digits. */
  function DigitRun(s: string): (k: nat)
    ensures k <= |s|
    ensures AllDigits(s[..k])
    ensures k < |s| ==> !IsDigit(s[k])
  {
    if |s| == 0 || !IsDigit(s[0]) then 0
    else
      var k := DigitRun(s[1..]);
      assert s[..k + 1] == [s[0]] + s[1..][..k];
      k + 1
  }

  /** `parseInt(s, 10)` for strings that start with digits; `None` is NaN.
      (Leading whitespace and signs never occur in the strings parsed here.) */
  function ParseLeadingInt(s: string): (r: Option<nat>) {
    var k := DigitRun(s);
    if k == 0 then None else Some(DecimalValue(s[..k]))
  }

  lemma ParseRendered(n: nat)
    ensures ParseLeadingInt(NatToString(n)) == Some(n)
  {
    DecimalRoundTrip(n);
    var s := NatToString(n);
    assert s[..|s|] == s;
  }

  // ---------------------------------------------------------------------
  // Tool inputs
  // ---------------------------------------------------------------------

  /** One option of a structured question. */
  datatype QuestionOption = QuestionOption(optionLabel: string, description: string)

  /** One structured question the agent asks through `AskUserQuestion`. */
  datatype Question = Question(
    question: string,
    header: string,
    options: seq<QuestionOption>,
    multiSelect: bool)

  /** A field of a tool input record. `Other` is any value not singled out
      here (numbers, objects, ...) together with its `String(v)` text. */
  datatype Value =
    | Null
    | Str(s: string)
    | QuestionList(items: seq<Question>)
    | AnswerMap(answers: map<string, string>)
    | Other(text: string)

  type ToolInput = map<string, Value>

  /** Number rendering done by the JavaScript runtime, which this model does
      not reproduce: `fixed(x, d)` is `x.toFixed(d)` and `number(x)` is
      `${x}` for a floating-point `x`. */
  datatype Render = Render(fixed: (real, nat) -> string, number: real -> string)

  /** `String(input[key] ?? "")` */
  function FieldText(input: ToolInput, key: string): string {
    if key !in input then ""
    else match input[key]
      case Null => ""
      case Str(s) => s
      case QuestionList(items) => Join(seq(|items|, _ => "[object Object]"), ",")
      case AnswerMap(_) => "[object Object]"
      case Other(t) => t
  }
}

=== FILE: claude.dfy ===
/**
  The agent query of src/claude.ts: the options handed to the agent SDK,
  the prompt with its upload list, and `runQuery`'s loop over the SDK's
  message stream, written as a left fold over a finite list of events.

  The SDK itself is not part of this model: the messages it yields are
  the `events` parameter. The two callbacks `onStreamText` and
  `onToolActivity` are recorded as the sequences of arguments they
  receive.
 */
module Claude {
  import opened Basics
  import Formatter
  import Projects

  // ---------------------------------------------------------------------
  // Prompt and options
  // ---------------------------------------------------------------------

  /** The upload list put in front of a prompt when files were attached;
      the prompt is left alone when there are none. */
  function WithUploads(paths: seq<string>, prompt: string): (r: string)
    ensures |paths| == 0 ==> r == prompt
    ensures |paths| > 0 ==> IsPrefix("[User uploaded files:\n", r) && IsSuffix("]\n\n" + prompt, r)
    ensures |paths| > 0 ==> r == "[User uploaded files:\n" + UploadLines(paths) + "]\n\n" + prompt
  {
    if |paths| == 0 then prompt
    else
      var fileList := Join(seq(|paths|, i requires 0 <= i < |paths| => "  - " + paths[i]), "\n");
      var head := "[User uploaded files:\n" + fileList + "\n";
      var r := head + "]\n\n" + prompt;
      assert r[..22] == "[User uploaded files:\n";
      SuffixOfAppend(head, "]\n\n" + prompt);
      assert r == head + ("]\n\n" + prompt);
      JoinedLines(paths);
      AppendAssoc("[User uploaded files:\n", fileList, "\n");
      r
  }

  /** The upload list written path by path: each path on a line of its
      own behind "  - ". */
  function UploadLines(paths: seq<string>): string
    decreases |paths|
  {
    if |paths| == 0 then "" else "  - " + paths[0] + "\n" + UploadLines(paths[1..])
  }

  /** The file list joined by newlines, with its closing newline, is the
      list written path by path. */
  lemma {:induction false} JoinedLines(paths: seq<string>)
    requires |paths| > 0
    ensures Join(seq(|paths|, i requires 0 <= i < |paths| => "  - " + paths[i]), "\n") + "\n" == UploadLines(paths)
    decreases |paths|
  {
    var lines := seq(|paths|, i requires 0 <= i < |paths| => "  - " + paths[i]);
    if |paths| == 1 {
      assert UploadLines(paths[1..]) == "";
    } else {
      var tail := paths[1..];
      assert lines[1..] == seq(|tail|, i requires 0 <= i < |tail| => "  - " + tail[i]);
      JoinedLines(tail);
      var rest := Join(lines[1..], "\n");
      assert Join(lines, "\n") == lines[0] + "\n" + rest;
      AppendAssoc(lines[0] + "\n", rest, "\n");
    }
  }

  /** The options object of claude.ts:52-67; `None` is a key that the
      spread did not add. Fixed entries (setting sources, system prompt,
      partial messages, the permission callback) are not represented. */
  datatype Options = Options(
    cwd: string,
    permissionMode: string,
    resume: Option<string>,
    model: Option<string>,
    maxBudgetUsd: Option<real>,
    allowedTools: Option<seq<string>>,
    disallowedTools: Option<seq<string>>)

  /** Optional keys are present exactly when the value is truthy: a
      non-empty string, a non-zero budget, or any list (an empty array is
      truthy in JavaScript). */
  function BuildOptions(project: Projects.ProjectConfig, sessionId: Option<string>): (o: Options)
    ensures o.cwd == project.path && o.permissionMode == project.permissionMode
    ensures o.resume.Some? <==> Truthy(sessionId)
    ensures o.resume.Some? ==> o.resume == sessionId
    ensures o.model.Some? <==> Truthy(project.model)
    ensures o.model.Some? ==> o.model == project.model
    ensures o.maxBudgetUsd.Some? <==> project.maxBudgetUsd.Some? && project.maxBudgetUsd.value != 0.0
    ensures o.maxBudgetUsd.Some? ==> o.maxBudgetUsd == project.maxBudgetUsd
    ensures o.allowedTools == project.allowedTools
    ensures o.disallowedTools == project.disallowedTools
  {
    Options(
      project.path,
      project.permissionMode,
      if Truthy(sessionId) then sessionId else None,
      if Truthy(project.model) then project.model else None,
      if project.maxBudgetUsd.Some? && project.maxBudgetUsd.value != 0.0 then project.maxBudgetUsd else None,
      project.allowedTools,
      project.disallowedTools)
  }

  // ---------------------------------------------------------------------
  // Tool-use hints
  // ---------------------------------------------------------------------

  /** `a ?? b ?? ... ?? ""` over the given keys: the first key whose value
      is neither absent nor null, even when that value is empty. */
  function Coalesce(input: ToolInput, keys: seq<string>): (r: string)
    decreases |keys|
  {
    if |keys| == 0 then ""
    else if keys[0] in input && !input[keys[0]].Null? then FieldText(input, keys[0])
    else Coalesce(input, keys[1..])
  }

  const HintKeys: seq<string> := ["command", "file_path", "path", "pattern"]

  /** `formatToolUse`: the tool name, followed by the hint cut to 80
      characters when there is a non-empty hint. */
  function FormatToolUse(name: string, input: ToolInput): (r: string)
    ensures var hint := Coalesce(input, HintKeys);
            && (hint == "" ==> r == name)
            && (hint != "" ==> IsPrefix(name + ": ", r)
                               && |r| <= |name| + 2 + 80
                               && (|hint| <= 80 ==> r == name + ": " + hint)
                               && (|hint| > 80 ==> r == name + ": " + hint[..77] + "..."))
  {
    var hint := Coalesce(input, HintKeys);
    var short := Formatter.Truncate(hint, 80);
    if short == "" then name
    else
      var r := name + ": " + short;
      assert r[..|name| + 2] == name + ": ";
      r
  }

  /** `??` stops at an empty string: an empty command hides a file path. */
  lemma EmptyCommandHidesPath(name: string, input: ToolInput)
    requires "command" in input && input["command"] == Str("")
    ensures FormatToolUse(name, input) == name
  {
  }

  /** A null command falls through to the next key. */
  lemma NullCommandFallsThrough(name: string, input: ToolInput, path: string)
    requires "command" in input && input["command"] == Null
    requires "file_path" in input && input["file_path"] == Str(path)
    requires 0 < |path| <= 80
    ensures FormatToolUse(name, input) == name + ": " + path
  {
    assert HintKeys[1..] == ["file_path", "path", "pattern"];
  }

  // ---------------------------------------------------------------------
  // The message stream
  // ---------------------------------------------------------------------

  /** A content block of an assistant message. */
  datatype Block = TextBlock(text: string) | ToolUseBlock(name: string, input: ToolInput) | OtherBlock

  /** Token counts of one turn; `None` is an absent count. */
  datatype Usage = Usage(inputTokens: Option<nat>, cacheRead: Option<nat>, cacheCreation: Option<nat>)

  datatype ResultMsg = ResultMsg(
    success: bool,
    sessionId: string,
    cost: real,
    durationMs: nat,
    numTurns: nat,
    isError: bool,
    errors: Option<seq<string>>,
    result: Option<string>,
    contextWindows: seq<nat>)

  /** The SDK messages `runQuery` looks at. `Assistant` with `None`
      content is an assistant message without content. */
  datatype Event =
    | Init(sessionId: string)
    | Status(status: string)
    | TextDelta(delta: string)
    | Assistant(content: Option<seq<Block>>, usage: Option<Usage>)
    | ToolUseSummary(summary: string)
    | Result(r: ResultMsg)
    | Ignored

  /** The loop's variables. */
  datatype Acc = Acc(
    sessionId: string,
    text: string,
    cost: real,
    durationMs: nat,
    numTurns: nat,
    isError: bool,
    errors: seq<string>,
    contextUsed: nat,
    contextWindow: nat,
    stream: string,
    streamed: seq<string>,
    activity: seq<string>)

  function Start(sessionId: Option<string>): Acc {
    Acc(sessionId.GetOr(""), "", 0.0, 0, 0, false, [], 0, 0, "", [], [])
  }

  /** One assistant message's blocks: text is appended, and each tool use
      is announced when an activity callback was given. */
  function Blocks(acc: Acc, blocks: seq<Block>, hasActivity: bool): Acc
    decreases |blocks|
  {
    if |blocks| == 0 then acc
    else Blocks(OneBlock(acc, blocks[0], hasActivity), blocks[1..], hasActivity)
  }

  function OneBlock(acc: Acc, b: Block, hasActivity: bool): Acc {
    if b.TextBlock? then acc.(text := acc.text + b.text)
    else if b.ToolUseBlock? && hasActivity then acc.(activity := acc.activity + [FormatToolUse(b.name, b.input)])
    else acc
  }

  function UsageTotal(u: Usage): nat {
    u.inputTokens.GetOr(0) + u.cacheRead.GetOr(0) + u.cacheCreation.GetOr(0)
  }

  /** One iteration of the loop at claude.ts:85-163 for a message other
      than a result. */
  function Step(acc: Acc, e: Event, hasActivity: bool): Acc
    requires !e.Result?
  {
    match e
      case Init(sid) => acc.(sessionId := sid)
      case Status(status) =>
        if status == "compacting" && hasActivity
        then acc.(activity := acc.activity + ["Compacting conversation..."])
        else acc
      case TextDelta(d) =>
        var s := acc.stream + d;
        acc.(stream := s, streamed := acc.streamed + [s])
      case Assistant(content, usage) =>
        if content.None? then acc
        else
          var acc1 := Blocks(acc, content.value, hasActivity);
          if usage.Some? then acc1.(contextUsed := UsageTotal(usage.value)) else acc1
      case ToolUseSummary(summary) =>
        if hasActivity then acc.(activity := acc.activity + [summary]) else acc
      case Ignored => acc
  }

  /** The result message: it overrides the session id and the figures, and
      fills in the text only if no assistant text was collected. */
  function Finish(acc: Acc, m: ResultMsg): Acc {
    acc.(
      sessionId := m.sessionId,
      cost := m.cost,
      durationMs := m.durationMs,
      numTurns := m.numTurns,
      isError := m.isError,
      errors := if !m.success && m.errors.Some? then m.errors.value else acc.errors,
      text := if acc.text == "" && m.result.Some? then m.result.value else acc.text,
      contextWindow := if |m.contextWindows| > 0 then m.contextWindows[0] else acc.contextWindow)
  }

  /** The loop: it ends at the first result message or when the stream
      ends. */
  function Fold(acc: Acc, events: seq<Event>, hasActivity: bool): Acc
    decreases |events|
  {
    if |events| == 0 then acc
    else if events[0].Result? then Finish(acc, events[0].r)
    else Fold(Step(acc, events[0], hasActivity), events[1..], hasActivity)
  }

  datatype QueryResult = QueryResult(
    text: string,
    sessionId: string,
    cost: real,
    durationMs: nat,
    numTurns: nat,
    isError: bool,
    errors: Option<seq<string>>,
    contextUsed: nat,
    contextWindow: nat)

  /** Everything one query produces: the prompt and options sent, the
      result, and the arguments passed to the two callbacks. */
  datatype Run = Run(
    prompt: string,
    options: Options,
    result: QueryResult,
    streamed: seq<string>,
    activity: seq<string>)

  const NoResponse: string := "(No response)"

  /** `runQuery` over the messages the SDK yields. */
  function RunQuery(prompt: string, project: Projects.ProjectConfig, sessionId: Option<string>,
                    attachments: seq<string>, events: seq<Event>, hasActivity: bool): (run: Run)
    ensures run.result.text != ""
    ensures run.result.errors.Some? ==> |run.result.errors.value| > 0
    ensures run.options == BuildOptions(project, sessionId)
    ensures run.prompt == WithUploads(attachments, prompt)
  {
    var acc := Fold(Start(sessionId), events, hasActivity);
    Run(
      WithUploads(attachments, prompt),
      BuildOptions(project, sessionId),
      QueryResult(
        if acc.text != "" then acc.text else NoResponse,
        acc.sessionId,
        acc.cost,
        acc.durationMs,
        acc.numTurns,
        acc.isError,
        if |acc.errors| > 0 then Some(acc.errors) else None,
        acc.contextUsed,
        acc.contextWindow),
      acc.streamed,
      acc.activity)
  }

  // ---------------------------------------------------------------------
  // Reference definitions over the event list
  // ---------------------------------------------------------------------

  /** The events before the first result message. */
  function Before(events: seq<Event>): (r: seq<Event>)
    ensures |r| <= |events| && r == events[..|r|]
    ensures forall e :: e in r ==> !e.Result?
    ensures |r| < |events| ==> events[|r|].Result?
  {
    if |events| == 0 || events[0].Result? then []
    else
      var rest := Before(events[1..]);
      assert [events[0]] + rest == events[..|rest| + 1];
      [events[0]] + rest
  }

  /** The first result message, if any. */
  function FirstResult(events: seq<Event>): (r: Option<ResultMsg>)
    ensures r.Some? <==> |Before(events)| < |events|
    ensures r.Some? ==> r.value == events[|Before(events)|].r
  {
    var k := |Before(events)|;
    if k < |events| then Some(events[k].r) else None
  }

  /** The text deltas, in order. */
  function Deltas(events: seq<Event>): seq<string>
    decreases |events|
  {
    if |events| == 0 then []
    else (if events[0].TextDelta? then [events[0].delta] else []) + Deltas(events[1..])
  }

  /** The running concatenations of `ds` on top of `base`. */
  function Running(base: string, ds: seq<string>): (r: seq<string>)
    decreases |ds|
    ensures |r| == |ds|
  {
    if |ds| == 0 then [] else [base + ds[0]] + Running(base + ds[0], ds[1..])
  }

  function Concat(ds: seq<string>): string
    decreases |ds|
  {
    if |ds| == 0 then "" else ds[0] + Concat(ds[1..])
  }

  /** Text of the text blocks of assistant messages that have content. */
  function BlockText(blocks: seq<Block>): string
    decreases |blocks|
  {
    if |blocks| == 0 then ""
    else (if blocks[0].TextBlock? then blocks[0].text else "") + BlockText(blocks[1..])
  }

  function EventText(e: Event): string {
    if e.Assistant? && e.content.Some? then BlockText(e.content.value) else ""
  }

  function AssistantText(events: seq<Event>): string
    decreases |events|
  {
    if |events| == 0 then "" else EventText(events[0]) + AssistantText(events[1..])
  }

  /** The session id carried by the last init message, if any. */
  function LastInit(events: seq<Event>): Option<string>
    decreases |events|
  {
    if |events| == 0 then None
    else
      var later := LastInit(events[1..]);
      if later.Some? then later
      else if events[0].Init? then Some(events[0].sessionId)
      else None
  }

  // ---------------------------------------------------------------------
  // Properties of the fold
  // ---------------------------------------------------------------------

  lemma {:induction false} BlocksKeepsOthers(acc: Acc, blocks: seq<Block>, hasActivity: bool)
    ensures var a := Blocks(acc, blocks, hasActivity);
            && a.text == acc.text + BlockText(blocks)
            && a.sessionId == acc.sessionId && a.stream == acc.stream && a.streamed == acc.streamed
    decreases |blocks|
  {
    if |blocks| > 0 {
      var b := blocks[0];
      var acc1 := OneBlock(acc, b, hasActivity);
      assert Blocks(acc, blocks, hasActivity) == Blocks(acc1, blocks[1..], hasActivity);
      BlocksKeepsOthers(acc1, blocks[1..], hasActivity);
      var t := if b.TextBlock? then b.text else "";
      assert acc1.text == acc.text + t;
      assert BlockText(blocks) == t + BlockText(blocks[1..]);
      AppendAssoc(acc.text, t, BlockText(blocks[1..]));
    }
  }

  lemma {:induction false} StreamedIsRunning(acc: Acc, events: seq<Event>, hasActivity: bool)
    ensures Fold(acc, events, hasActivity).streamed
            == acc.streamed + Running(acc.stream, Deltas(Before(events)))
    decreases |events|
  {
    if |events| > 0 && !events[0].Result? {
      var e := events[0];
      var acc1 := Step(acc, e, hasActivity);
      assert Fold(acc, events, hasActivity) == Fold(acc1, events[1..], hasActivity);
      StepStream(acc, e, hasActivity);
      DeltasCons(events);
      StreamedIsRunning(acc1, events[1..], hasActivity);
      if e.TextDelta? {
        RunningCons(acc.stream, e.delta, Deltas(Before(events[1..])));
      } else {
        assert Deltas(Before(events)) == Deltas(Before(events[1..]));
      }
    }
  }

  /** Only a text delta touches the stream: it extends the accumulated
      text and records the new total. */
  lemma StepStream(acc: Acc, e: Event, hasActivity: bool)
    requires !e.Result?
    ensures e.TextDelta? ==> Step(acc, e, hasActivity).stream == acc.stream + e.delta
                             && Step(acc, e, hasActivity).streamed == acc.streamed + [acc.stream + e.delta]
    ensures !e.TextDelta? ==> Step(acc, e, hasActivity).stream == acc.stream
                              && Step(acc, e, hasActivity).streamed == acc.streamed
  {
    if e.Assistant? && e.content.Some? {
      BlocksKeepsOthers(acc, e.content.value, hasActivity);
    }
  }

  lemma DeltasCons(events: seq<Event>)
    requires |events| > 0 && !events[0].Result?
    ensures Deltas(Before(events))
            == (if events[0].TextDelta? then [events[0].delta] else []) + Deltas(Before(events[1..]))
  {
    BeforeCons(events);
    assert ([events[0]] + Before(events[1..]))[1..] == Before(events[1..]);
  }

  lemma RunningCons(base: string, d: string, ds: seq<string>)
    ensures Running(base, [d] + ds) == [base + d] + Running(base + d, ds)
  {
    assert ([d] + ds)[1..] == ds;
  }

  lemma {:induction false} RunningExtends(base: string, ds: seq<string>)
    ensures forall i :: 0 <= i < |ds| ==> IsPrefix(base, Running(base, ds)[i])
    ensures forall i, j :: 0 <= i < j < |ds| ==> IsPrefix(Running(base, ds)[i], Running(base, ds)[j])
    ensures |ds| > 0 ==> Running(base, ds)[|ds| - 1] == base + Concat(ds)
    decreases |ds|
  {
    if |ds| > 0 {
      var b1 := base + ds[0];
      var r := Running(base, ds);
      RunningExtends(b1, ds[1..]);
      assert IsPrefix(base, b1);
      forall i | 0 <= i < |ds| ensures IsPrefix(base, r[i]) {
        if i > 0 {
          assert r[i] == Running(b1, ds[1..])[i - 1];
          PrefixTransitive(base, b1, r[i]);
        }
      }
      forall i, j | 0 <= i < j < |ds| ensures IsPrefix(r[i], r[j]) {
        assert r[j] == Running(b1, ds[1..])[j - 1];
        if i > 0 {
          assert r[i] == Running(b1, ds[1..])[i - 1];
        }
      }
      if |ds| > 1 {
        assert r[|ds| - 1] == Running(b1, ds[1..])[|ds| - 2];
        assert b1 + Concat(ds[1..]) == base + Concat(ds);
      } else {
        assert Concat(ds) == ds[0] + Concat([]);
      }
    }
  }

  lemma PrefixTransitive(a: string, b: string, c: string)
    requires IsPrefix(a, b) && IsPrefix(b, c)
    ensures IsPrefix(a, c)
  {
    assert c[..|a|] == c[..|b|][..|a|];
  }

  /** Every text passed to `onStreamText` is the concatenation of all text
      deltas so far: each extends the previous one, and the last one is
      every delta before the result put together. */
  lemma StreamTextGrows(prompt: string, project: Projects.ProjectConfig, sessionId: Option<string>,
                        attachments: seq<string>, events: seq<Event>, hasActivity: bool)
    ensures var s := RunQuery(prompt, project, sessionId, attachments, events, hasActivity).streamed;
            var ds := Deltas(Before(events));
            && |s| == |ds|
            && (forall i, j :: 0 <= i < j < |s| ==> IsPrefix(s[i], s[j]))
            && (|s| > 0 ==> s[|s| - 1] == Concat(ds))
  {
    StreamedIsRunning(Start(sessionId), events, hasActivity);
    RunningExtends("", Deltas(Before(events)));
  }

  lemma StepText(acc: Acc, e: Event, hasActivity: bool)
    requires !e.Result?
    ensures Step(acc, e, hasActivity).text == acc.text + EventText(e)
  {
    if e.Assistant? && e.content.Some? {
      BlocksKeepsOthers(acc, e.content.value, hasActivity);
    }
  }

  lemma {:induction false} FoldText(acc: Acc, events: seq<Event>, hasActivity: bool)
    ensures var t := acc.text + AssistantText(Before(events));
            var r := FirstResult(events);
            Fold(acc, events, hasActivity).text
            == if r.Some? && t == "" && r.value.result.Some? then r.value.result.value else t
    decreases |events|
  {
    if |events| > 0 && !events[0].Result? {
      var e := events[0];
      var acc1 := Step(acc, e, hasActivity);
      assert Fold(acc, events, hasActivity) == Fold(acc1, events[1..], hasActivity);
      StepText(acc, e, hasActivity);
      FoldText(acc1, events[1..], hasActivity);
      BeforeCons(events);
      AppendAssoc(acc.text, EventText(e), AssistantText(Before(events[1..])));
    } else if |events| > 0 {
      assert Before(events) == [];
      assert acc.text + AssistantText([]) == acc.text;
    } else {
      assert acc.text + AssistantText([]) == acc.text;
    }
  }

  /** A leading event that is not the result stays in front of the
      events before the result, and the result is the same one. */
  lemma BeforeCons(events: seq<Event>)
    requires |events| > 0 && !events[0].Result?
    ensures Before(events) == [events[0]] + Before(events[1..])
    ensures AssistantText(Before(events)) == EventText(events[0]) + AssistantText(Before(events[1..]))
    ensures FirstResult(events) == FirstResult(events[1..])
  {
    var rest := Before(events[1..]);
    assert Before(events) == [events[0]] + rest;
    assert ([events[0]] + rest)[1..] == rest;
  }

  /** The reply text: the assistant's text blocks if there were any, else
      the result message's `result`, else "(No response)". */
  lemma TextFallback(prompt: string, project: Projects.ProjectConfig, sessionId: Option<string>,
                     attachments: seq<string>, events: seq<Event>, hasActivity: bool)
    ensures var text := RunQuery(prompt, project, sessionId, attachments, events, hasActivity).result.text;
            var t := AssistantText(Before(events));
            var r := FirstResult(events);
            && (t != "" ==> text == t)
            && (t == "" && r.Some? && r.value.result.Some? && r.value.result.value != "" ==> text == r.value.result.value)
            && (t == "" && (r.None? || r.value.result.None? || r.value.result.value == "") ==> text == NoResponse)
  {
    FoldText(Start(sessionId), events, hasActivity);
    assert "" + AssistantText(Before(events)) == AssistantText(Before(events));
  }

  lemma {:induction false} FoldSession(acc: Acc, events: seq<Event>, hasActivity: bool)
    ensures Fold(acc, events, hasActivity).sessionId
            == match FirstResult(events)
                 case Some(r) => r.sessionId
                 case None => LastInit(Before(events)).GetOr(acc.sessionId)
    decreases |events|
  {
    if |events| > 0 && !events[0].Result? {
      var e := events[0];
      if e.Assistant? && e.content.Some? {
        BlocksKeepsOthers(acc, e.content.value, hasActivity);
      }
      FoldSession(Step(acc, e, hasActivity), events[1..], hasActivity);
      assert Before(events)[1..] == Before(events[1..]);
      assert FirstResult(events) == FirstResult(events[1..]);
    }
  }

  /** The session id: the result message's if there is one, else that of
      the last init message, else the one the query was started with (or
      "" for a new session). */
  lemma SessionIdOrder(prompt: string, project: Projects.ProjectConfig, sessionId: Option<string>,
                       attachments: seq<string>, events: seq<Event>, hasActivity: bool)
    ensures RunQuery(prompt, project, sessionId, attachments, events, hasActivity).result.sessionId
            == match FirstResult(events)
                 case Some(r) => r.sessionId
                 case None => LastInit(Before(events)).GetOr(sessionId.GetOr(""))
  {
    FoldSession(Start(sessionId), events, hasActivity);
  }

  lemma {:induction false} FoldStops(acc: Acc, events: seq<Event>, tail: seq<Event>, hasActivity: bool)
    requires FirstResult(events).Some?
    ensures Fold(acc, events + tail, hasActivity) == Fold(acc, events, hasActivity)
    decreases |events|
  {
    if !events[0].Result? {
      assert (events + tail)[1..] == events[1..] + tail;
      assert FirstResult(events[1..]).Some? by {
        assert Before(events)[1..] == Before(events[1..]);
      }
      FoldStops(Step(acc, events[0], hasActivity), events[1..], tail, hasActivity);
    }
  }

  /** Nothing after the first result message has any effect. */
  lemma StopsAtFirstResult(prompt: string, project: Projects.ProjectConfig, sessionId: Option<string>,
                           attachments: seq<string>, events: seq<Event>, tail: seq<Event>, hasActivity: bool)
    requires FirstResult(events).Some?
    ensures RunQuery(prompt, project, sessionId, attachments, events + tail, hasActivity)
            == RunQuery(prompt, project, sessionId, attachments, events, hasActivity)
  {
    FoldStops(Start(sessionId), events, tail, hasActivity);
  }

  lemma {:induction false} FoldErrors(acc: Acc, events: seq<Event>, hasActivity: bool)
    ensures Fold(acc, events, hasActivity).errors
            == match FirstResult(events)
                 case Some(r) => if !r.success && r.errors.Some? then r.errors.value else acc.errors
                 case None => acc.errors
    decreases |events|
  {
    if |events| > 0 && !events[0].Result? {
      var e := events[0];
      if e.Assistant? && e.content.Some? {
        BlocksErrors(acc, e.content.value, hasActivity);
      }
      FoldErrors(Step(acc, e, hasActivity), events[1..], hasActivity);
      assert FirstResult(events) == FirstResult(events[1..]) by {
        assert Before(events)[1..] == Before(events[1..]);
      }
    }
  }

  lemma {:induction false} BlocksErrors(acc: Acc, blocks: seq<Block>, hasActivity: bool)
    ensures Blocks(acc, blocks, hasActivity).errors == acc.errors
    decreases |blocks|
  {
    if |blocks| > 0 {
      BlocksErrors(OneBlock(acc, blocks[0], hasActivity), blocks[1..], hasActivity);
    }
  }

  /** `errors` is reported only for a result that is not a success and
      carries a non-empty error list; it is never an empty list. */
  lemma ErrorsOnlyOnFailure(prompt: string, project: Projects.ProjectConfig, sessionId: Option<string>,
                            attachments: seq<string>, events: seq<Event>, hasActivity: bool)
    ensures var errs := RunQuery(prompt, project, sessionId, attachments, events, hasActivity).result.errors;
            var r := FirstResult(events);
            errs == if r.Some? && !r.value.success && r.value.errors.Some? && |r.value.errors.value| > 0
                    then Some(r.value.errors.value) else None
  {
    FoldErrors(Start(sessionId), events, hasActivity);
  }
}

=== FILE: commands.dfy ===
/**
  The slash commands of src/commands.ts: the per-channel override maps
  and the state changes and replies of `handleCommand`.

  The context a command sees is the project registry, the session store,
  the set of channels with a running query handle, and the two override
  maps. Signalling a running query to stop is reported as the `signalled`
  flag rather than performed.
 */
module Commands {
  import opened Basics
  import Sessions
  import Projects
  import Formatter

  /** Runtime overrides per channel; they live only as long as the process. */
  datatype Overrides = Overrides(model: map<string, string>, permissionMode: map<string, string>)

  const NoOverrides := Overrides(map[], map[])

  /** `getModelOverride` */
  function GetModelOverride(o: Overrides, channelId: string): (r: Option<string>)
    ensures r.Some? <==> channelId in o.model
    ensures r.Some? ==> r.value == o.model[channelId]
  {
    if channelId in o.model then Some(o.model[channelId]) else None
  }

  /** `getPermissionModeOverride` */
  function GetPermissionModeOverride(o: Overrides, channelId: string): (r: Option<string>)
    ensures r.Some? <==> channelId in o.permissionMode
    ensures r.Some? ==> r.value == o.permissionMode[channelId]
  {
    if channelId in o.permissionMode then Some(o.permissionMode[channelId]) else None
  }

  /** The figures `/cost` reports for a channel's last query. */
  datatype CostRecord = CostRecord(cost: real, durationMs: nat, numTurns: nat)

  datatype Ctx = Ctx(
    registry: Projects.Registry,
    sessions: Sessions.Store,
    active: set<string>,
    overrides: Overrides,
    lastCosts: map<string, CostRecord>)

  /** What a command reads from outside the process: the logical clock,
      the renderers for stored times and floating-point numbers, and what
      a rescan finds on disk. */
  datatype Env = Env(
    now: nat,
    timeText: nat -> string,
    render: Render,
    rootExists: bool,
    entries: seq<Projects.DirEntry>)

  /** A slash command: its name and the string options it was given. */
  datatype Command = Command(name: string, options: map<string, string>)

  function OptionOf(cmd: Command, key: string): Option<string> {
    if key in cmd.options then Some(cmd.options[key]) else None
  }

  /** What a command did: the new context, the reply (`None` when the
      handler threw before replying), and whether a running query was
      signalled to stop. */
  datatype Outcome = Outcome(ctx: Ctx, reply: Option<string>, signalled: bool)

  const NotLinked: string := "This channel is not linked to a project."

  // ---------------------------------------------------------------------
  // new
  // ---------------------------------------------------------------------

  /** `/new [save_as]`: stops and forgets any running query, optionally
      snapshots the current session, and always leaves the channel
      without a current session. */
  function NewSession(ctx: Ctx, channelId: string, saveAs: Option<string>, now: nat): (o: Outcome)
    ensures Sessions.Get(o.ctx.sessions, channelId) == None
    ensures channelId !in o.ctx.active && o.ctx.active == ctx.active - {channelId}
    ensures o.signalled <==> channelId in ctx.active
    ensures o.ctx.overrides == ctx.overrides && o.ctx.registry == ctx.registry
    ensures o.ctx.sessions.sessions == ctx.sessions.sessions - {channelId}
    ensures !Truthy(saveAs) ==> o.ctx.sessions.saved == ctx.sessions.saved
                                && o.reply == Some("Session cleared. Next message starts fresh.")
    ensures Truthy(saveAs) ==>
              o.ctx.sessions.saved == Sessions.Save(ctx.sessions, channelId, saveAs.value, now).1.saved
              && o.reply == Some(if channelId in ctx.sessions.sessions
                                 then "Session saved as **" + saveAs.value + "**. Starting fresh."
                                 else "No active session to save. Starting fresh.")
  {
    var signalled := channelId in ctx.active;
    var ctx1 := ctx.(active := ctx.active - {channelId});
    if Truthy(saveAs) then
      var (saved, store) := Sessions.Save(ctx1.sessions, channelId, saveAs.value, now);
      var store2 := Sessions.Clear(store, channelId);
      Outcome(ctx1.(sessions := store2),
              Some(if saved then "Session saved as **" + saveAs.value + "**. Starting fresh."
                   else "No active session to save. Starting fresh."),
              signalled)
    else
      Outcome(ctx1.(sessions := Sessions.Clear(ctx1.sessions, channelId)),
              Some("Session cleared. Next message starts fresh."),
              signalled)
  }

  /** `/new` as written. The running-query map holds `{ interrupt }`
      records (src/discord.ts:33-35, :179), not `AbortController`s, so
      `controller.abort()` throws a `TypeError` whenever the channel has a
      running query; the caller only logs it. Nothing is saved, cleared or
      forgotten, and no reply is sent. */
  function NewSessionAsWritten(ctx: Ctx, channelId: string, saveAs: Option<string>, now: nat): (o: Outcome)
    ensures channelId in ctx.active ==> o.ctx == ctx && o.reply == None && !o.signalled
    ensures channelId !in ctx.active ==>
              && o.reply.Some? && !o.signalled && o.ctx.active == ctx.active
              && Sessions.Get(o.ctx.sessions, channelId) == None
              && o.ctx.sessions.sessions == ctx.sessions.sessions - {channelId}
  {
    if channelId in ctx.active then Outcome(ctx, None, false)
    else NewSession(ctx, channelId, saveAs, now)
  }

  /** While a query runs, `/new` as written leaves the session current and
      the handle in place and says nothing; the corrected `/new` clears the
      session, drops the handle and replies. */
  lemma NewWhileRunning(ctx: Ctx, channelId: string, saveAs: Option<string>, now: nat)
    requires channelId in ctx.active && channelId in ctx.sessions.sessions
    ensures var w := NewSessionAsWritten(ctx, channelId, saveAs, now);
            && w.reply == None && channelId in w.ctx.active
            && Sessions.Get(w.ctx.sessions, channelId) == Sessions.Get(ctx.sessions, channelId) != None
    ensures var f := NewSession(ctx, channelId, saveAs, now);
            && f.reply.Some? && channelId !in f.ctx.active && f.signalled
            && Sessions.Get(f.ctx.sessions, channelId) == None
  {
  }

  // ---------------------------------------------------------------------
  // resume
  // ---------------------------------------------------------------------

  /** `/resume label`: delegates to the store's `restore`. */
  function ResumeNamed(ctx: Ctx, channelId: string, name: string, now: nat): (o: Outcome)
    ensures var (restored, store) := Sessions.Restore(ctx.sessions, channelId, name, now);
            && o.ctx == ctx.(sessions := store)
            && o.reply == Some(if restored then "Resumed session **" + name + "**."
                               else "No saved session named \"" + name + "\".")
            && !o.signalled
  {
    var (restored, store) := Sessions.Restore(ctx.sessions, channelId, name, now);
    Outcome(ctx.(sessions := store),
            Some(if restored then "Resumed session **" + name + "**."
                 else "No saved session named \"" + name + "\"."),
            false)
  }

  const NoSavedSessions: string := "No saved sessions. " + "Use `/new save_as:<label>` to save before clearing."

  /** One line of the saved-session listing; `timeText` renders a stored
      time the way SQLite prints it. */
  function SavedLine(s: Sessions.SavedView, timeText: nat -> string): string {
    "**" + s.name + "** \U{2014} saved " + timeText(s.savedAt)
  }

  /** `reply` is what `/resume` without a label shows: the fixed notice
      exactly when the channel has no snapshots, otherwise one line per
      snapshot of a listing of the store, newest first. */
  ghost predicate ListingReply(ctx: Ctx, channelId: string, timeText: nat -> string, reply: string) {
    && (reply == NoSavedSessions <==> forall n :: Sessions.SavedKey(channelId, n) !in ctx.sessions.saved)
    && ((exists n :: Sessions.SavedKey(channelId, n) in ctx.sessions.saved) ==>
          exists rows: seq<Sessions.SavedView> ::
            && |rows| > 0
            && Sessions.ListsSaved(ctx.sessions, channelId, rows)
            && reply == Join(seq(|rows|, i requires 0 <= i < |rows| => SavedLine(rows[i], timeText)), "\n"))
  }

  /** `/resume` without a label: the listing, newest first, or a fixed
      message when the channel has no snapshots. Nothing changes. */
  method ListForResume(ctx: Ctx, channelId: string, timeText: nat -> string) returns (o: Outcome)
    ensures o.ctx == ctx && !o.signalled && o.reply.Some?
    ensures ListingReply(ctx, channelId, timeText, o.reply.value)
  {
    var rows := Sessions.ListSaved(ctx.sessions, channelId);
    if |rows| == 0 {
      assert Sessions.Names(rows) == [];
      o := Outcome(ctx, Some(NoSavedSessions), false);
    } else {
      var lines := seq(|rows|, i requires 0 <= i < |rows| => SavedLine(rows[i], timeText));
      var text := Join(lines, "\n");
      assert Sessions.SavedKey(channelId, rows[0].name) in ctx.sessions.saved;
      assert NoSavedSessions[0] == 'N';
      ListingIsNotNotice(lines, NoSavedSessions);
      assert Sessions.ListsSaved(ctx.sessions, channelId, rows);
      o := Outcome(ctx, Some(text), false);
    }
  }

  /** A non-empty listing starts with "**", so it is never a notice that
      starts with a letter. */
  lemma ListingIsNotNotice(lines: seq<string>, notice: string)
    requires |lines| > 0 && IsPrefix("**", lines[0])
    requires |notice| > 0 && notice[0] != '*'
    ensures Join(lines, "\n") != notice
  {
    var j := Join(lines, "\n");
    if |lines| > 1 {
      assert j == lines[0] + ("\n" + Join(lines[1..], "\n"));
    }
    assert j[0] == lines[0][0] == '*';
  }

  // ---------------------------------------------------------------------
  // status and config
  // ---------------------------------------------------------------------

  /** The model the status and config replies show: the override, else the
      project's model, else "default" (`??`, so an empty string is kept). */
  function ShownModel(o: Overrides, project: Projects.ProjectConfig, channelId: string): string {
    GetModelOverride(o, channelId).GetOr(project.model.GetOr("default"))
  }

  function ShownPermissionMode(o: Overrides, project: Projects.ProjectConfig, channelId: string): string {
    GetPermissionModeOverride(o, channelId).GetOr(project.permissionMode)
  }

  /** The session part of the status reply: at most the first eight
      characters of the id. */
  function SessionSummary(session: Option<string>): (r: string)
    ensures !Truthy(session) ==> r == "none"
    ensures Truthy(session) ==> var k := if |session.value| < 8 then |session.value| else 8;
            r == "`" + session.value[..k] + "...`"
  {
    if Truthy(session) then
      "`" + session.value[..if |session.value| < 8 then |session.value| else 8] + "...`"
    else "none"
  }

  /** `/status`: the project, the effective model and permission mode, and
      a shortened session id. */
  function StatusReply(ctx: Ctx, channelId: string): (r: string)
    ensures r == NotLinked <==> Projects.GetByChannelId(ctx.registry, channelId).None?
    ensures Projects.GetByChannelId(ctx.registry, channelId).Some? ==>
              var p := Projects.GetByChannelId(ctx.registry, channelId).value;
              var model := if channelId in ctx.overrides.model then ctx.overrides.model[channelId]
                           else if p.model.Some? then p.model.value else "default";
              var mode := if channelId in ctx.overrides.permissionMode then ctx.overrides.permissionMode[channelId]
                          else p.permissionMode;
              r == "**Project:** " + p.name + "\n" + ("**Path:** `" + p.path + "`") + "\n" + ("**Model:** " + model)
                   + "\n" + ("**Permission Mode:** " + mode)
                   + "\n" + ("**Session:** " + SessionSummary(Sessions.Get(ctx.sessions, channelId)))
  {
    var project := Projects.GetByChannelId(ctx.registry, channelId);
    if project.None? then NotLinked
    else
      var p := project.value;
      var lines := [
        "**Project:** " + p.name,
        "**Path:** `" + p.path + "`",
        "**Model:** " + ShownModel(ctx.overrides, p, channelId),
        "**Permission Mode:** " + ShownPermissionMode(ctx.overrides, p, channelId),
        "**Session:** " + SessionSummary(Sessions.Get(ctx.sessions, channelId))];
      FiveLines(lines);
      var r := Join(lines, "\n");
      assert r[0] == '*' && NotLinked[0] == 'T';
      r
  }

  /** Five lines joined by newlines, written out. */
  lemma FiveLines(lines: seq<string>)
    requires |lines| == 5 && |lines[0]| > 0
    ensures Join(lines, "\n") == lines[0] + "\n" + lines[1] + "\n" + lines[2] + "\n" + lines[3] + "\n" + lines[4]
    ensures Join(lines, "\n")[0] == lines[0][0]
  {
    var nl := "\n";
    assert lines[3..][1..] == lines[4..];
    assert lines[2..][1..] == lines[3..];
    assert lines[1..][1..] == lines[2..];
    var j3 := lines[3] + nl + lines[4];
    assert Join(lines[3..], nl) == j3;
    var j2 := lines[2] + nl + j3;
    assert Join(lines[2..], nl) == j2;
    var j1 := lines[1] + nl + j2;
    assert Join(lines[1..], nl) == j1;
    assert Join(lines, nl) == lines[0] + nl + j1;
    AppendAssoc(lines[0] + nl, lines[1] + nl, j2);
    AppendAssoc(lines[0] + nl + lines[1] + nl, lines[2] + nl, j3);
    AppendAssoc(lines[0] + nl + lines[1] + nl + lines[2] + nl, lines[3] + nl, lines[4]);
  }

  /** Status reveals only the first eight characters of a session id: two
      stores whose ids for the channel agree on those show the same reply. */
  lemma StatusHidesSessionTail(ctx: Ctx, channelId: string, other: Sessions.Store)
    requires var a := Sessions.Get(ctx.sessions, channelId);
             var b := Sessions.Get(other, channelId);
             && (Truthy(a) <==> Truthy(b))
             && (Truthy(a) ==> |a.value| >= 8 && |b.value| >= 8 && a.value[..8] == b.value[..8])
    ensures StatusReply(ctx, channelId) == StatusReply(ctx.(sessions := other), channelId)
  {
  }

  const OverrideMark: string := " *(override)*"

  /** `/config`: like status, with the override marks and the optional
      budget and tool lines. `render.number` prints the budget. */
  function ConfigLines(ctx: Ctx, channelId: string, render: Render): (lines: seq<string>)
    ensures Projects.GetByChannelId(ctx.registry, channelId).None? ==> lines == [NotLinked]
    ensures Projects.GetByChannelId(ctx.registry, channelId).Some? ==>
              && 4 <= |lines| <= 7
              && var p := Projects.GetByChannelId(ctx.registry, channelId).value;
              var model := "**Model:** " + ShownModel(ctx.overrides, p, channelId);
              var mode := "**Permission Mode:** " + ShownPermissionMode(ctx.overrides, p, channelId);
              && IsPrefix(model, lines[2]) && IsPrefix(mode, lines[3])
              && (IsSuffix(OverrideMark, lines[2]) <==> Truthy(GetModelOverride(ctx.overrides, channelId)) || IsSuffix(OverrideMark, model))
              && (IsSuffix(OverrideMark, lines[3]) <==> Truthy(GetPermissionModeOverride(ctx.overrides, channelId)) || IsSuffix(OverrideMark, mode))
  {
    var project := Projects.GetByChannelId(ctx.registry, channelId);
    if project.None? then [NotLinked]
    else
      var p := project.value;
      var m := GetModelOverride(ctx.overrides, channelId);
      var pm := GetPermissionModeOverride(ctx.overrides, channelId);
      var modelLine := MarkedLine("**Model:** ", ShownModel(ctx.overrides, p, channelId), Truthy(m));
      var modeLine := MarkedLine("**Permission Mode:** ", ShownPermissionMode(ctx.overrides, p, channelId), Truthy(pm));
      ["**Project:** " + p.name, "**Path:** `" + p.path + "`", modelLine, modeLine]
      + (if p.maxBudgetUsd.Some? && p.maxBudgetUsd.value != 0.0
         then ["**Budget:** $" + render.number(p.maxBudgetUsd.value)] else [])
      + (if p.allowedTools.Some? then ["**Allowed Tools:** " + Join(p.allowedTools.value, ", ")] else [])
      + (if p.disallowedTools.Some? then ["**Disallowed Tools:** " + Join(p.disallowedTools.value, ", ")] else [])
  }

  /** A config line, marked as an override when one is in force. The line
      ends with the mark when it was asked for, or when the value itself
      happens to end that way. */
  function MarkedLine(head: string, value: string, marked: bool): (r: string)
    ensures IsPrefix(head + value, r)
    ensures IsSuffix(OverrideMark, r) <==> marked || IsSuffix(OverrideMark, head + value)
  {
    SuffixOfAppend(head + value, OverrideMark);
    head + value + (if marked then OverrideMark else "")
  }

  // ---------------------------------------------------------------------
  // model, permission-mode, abort
  // ---------------------------------------------------------------------

  /** The name shown for a model: a case-sensitive substring test. */
  function DisplayName(model: string): (r: string)
    ensures Contains(model, "sonnet") ==> r == "Sonnet"
    ensures !Contains(model, "sonnet") && Contains(model, "opus") ==> r == "Opus"
    ensures !Contains(model, "sonnet") && !Contains(model, "opus") ==> r == "Haiku"
  {
    if Contains(model, "sonnet") then "Sonnet" else if Contains(model, "opus") then "Opus" else "Haiku"
  }

  /** `/model name`: sets the channel's model override. A missing option
      makes `getString(..., true)` throw before anything changes. */
  function SetModel(ctx: Ctx, channelId: string, name: Option<string>): (o: Outcome)
    ensures name.None? ==> o == Outcome(ctx, None, false)
    ensures name.Some? ==>
              && GetModelOverride(o.ctx.overrides, channelId) == name
              && (forall c :: c != channelId ==> GetModelOverride(o.ctx.overrides, c) == GetModelOverride(ctx.overrides, c))
              && o.ctx.overrides.permissionMode == ctx.overrides.permissionMode
              && o.ctx.sessions == ctx.sessions && o.ctx.active == ctx.active && o.ctx.registry == ctx.registry
              && o.reply == Some("Model switched to **" + DisplayName(name.value) + "** for this channel.")
    ensures !o.signalled
  {
    if name.None? then Outcome(ctx, None, false)
    else
      var ov := ctx.overrides.(model := ctx.overrides.model[channelId := name.value]);
      Outcome(ctx.(overrides := ov),
              Some("Model switched to **" + DisplayName(name.value) + "** for this channel."),
              false)
  }

  /** `/permission-mode mode`: sets the channel's permission-mode
      override; the value is not checked. */
  function SetPermissionMode(ctx: Ctx, channelId: string, mode: Option<string>): (o: Outcome)
    ensures mode.None? ==> o == Outcome(ctx, None, false)
    ensures mode.Some? ==>
              && GetPermissionModeOverride(o.ctx.overrides, channelId) == mode
              && (forall c :: c != channelId ==>
                    GetPermissionModeOverride(o.ctx.overrides, c) == GetPermissionModeOverride(ctx.overrides, c))
              && o.ctx.overrides.model == ctx.overrides.model
              && o.ctx.sessions == ctx.sessions && o.ctx.active == ctx.active && o.ctx.registry == ctx.registry
              && o.reply == Some("Permission mode set to **" + mode.value + "** for this channel.")
    ensures !o.signalled
  {
    if mode.None? then Outcome(ctx, None, false)
    else
      var ov := ctx.overrides.(permissionMode := ctx.overrides.permissionMode[channelId := mode.value]);
      Outcome(ctx.(overrides := ov),
              Some("Permission mode set to **" + mode.value + "** for this channel."),
              false)
  }

  const NothingRunning: string := "No query is running in this channel."

  /** `/abort`: with no running query it only replies; otherwise it
      signals the query and forgets its handle. */
  function AbortQuery(ctx: Ctx, channelId: string): (o: Outcome)
    ensures channelId !in ctx.active ==> o == Outcome(ctx, Some(NothingRunning), false)
    ensures channelId in ctx.active ==>
              o == Outcome(ctx.(active := ctx.active - {channelId}), Some("Query aborted."), true)
  {
    if channelId !in ctx.active then Outcome(ctx, Some(NothingRunning), false)
    else Outcome(ctx.(active := ctx.active - {channelId}), Some("Query aborted."), true)
  }

  /** `/abort` as written: with a running query, `controller.abort()`
      throws (the handle is an `{ interrupt }` record), so the handle is
      kept and no reply is sent; without one it replies as intended. */
  function AbortQueryAsWritten(ctx: Ctx, channelId: string): (o: Outcome)
    ensures channelId in ctx.active ==> o.ctx == ctx && o.reply == None && !o.signalled
    ensures channelId !in ctx.active ==> o.ctx == ctx && o.reply == Some(NothingRunning) && !o.signalled
  {
    if channelId in ctx.active then Outcome(ctx, None, false)
    else AbortQuery(ctx, channelId)
  }

  /** As written, `/abort` can never stop a running query: however often
      it is sent, the handle stays and no reply comes, where the corrected
      `/abort` stops the query at once and then finds nothing to stop. */
  lemma {:induction false} AbortNeverLands(ctx: Ctx, channelId: string, n: nat)
    requires channelId in ctx.active
    ensures AbortRepeated(ctx, channelId, n) == Outcome(ctx, None, false)
    ensures AbortQuery(ctx, channelId).reply == Some("Query aborted.")
    ensures channelId !in AbortQuery(ctx, channelId).ctx.active
  {
    if n > 0 {
      AbortNeverLands(ctx, channelId, n - 1);
    }
  }

  /** `/abort` as written, sent `n + 1` times in a row. */
  function AbortRepeated(ctx: Ctx, channelId: string, n: nat): Outcome
    decreases n
  {
    if n == 0 then AbortQueryAsWritten(ctx, channelId)
    else AbortQueryAsWritten(AbortRepeated(ctx, channelId, n - 1).ctx, channelId)
  }

  // ---------------------------------------------------------------------
  // cost, projects, rescan, help
  // ---------------------------------------------------------------------

  const NoCostData: string := "No cost data available. " + "Send a message first."

  /** `/cost`: the last query's figures, or a fixed message when the
      channel has none. The turn count is always written plural here. */
  function CostReply(ctx: Ctx, channelId: string, render: Render): (r: string)
    ensures channelId !in ctx.lastCosts <==> r == NoCostData
    ensures channelId in ctx.lastCosts ==>
              var c := ctx.lastCosts[channelId];
              && IsPrefix("Last query: " + Formatter.CostText(render, c.cost), r)
              && IsSuffix(" \U{B7} " + NatToString(c.numTurns) + " turns", r)
  {
    if channelId !in ctx.lastCosts then NoCostData
    else
      var c := ctx.lastCosts[channelId];
      var head := "Last query: " + Formatter.CostText(render, c.cost);
      var tail := " \U{B7} " + NatToString(c.numTurns) + " turns";
      var r := head + " \U{B7} " + render.fixed(c.durationMs as real / 1000.0, 1) + "s" + tail;
      assert r[..|head|] == head;
      SuffixOfAppend(head + " \U{B7} " + render.fixed(c.durationMs as real / 1000.0, 1) + "s", tail);
      assert r[0] == 'L' && NoCostData[0] == 'N';
      r
  }

  const NoProjects: string := "No projects registered."

  /** One line of the `/projects` listing. */
  function ProjectLine(p: Projects.ProjectConfig): string {
    "**" + p.name + "** \U{2192} <#" + p.channelId + ">"
  }

  /** `/projects`: one line per registered project, in registration order. */
  function ProjectsReply(reg: Projects.Registry): (r: string)
    ensures |reg.projects| == 0 <==> r == NoProjects
    ensures |reg.projects| > 0 ==>
              r == Join(seq(|reg.projects|, i requires 0 <= i < |reg.projects| => ProjectLine(reg.projects[i])), "\n")
  {
    if |reg.projects| == 0 then NoProjects
    else
      var lines := seq(|reg.projects|, i requires 0 <= i < |reg.projects| => ProjectLine(reg.projects[i]));
      assert NoProjects[0] == 'N';
      ListingIsNotNotice(lines, NoProjects);
      Join(lines, "\n")
  }

  /** `/rescan`: a fresh discovery replaces the registry. When the root has
      gone the process exits, shown as no reply and no change. */
  function Rescan(ctx: Ctx, env: Env): (o: Outcome)
    ensures !env.rootExists ==> o == Outcome(ctx, None, false)
    ensures env.rootExists ==>
              && o.ctx == ctx.(registry := Projects.Discover(ctx.registry.root, true, env.entries).value)
              && o.reply == Some("Rescanned. " + NatToString(|o.ctx.registry.projects|) + " projects found.")
              && !o.signalled
  {
    match Projects.Discover(ctx.registry.root, env.rootExists, env.entries)
    case None => Outcome(ctx, None, false)
    case Some(reg) =>
      Outcome(ctx.(registry := reg),
              Some("Rescanned. " + NatToString(Projects.Count(reg)) + " projects found."),
              false)
  }

  const HelpLines: seq<string> := [
    "**Claude Discord Gateway \U{2014} Commands**",
    "",
    "`/new [save_as]` \U{2014} Start fresh. Optionally save current session with a label.",
    "`/resume [label]` \U{2014} List saved sessions, or resume one by label.",
    "`/status` \U{2014} Show project and session info.",
    "`/cost` \U{2014} Show cost of last query.",
    "`/config` \U{2014} Show full project config and active overrides.",
    "`/model <name>` \U{2014} Switch model (Sonnet/Opus/Haiku).",
    "`/permission-mode <mode>` \U{2014} Switch permission mode.",
    "`/abort` \U{2014} Cancel the running query.",
    "`/projects` \U{2014} List all registered projects.",
    "`/rescan` \U{2014} Re-scan for new projects.",
    "`/help` \U{2014} Show this message."]

  // ---------------------------------------------------------------------
  // Dispatch
  // ---------------------------------------------------------------------

  const UnknownCommand: string := "Unknown command."

  const Known: set<string> :=
    {"new", "resume", "status", "cost", "config", "projects", "rescan", "model", "permission-mode", "abort", "help"}

  /** `handleCommand` as written. Only `new` and `resume` touch the
      session store, only `model` and `permission-mode` the overrides,
      only `rescan` the registry, and no command the cost records. No
      command stops a running query or forgets its handle: `/new` and
      `/abort` throw on the handle instead (see `NewSessionAsWritten`). */
  method HandleCommand(ctx: Ctx, channelId: string, cmd: Command, env: Env) returns (o: Outcome)
    ensures cmd.name !in Known ==> o == Outcome(ctx, Some(UnknownCommand), false)
    ensures !o.signalled && o.ctx.active == ctx.active
    ensures cmd.name in {"new", "abort"} && channelId in ctx.active ==> o == Outcome(ctx, None, false)
    ensures cmd.name !in {"new", "resume"} ==> o.ctx.sessions == ctx.sessions
    ensures cmd.name !in {"model", "permission-mode"} ==> o.ctx.overrides == ctx.overrides
    ensures cmd.name != "rescan" ==> o.ctx.registry == ctx.registry
    ensures o.ctx.lastCosts == ctx.lastCosts
    ensures cmd.name in {"status", "cost", "config", "projects", "help"} ==> o.ctx == ctx && o.reply.Some?
    ensures cmd.name == "new" && channelId !in ctx.active ==>
              o == NewSession(ctx, channelId, OptionOf(cmd, "save_as"), env.now)
    ensures cmd.name == "resume" && Truthy(OptionOf(cmd, "label")) ==>
              o == ResumeNamed(ctx, channelId, OptionOf(cmd, "label").value, env.now)
    ensures cmd.name == "abort" && channelId !in ctx.active ==> o == Outcome(ctx, Some(NothingRunning), false)
    ensures cmd.name == "resume" && !Truthy(OptionOf(cmd, "label")) ==>
              o.ctx == ctx && o.reply.Some? && ListingReply(ctx, channelId, env.timeText, o.reply.value)
    ensures cmd.name in {"status", "cost", "config", "projects", "help"} ==> o == ReportOutcome(ctx, channelId, cmd.name, env.render)
    ensures cmd.name == "status" ==> o.reply == Some(StatusReply(ctx, channelId))
    ensures cmd.name == "cost" ==> o.reply == Some(CostReply(ctx, channelId, env.render))
    ensures cmd.name == "config" ==> o.reply == Some(Join(ConfigLines(ctx, channelId, env.render), "\n"))
    ensures cmd.name == "projects" ==> o.reply == Some(ProjectsReply(ctx.registry))
    ensures cmd.name == "help" ==> o.reply == Some(Join(HelpLines, "\n"))
    ensures cmd.name == "rescan" ==> o == Rescan(ctx, env)
    ensures cmd.name == "model" ==> o == SetModel(ctx, channelId, OptionOf(cmd, "name"))
    ensures cmd.name == "permission-mode" ==> o == SetPermissionMode(ctx, channelId, OptionOf(cmd, "mode"))
  {
    if cmd.name in {"new", "resume", "abort"} {
      o := SessionCommand(ctx, channelId, cmd, env);
    } else if cmd.name in {"status", "cost", "config", "projects", "help"} {
      o := ReportCommand(ctx, channelId, cmd, env);
    } else {
      o := SettingCommand(ctx, channelId, cmd, env);
    }
  }

  /** `/rescan`, `/model`, `/permission-mode` and unknown commands: each
      changes at most the registry or one override map. */
  method SettingCommand(ctx: Ctx, channelId: string, cmd: Command, env: Env) returns (o: Outcome)
    requires cmd.name !in {"new", "resume", "abort", "status", "cost", "config", "projects", "help"}
    ensures !o.signalled && o.ctx.active == ctx.active && o.ctx.sessions == ctx.sessions
    ensures o.ctx.lastCosts == ctx.lastCosts
    ensures cmd.name !in {"model", "permission-mode"} ==> o.ctx.overrides == ctx.overrides
    ensures cmd.name != "rescan" ==> o.ctx.registry == ctx.registry
    ensures cmd.name !in Known ==> o == Outcome(ctx, Some(UnknownCommand), false)
    ensures cmd.name == "rescan" ==> o == Rescan(ctx, env)
    ensures cmd.name == "model" ==> o == SetModel(ctx, channelId, OptionOf(cmd, "name"))
    ensures cmd.name == "permission-mode" ==> o == SetPermissionMode(ctx, channelId, OptionOf(cmd, "mode"))
  {
    if cmd.name == "rescan" {
      o := Rescan(ctx, env);
    } else if cmd.name == "model" {
      o := SetModel(ctx, channelId, OptionOf(cmd, "name"));
    } else if cmd.name == "permission-mode" {
      o := SetPermissionMode(ctx, channelId, OptionOf(cmd, "mode"));
    } else {
      o := Outcome(ctx, Some(UnknownCommand), false);
    }
  }

  /** The commands that act on the channel's session or its running query. */
  method SessionCommand(ctx: Ctx, channelId: string, cmd: Command, env: Env) returns (o: Outcome)
    requires cmd.name in {"new", "resume", "abort"}
    ensures !o.signalled && o.ctx.active == ctx.active
    ensures cmd.name == "abort" ==> o.ctx.sessions == ctx.sessions
    ensures o.ctx.overrides == ctx.overrides && o.ctx.registry == ctx.registry && o.ctx.lastCosts == ctx.lastCosts
    ensures cmd.name != "resume" && channelId in ctx.active ==> o == Outcome(ctx, None, false)
    ensures cmd.name == "new" && channelId !in ctx.active ==>
              o == NewSession(ctx, channelId, OptionOf(cmd, "save_as"), env.now)
    ensures cmd.name == "resume" && Truthy(OptionOf(cmd, "label")) ==>
              o == ResumeNamed(ctx, channelId, OptionOf(cmd, "label").value, env.now)
    ensures cmd.name == "abort" && channelId !in ctx.active ==> o == Outcome(ctx, Some(NothingRunning), false)
    ensures cmd.name == "resume" && !Truthy(OptionOf(cmd, "label")) ==>
              o.ctx == ctx && o.reply.Some? && ListingReply(ctx, channelId, env.timeText, o.reply.value)
  {
    if cmd.name == "new" {
      o := NewSessionAsWritten(ctx, channelId, OptionOf(cmd, "save_as"), env.now);
    } else if cmd.name == "abort" {
      o := AbortQueryAsWritten(ctx, channelId);
    } else {
      var lbl := OptionOf(cmd, "label");
      if Truthy(lbl) {
        o := ResumeNamed(ctx, channelId, lbl.value, env.now);
      } else {
        o := ListForResume(ctx, channelId, env.timeText);
      }
    }
  }

  /** The reply of a command that only reports. */
  function ReportText(ctx: Ctx, channelId: string, name: string, render: Render): string {
    match name
    case "status" => StatusReply(ctx, channelId)
    case "cost" => CostReply(ctx, channelId, render)
    case "config" => Join(ConfigLines(ctx, channelId, render), "\n")
    case "projects" => ProjectsReply(ctx.registry)
    case _ => Join(HelpLines, "\n")
  }

  /** What a reporting command does: it replies and changes nothing. */
  function ReportOutcome(ctx: Ctx, channelId: string, name: string, render: Render): (o: Outcome)
    ensures o.ctx == ctx && o.reply.Some? && !o.signalled
  {
    Outcome(ctx, Some(ReportText(ctx, channelId, name, render)), false)
  }

  /** The commands that only report: they reply and change nothing. */
  method ReportCommand(ctx: Ctx, channelId: string, cmd: Command, env: Env) returns (o: Outcome)
    requires cmd.name in {"status", "cost", "config", "projects", "help"}
    ensures o.ctx == ctx && o.reply.Some? && !o.signalled
    ensures cmd.name == "status" ==> o.reply == Some(StatusReply(ctx, channelId))
    ensures cmd.name == "cost" ==> o.reply == Some(CostReply(ctx, channelId, env.render))
    ensures cmd.name == "config" ==> o.reply == Some(Join(ConfigLines(ctx, channelId, env.render), "\n"))
    ensures cmd.name == "projects" ==> o.reply == Some(ProjectsReply(ctx.registry))
    ensures cmd.name == "help" ==> o.reply == Some(Join(HelpLines, "\n"))
    ensures o == ReportOutcome(ctx, channelId, cmd.name, env.render)
  {
    o := ReportOutcome(ctx, channelId, cmd.name, env.render);
  }

  // ---------------------------------------------------------------------
  // Properties across commands
  // ---------------------------------------------------------------------

  /** `/new save_as:l` followed by `/resume l` brings back the session that
      was current before `/new`, and consumes the snapshot. The code as
      written agrees when no query is running. */
  lemma NewSavedThenResumed(ctx: Ctx, channelId: string, name: string, t1: nat, t2: nat)
    requires name != "" && channelId in ctx.sessions.sessions
    ensures var o1 := NewSession(ctx, channelId, Some(name), t1);
            var o2 := ResumeNamed(o1.ctx, channelId, name, t2);
            && Sessions.Get(o1.ctx.sessions, channelId) == None
            && o2.reply == Some("Resumed session **" + name + "**.")
            && Sessions.Get(o2.ctx.sessions, channelId) == Sessions.Get(ctx.sessions, channelId)
            && o2.ctx.sessions.saved == ctx.sessions.saved - {Sessions.SavedKey(channelId, name)}
    ensures channelId !in ctx.active ==>
              NewSessionAsWritten(ctx, channelId, Some(name), t1) == NewSession(ctx, channelId, Some(name), t1)
  {
    var ctx1 := ctx.(active := ctx.active - {channelId});
    Sessions.SaveClearRestore(ctx1.sessions, channelId, name, t1, t2);
  }

  /** A second `/abort` finds nothing to stop. The code as written agrees
      when no query is running. */
  lemma AbortTwice(ctx: Ctx, channelId: string)
    ensures var o := AbortQuery(AbortQuery(ctx, channelId).ctx, channelId);
            o.reply == Some(NothingRunning) && !o.signalled
    ensures channelId !in ctx.active ==> AbortQueryAsWritten(ctx, channelId) == AbortQuery(ctx, channelId)
  {
  }

  /** Overrides are per channel: setting one channel's model leaves what
      status shows for every other channel as it was. */
  lemma ModelOverrideIsLocal(ctx: Ctx, a: string, b: string, name: string)
    requires a != b
    ensures StatusReply(SetModel(ctx, a, Some(name)).ctx, b) == StatusReply(ctx, b)
  {
    assert GetModelOverride(SetModel(ctx, a, Some(name)).ctx.overrides, b) == GetModelOverride(ctx.overrides, b);
  }

  /** After `/model name`, status shows that name for the channel. */
  lemma StatusShowsOverride(ctx: Ctx, channelId: string, name: string)
    requires Projects.GetByChannelId(ctx.registry, channelId).Some?
    ensures var p := Projects.GetByChannelId(ctx.registry, channelId).value;
            ShownModel(SetModel(ctx, channelId, Some(name)).ctx.overrides, p, channelId) == name
  {
  }
}

=== FILE: formatter.dfy ===
/**
  The response formatter of src/formatter.ts: splitting a reply into
  message-sized pieces, repairing Markdown code fences across piece
  boundaries, truncation, and the cost footer.

  A fence is any occurrence of three backticks found by a left-to-right
  scan that resumes right after each fence it finds; there is no check
  for line starts or fence length.
 */
module Formatter {
  import opened Basics

  const MAX_MESSAGE_LENGTH: nat := 1900
  const Fence: string := "```"
  const CloseFence: string := "\n```"

  // ---------------------------------------------------------------------
  // Fence scanning
  // ---------------------------------------------------------------------

  predicate IsFenceAt(s: string, i: int) {
    0 <= i && i + 3 <= |s| && s[i] == '`' && s[i + 1] == '`' && s[i + 2] == '`'
  }

  /** `s.indexOf("```", from)`: the first fence at or after `from`, or -1. */
  function IndexOfFence(s: string, from: nat): (r: int)
    decreases |s| - from
    ensures r == -1 || (from <= r && IsFenceAt(s, r))
    ensures forall j {:trigger IsFenceAt(s, j)} ::
      from <= j && (r == -1 || j < r) ==> !IsFenceAt(s, j)
  {
    if from + 3 > |s| then -1
    else if IsFenceAt(s, from) then from
    else IndexOfFence(s, from + 1)
  }

  /** Start positions of the fences the scan meets from `from` on. */
  function FenceStarts(s: string, from: nat): (r: seq<nat>)
    decreases |s| - from
    ensures forall k :: 0 <= k < |r| ==> from <= r[k] && IsFenceAt(s, r[k])
    ensures forall k :: 0 < k < |r| ==> r[k - 1] + 3 <= r[k]
  {
    var idx := IndexOfFence(s, from);
    if idx < 0 then [] else [idx] + FenceStarts(s, idx + 3)
  }

  function FenceCount(s: string): nat {
    |FenceStarts(s, 0)|
  }

  predicate IsWordChar(c: char) {
    ('a' <= c <= 'z') || ('A' <= c <= 'Z') || ('0' <= c <= '9') || c == '_'
  }

  predicate IsWord(s: string) {
    forall i :: 0 <= i < |s| ==> IsWordChar(s[i])
  }

  /** The match of `/^(\w*)/`: the longest prefix of word characters. */
  function WordPrefix(s: string): (r: string)
    ensures IsWord(r) && IsPrefix(r, s)
    ensures |r| < |s| ==> !IsWordChar(s[|r|])
  {
    if |s| == 0 || !IsWordChar(s[0]) then ""
    else
      var w := WordPrefix(s[1..]);
      assert ([s[0]] + w)[1..] == w;
      [s[0]] + w
  }

  /** Whether the scan is inside a code block, and the language tag of the
      block it is in. */
  datatype FenceState = FenceState(inBlock: bool, lang: string)

  const Outside := FenceState(false, "")

  /** What meeting a fence does: outside a block it opens one and records
      the word after the fence as the language; inside it closes the block. */
  function Toggle(s: string, idx: nat, st: FenceState): FenceState
    requires idx + 3 <= |s|
  {
    if !st.inBlock then FenceState(true, WordPrefix(s[idx + 3..]))
    else FenceState(false, "")
  }

  /** The scan at formatter.ts:71-91, started at `pos` in state `st`. The
      final state is `st` flipped once per fence met. */
  function ScanFences(s: string, pos: nat, st: FenceState): (r: FenceState)
    decreases |s| - pos
    ensures r.inBlock == (st.inBlock != (|FenceStarts(s, pos)| % 2 == 1))
    ensures IsWord(st.lang) ==> IsWord(r.lang)
    ensures |FenceStarts(s, pos)| == 0 ==> r == st
    ensures |FenceStarts(s, pos)| > 0 && !r.inBlock ==> r.lang == ""
  {
    if pos >= |s| then st
    else
      var idx := IndexOfFence(s, pos);
      if idx < 0 then st
      else ScanFences(s, idx + 3, Toggle(s, idx, st))
  }

  // ---------------------------------------------------------------------
  // Fence counts of the text the repair pass builds
  // ---------------------------------------------------------------------

  /** A run with no fence in it does not change where the next fence is. */
  lemma IndexOfFenceSkip(s: string, from: nat, to: nat)
    requires from <= to
    requires forall j :: from <= j < to ==> !IsFenceAt(s, j)
    ensures IndexOfFence(s, from) == IndexOfFence(s, to)
  {
  }

  /** Searching in the second half of a concatenation is searching the half. */
  lemma {:induction false} IndexOfFenceShift(a: string, b: string, from: nat)
    requires from >= |a|
    ensures var i := IndexOfFence(b, from - |a|);
            IndexOfFence(a + b, from) == if i < 0 then -1 else i + |a|
    decreases |a + b| - from
  {
    var s := a + b;
    if from + 3 <= |s| {
      assert IsFenceAt(s, from) <==> IsFenceAt(b, from - |a|) by {
        assert s[from] == b[from - |a|];
        assert s[from + 1] == b[from - |a| + 1];
        assert s[from + 2] == b[from - |a| + 2];
      }
      if !IsFenceAt(s, from) {
        IndexOfFenceShift(a, b, from + 1);
      }
    }
  }

  /** Fences in the second half of a concatenation are those of the half. */
  lemma {:induction false} FenceStartsShift(a: string, b: string, from: nat)
    requires from >= |a|
    ensures |FenceStarts(a + b, from)| == |FenceStarts(b, from - |a|)|
    decreases |a + b| - from
  {
    IndexOfFenceShift(a, b, from);
    var k := IndexOfFence(a + b, from);
    if k >= 0 {
      FenceStartsShift(a, b, k + 3);
    }
  }

  function Reopen(lang: string): string {
    Fence + lang + "\n"
  }

  /** A reopening fence line contributes exactly one fence. */
  lemma FenceCountAfterReopen(lang: string, c: string)
    requires IsWord(lang)
    ensures FenceCount(Reopen(lang) + c) == FenceCount(c) + 1
  {
    var R := Reopen(lang);
    var s := R + c;
    assert IsFenceAt(s, 0);
    assert IndexOfFence(s, 0) == 0;
    assert forall j :: 3 <= j < |R| ==> s[j] == R[j];
    assert forall j :: 3 <= j < |R| - 1 ==> IsWordChar(s[j]) by {
      forall j | 3 <= j < |R| - 1 ensures IsWordChar(s[j]) {
        assert s[j] == lang[j - 3];
      }
    }
    assert s[|R| - 1] == '\n';
    assert forall j :: 3 <= j < |R| ==> !IsFenceAt(s, j);
    IndexOfFenceSkip(s, 3, |R|);
    assert FenceStarts(s, 3) == FenceStarts(s, |R|);
    FenceStartsShift(R, c, |R|);
  }

  /** Appending the closing fence adds exactly one fence. */
  lemma {:induction false} FenceStartsBeforeClose(x: string, from: nat)
    requires from <= |x| + 1
    ensures |FenceStarts(x + CloseFence, from)| == |FenceStarts(x, from)| + 1
    decreases |x| + 1 - from
  {
    var s := x + CloseFence;
    var i := IndexOfFence(x, from);
    if i >= 0 {
      CloseKeepsEarlierFence(x, from);
      assert FenceStarts(s, from) == [i] + FenceStarts(s, i + 3);
      FenceStartsBeforeClose(x, i + 3);
    } else {
      CloseIsLastFence(x, from);
      assert FenceStarts(x, from) == [];
    }
  }

  /** Fences of `x + CloseFence` that start early enough are those of `x`;
      the only other one is the close itself. */
  lemma CloseFenceShape(x: string)
    ensures forall j :: j + 3 <= |x| ==> (IsFenceAt(x + CloseFence, j) <==> IsFenceAt(x, j))
    ensures forall j :: |x| - 2 <= j <= |x| ==> !IsFenceAt(x + CloseFence, j)
    ensures IsFenceAt(x + CloseFence, |x| + 1)
  {
    assert (x + CloseFence)[|x|] == '\n';
  }

  lemma CloseKeepsEarlierFence(x: string, from: nat)
    requires IndexOfFence(x, from) >= 0
    ensures IndexOfFence(x + CloseFence, from) == IndexOfFence(x, from)
  {
    CloseFenceShape(x);
  }

  lemma CloseIsLastFence(x: string, from: nat)
    requires from <= |x| + 1 && IndexOfFence(x, from) == -1
    ensures IndexOfFence(x + CloseFence, from) == |x| + 1
    ensures FenceStarts(x + CloseFence, from) == [|x| + 1]
  {
    var s := x + CloseFence;
    CloseFenceShape(x);
    assert IndexOfFence(s, from) == |x| + 1;
    assert IndexOfFence(s, |x| + 4) == -1;
    assert FenceStarts(s, |x| + 4) == [];
  }

  lemma FenceCountAfterClose(x: string)
    ensures FenceCount(x + CloseFence) == FenceCount(x) + 1
  {
    FenceStartsBeforeClose(x, 0);
  }

  // ---------------------------------------------------------------------
  // Repair pass (fixCodeBlockContinuity), as written
  // ---------------------------------------------------------------------

  predicate IsReopenLine(p: string) {
    |p| >= 4 && p[..3] == Fence && p[|p| - 1] == '\n' && IsWord(p[3..|p| - 1])
  }

  /** `out` is `raw`, optionally preceded by a reopening fence line and
      optionally followed by a closing fence; nothing else differs. */
  predicate OnlyFencesAdded(raw: string, out: string) {
    || out == raw
    || out == raw + CloseFence
    || (|out| >= |raw| && IsReopenLine(out[..|out| - |raw|]) && out[|out| - |raw|..] == raw)
    || (|out| >= |raw| + 4 && IsReopenLine(out[..|out| - |raw| - 4])
        && out[|out| - |raw| - 4..] == raw + CloseFence)
  }

  lemma ReopenIsReopenLine(lang: string)
    requires IsWord(lang)
    ensures IsReopenLine(Reopen(lang))
  {
    var R := Reopen(lang);
    assert R[3..|R| - 1] == lang;
  }

  lemma WrappedChunk(lang: string, raw: string, reopen: bool, close: bool)
    requires IsWord(lang)
    ensures var full := if reopen then Reopen(lang) + raw else raw;
            OnlyFencesAdded(raw, if close then full + CloseFence else full)
  {
    var full := if reopen then Reopen(lang) + raw else raw;
    var out := if close then full + CloseFence else full;
    if reopen {
      ReopenIsReopenLine(lang);
      var R := Reopen(lang);
      if close {
        assert out == R + (raw + CloseFence);
        assert out[..|out| - |raw| - 4] == R;
        assert out[|out| - |raw| - 4..] == raw + CloseFence;
      } else {
        assert out == R + raw;
        assert out[..|out| - |raw|] == R;
        assert out[|out| - |raw|..] == raw;
      }
    } else if !close {
      assert out == raw;
    }
  }

  /** One iteration of the loop at formatter.ts:62-103: the repaired chunk
      and the state carried to the next one. A chunk entered inside a block
      gets the reopening fence, and the scan then starts from that same
      inside state over the prefixed text. */
  function FixStep(chunk: string, st: FenceState): (string, FenceState) {
    var full := if st.inBlock then Reopen(st.lang) + chunk else chunk;
    var next := ScanFences(full, 0, st);
    (if next.inBlock then full + CloseFence else full, next)
  }

  function FixFrom(chunks: seq<string>, st: FenceState): (r: seq<string>)
    requires IsWord(st.lang)
    decreases |chunks|
    ensures |r| == |chunks|
  {
    if |chunks| == 0 then []
    else
      var step := FixStep(chunks[0], st);
      StepAddsOnlyFences(chunks[0], st);
      [step.0] + FixFrom(chunks[1..], step.1)
  }

  /** The repair only adds fences: each output chunk is its input chunk
      with at most a reopening line in front and a closing fence behind. */
  lemma {:induction false} FixFromAddsOnlyFences(chunks: seq<string>, st: FenceState)
    requires IsWord(st.lang)
    ensures forall i :: 0 <= i < |chunks| ==> OnlyFencesAdded(chunks[i], FixFrom(chunks, st)[i])
  {
    forall i | 0 <= i < |chunks|
      ensures OnlyFencesAdded(chunks[i], FixFrom(chunks, st)[i])
    {
      FixFromAt(chunks, st, i);
      StepAddsOnlyFences(chunks[i], StateAfter(chunks[..i], st));
    }
  }

  lemma StepAddsOnlyFences(chunk: string, st: FenceState)
    requires IsWord(st.lang)
    ensures OnlyFencesAdded(chunk, FixStep(chunk, st).0)
    ensures IsWord(FixStep(chunk, st).1.lang)
  {
    var step := FixStep(chunk, st);
    WrappedChunk(st.lang, chunk, st.inBlock, step.1.inBlock);
  }

  /** `fixCodeBlockContinuity`: the scan state starts outside any block. */
  function FixCodeBlockContinuity(chunks: seq<string>): seq<string> {
    FixFrom(chunks, Outside)
  }

  /** The state the pass is in when it reaches the chunk after `chunks`. */
  function StateAfter(chunks: seq<string>, st: FenceState): FenceState
    decreases |chunks|
  {
    if |chunks| == 0 then st else StateAfter(chunks[1..], FixStep(chunks[0], st).1)
  }

  lemma {:induction false} FixFromAt(chunks: seq<string>, st: FenceState, i: nat)
    requires IsWord(st.lang)
    requires i < |chunks|
    ensures IsWord(StateAfter(chunks[..i], st).lang)
    ensures FixFrom(chunks, st)[i] == FixStep(chunks[i], StateAfter(chunks[..i], st)).0
    decreases i
  {
    FixFromCons(chunks, st);
    if i > 0 {
      StateAfterCons(chunks, st, i);
      assert FixFrom(chunks, st)[i] == FixFrom(chunks[1..], FixStep(chunks[0], st).1)[i - 1];
      assert chunks[i] == chunks[1..][i - 1];
      FixFromAt(chunks[1..], FixStep(chunks[0], st).1, i - 1);
    } else {
      assert chunks[..i] == [];
    }
  }

  lemma FixFromCons(chunks: seq<string>, st: FenceState)
    requires IsWord(st.lang) && |chunks| > 0
    ensures IsWord(FixStep(chunks[0], st).1.lang)
    ensures FixFrom(chunks, st) == [FixStep(chunks[0], st).0] + FixFrom(chunks[1..], FixStep(chunks[0], st).1)
  {
    StepAddsOnlyFences(chunks[0], st);
  }

  lemma StateAfterCons(chunks: seq<string>, st: FenceState, i: nat)
    requires 0 < i <= |chunks|
    ensures StateAfter(chunks[..i], st) == StateAfter(chunks[1..][..i - 1], FixStep(chunks[0], st).1)
  {
    assert chunks[..i][1..] == chunks[1..][..i - 1];
  }

  /** The fence count of a repaired chunk: even when the chunk is entered
      outside a block, odd when it is entered inside one, because the
      reopening fence is counted by the scan as a close. */
  lemma StepParity(chunk: string, st: FenceState)
    requires IsWord(st.lang)
    ensures FenceCount(FixStep(chunk, st).0) % 2 == (if st.inBlock then 1 else 0)
    ensures st.inBlock ==> IsPrefix(Reopen(st.lang), FixStep(chunk, st).0)
  {
    var full := if st.inBlock then Reopen(st.lang) + chunk else chunk;
    var next := ScanFences(full, 0, st);
    var out := if next.inBlock then full + CloseFence else full;
    assert FixStep(chunk, st).0 == out;
    if next.inBlock {
      FenceCountAfterClose(full);
    }
    ParityAfterClose(FenceCount(full), FenceCount(out), st.inBlock, next.inBlock);
    if st.inBlock {
      if next.inBlock {
        AppendAssoc(Reopen(st.lang), chunk, CloseFence);
        PrefixOfAppend(Reopen(st.lang), chunk + CloseFence);
      } else {
        PrefixOfAppend(Reopen(st.lang), chunk);
      }
    }
  }

  /** The close appended when the scan ends inside a block makes the count
      odd exactly when the scan started inside one. */
  lemma ParityAfterClose(f: nat, out: nat, entered: bool, closed: bool)
    requires closed == (entered != (f % 2 == 1))
    requires out == f + (if closed then 1 else 0)
    ensures out % 2 == (if entered then 1 else 0)
  {
  }

  /** Reopening and closing around a chunk scanned on its own always leave
      an even count. */
  lemma ParityAroundChunk(c: nat, out: nat, reopened: bool, closed: bool)
    requires closed == (reopened != (c % 2 == 1))
    requires out == c + (if reopened then 1 else 0) + (if closed then 1 else 0)
    ensures out % 2 == 0
  {
  }

  /** Balance holds exactly for the chunks entered outside a block; every
      chunk entered inside one carries the reopening fence and an odd
      number of fences, so it leaves a block open when shown on its own. */
  lemma ContinuationParity(chunks: seq<string>, i: nat)
    requires i < |chunks|
    ensures var out := FixCodeBlockContinuity(chunks)[i];
            var entry := StateAfter(chunks[..i], Outside);
            && (!entry.inBlock ==> FenceCount(out) % 2 == 0)
            && (entry.inBlock ==> FenceCount(out) % 2 == 1 && IsPrefix(Reopen(entry.lang), out))
  {
    FixFromAt(chunks, Outside, i);
    StepParity(chunks[i], StateAfter(chunks[..i], Outside));
  }

  /** When no chunk holds an odd number of fences the pass changes nothing. */
  lemma {:induction false} EvenChunksUnchanged(chunks: seq<string>)
    requires forall i :: 0 <= i < |chunks| ==> FenceCount(chunks[i]) % 2 == 0
    ensures FixCodeBlockContinuity(chunks) == chunks
    decreases |chunks|
  {
    if |chunks| > 0 {
      var st := FixStep(chunks[0], Outside).1;
      assert st == Outside;
      EvenChunksUnchanged(chunks[1..]);
    }
  }

  /** The smallest input showing the defect: the second chunk continues the
      block, gets the reopening fence, and is not closed. */
  lemma ContinuationLeftOpen()
    ensures FixCodeBlockContinuity(["```py\nx", "y"]) == ["```py\nx\n```", "```py\ny"]
    ensures FenceCount("```py\ny") == 1
  {
    var st1 := FenceState(true, "py");
    FirstChunkOpens();
    SecondChunkLeftOpen();
    var chunks := ["```py\nx", "y"];
    assert chunks[1..] == ["y"];
    assert FixFrom(["y"], st1) == ["```py\ny"];
  }

  /** The continuation chunk: its reopening fence is the only fence the
      scan sees, so the scan ends outside and no close is added. */
  lemma SecondChunkLeftOpen()
    ensures FixStep("y", FenceState(true, "py")) == ("```py\ny", FenceState(false, ""))
    ensures FenceCount("```py\ny") == 1
  {
    var st1 := FenceState(true, "py");
    var c1 := "```py\ny";
    assert Reopen("py") + "y" == c1;
    assert IsFenceAt(c1, 0);
    assert IndexOfFence(c1, 0) == 0;
    assert IndexOfFence(c1, 5) == -1;
    assert IndexOfFence(c1, 4) == -1;
    assert IndexOfFence(c1, 3) == -1;
    assert FenceStarts(c1, 3) == [];
    assert FenceStarts(c1, 0) == [0];
    assert ScanFences(c1, 3, FenceState(false, "")) == FenceState(false, "");
    assert ScanFences(c1, 0, st1) == FenceState(false, "");
  }

  /** With the intended scan the continuation chunk has no fence of its
      own, so the block is still open after it and a close is added. */
  lemma SecondChunkClosed()
    ensures FixStepIntended("y", FenceState(true, "py")).0 == "```py\ny\n```"
  {
    var st1 := FenceState(true, "py");
    assert IndexOfFence("y", 0) == -1;
    assert ScanFences("y", 0, st1) == st1;
    assert Reopen("py") + "y" + CloseFence == "```py\ny\n```";
  }

  /** The first chunk of the examples opens a `py` block and is closed. */
  lemma FirstChunkOpens()
    ensures FixStep("```py\nx", Outside) == ("```py\nx\n```", FenceState(true, "py"))
    ensures FixStepIntended("```py\nx", Outside) == ("```py\nx\n```", FenceState(true, "py"))
  {
    var c0 := "```py\nx";
    assert IsFenceAt(c0, 0);
    assert IndexOfFence(c0, 0) == 0;
    assert IndexOfFence(c0, 5) == -1;
    assert IndexOfFence(c0, 4) == -1;
    assert IndexOfFence(c0, 3) == -1;
    assert WordPrefix(c0[3..]) == "py" by {
      assert c0[3..] == "py\nx";
      assert WordPrefix("\nx") == "";
      assert WordPrefix("y\nx") == "y";
    }
    var st1 := FenceState(true, "py");
    assert ScanFences(c0, 3, st1) == st1;
    assert ScanFences(c0, 0, Outside) == st1;
    assert c0 + CloseFence == "```py\nx\n```";
  }

  // ---------------------------------------------------------------------
  // Repair pass as evidently intended
  // ---------------------------------------------------------------------

  /** The intended iteration: the state carried from the previous chunk is
      already "inside", so only the chunk's own text is scanned. */
  function FixStepIntended(chunk: string, st: FenceState): (string, FenceState) {
    var full := if st.inBlock then Reopen(st.lang) + chunk else chunk;
    var next := ScanFences(chunk, 0, st);
    (if next.inBlock then full + CloseFence else full, next)
  }

  function FixFromIntended(chunks: seq<string>, st: FenceState): (r: seq<string>)
    requires IsWord(st.lang)
    decreases |chunks|
    ensures |r| == |chunks|
    ensures forall i :: 0 <= i < |r| ==> OnlyFencesAdded(chunks[i], r[i])
    ensures forall i :: 0 <= i < |r| ==> FenceCount(r[i]) % 2 == 0
  {
    if |chunks| == 0 then []
    else
      var step := FixStepIntended(chunks[0], st);
      var rest := FixFromIntended(chunks[1..], step.1);
      IntendedStepBalanced(chunks[0], st);
      assert forall i :: 0 < i < |chunks| ==> chunks[i] == chunks[1..][i - 1];
      [step.0] + rest
  }

  lemma IntendedStepBalanced(chunk: string, st: FenceState)
    requires IsWord(st.lang)
    ensures FenceCount(FixStepIntended(chunk, st).0) % 2 == 0
    ensures OnlyFencesAdded(chunk, FixStepIntended(chunk, st).0)
    ensures IsWord(FixStepIntended(chunk, st).1.lang)
  {
    var next := ScanFences(chunk, 0, st);
    WrappedChunk(st.lang, chunk, st.inBlock, next.inBlock);
    IntendedStepCount(chunk, st);
  }

  lemma IntendedStepCount(chunk: string, st: FenceState)
    requires IsWord(st.lang)
    ensures FenceCount(FixStepIntended(chunk, st).0) % 2 == 0
  {
    var full := if st.inBlock then Reopen(st.lang) + chunk else chunk;
    var next := ScanFences(chunk, 0, st);
    var out := if next.inBlock then full + CloseFence else full;
    assert out == FixStepIntended(chunk, st).0;
    if st.inBlock {
      FenceCountAfterReopen(st.lang, chunk);
    }
    if next.inBlock {
      FenceCountAfterClose(full);
    }
    ParityAroundChunk(FenceCount(chunk), FenceCount(out), st.inBlock, next.inBlock);
  }

  /** Every chunk of the intended repair is balanced on its own. */
  function FixCodeBlockIntended(chunks: seq<string>): (r: seq<string>)
    ensures |r| == |chunks|
    ensures forall i :: 0 <= i < |r| ==> FenceCount(r[i]) % 2 == 0
    ensures forall i :: 0 <= i < |r| ==> OnlyFencesAdded(chunks[i], r[i])
  {
    FixFromIntended(chunks, Outside)
  }

  function TotalFences(chunks: seq<string>): nat
    decreases |chunks|
  {
    if |chunks| == 0 then 0 else FenceCount(chunks[0]) + TotalFences(chunks[1..])
  }

  function StateAfterIntended(chunks: seq<string>, st: FenceState): FenceState
    decreases |chunks|
  {
    if |chunks| == 0 then st else StateAfterIntended(chunks[1..], FixStepIntended(chunks[0], st).1)
  }

  /** The intended pass tracks the document: the state it carries past a
      run of chunks is "inside" exactly when those chunks hold an odd total
      number of fences. */
  lemma {:induction false} IntendedStateTracksDocument(chunks: seq<string>, st: FenceState)
    ensures StateAfterIntended(chunks, st).inBlock == (st.inBlock != (TotalFences(chunks) % 2 == 1))
    decreases |chunks|
  {
    if |chunks| > 0 {
      var st1 := FixStepIntended(chunks[0], st).1;
      IntendedStepState(chunks[0], st);
      IntendedStateTracksDocument(chunks[1..], st1);
      assert StateAfterIntended(chunks, st) == StateAfterIntended(chunks[1..], st1);
      OddSum(FenceCount(chunks[0]), TotalFences(chunks[1..]));
    }
  }

  /** One intended step flips the state once per fence of the chunk. */
  lemma IntendedStepState(chunk: string, st: FenceState)
    ensures FixStepIntended(chunk, st).1.inBlock == (st.inBlock != (FenceCount(chunk) % 2 == 1))
  {
    assert FixStepIntended(chunk, st).1 == ScanFences(chunk, 0, st);
  }

  lemma OddSum(a: nat, b: nat)
    ensures ((a + b) % 2 == 1) == ((a % 2 == 1) != (b % 2 == 1))
  {
  }

  lemma IntendedClosesContinuation()
    ensures FixCodeBlockIntended(["```py\nx", "y"]) == ["```py\nx\n```", "```py\ny\n```"]
  {
    var st1 := FenceState(true, "py");
    FirstChunkOpens();
    SecondChunkClosed();
    var chunks := ["```py\nx", "y"];
    assert chunks[1..] == ["y"];
    assert FixFromIntended(["y"], st1) == ["```py\ny\n```"];
  }

  // ---------------------------------------------------------------------
  // Splitting (chunkResponse)
  // ---------------------------------------------------------------------

  /** The scan at formatter.ts:42-47 over fences that start below `maxLen`,
      remembering the end of the last one. */
  function BoundaryScan(s: string, maxLen: int, pos: nat, lastClose: int): int
    decreases |s| - pos
  {
    if pos >= maxLen then lastClose
    else
      var idx := IndexOfFence(s, pos);
      if idx == -1 || idx >= maxLen then lastClose
      else BoundaryScan(s, maxLen, idx + 3, idx + 3)
  }

  /** `r` is what the scan returns over fence starts `fs`: `lastClose`
      when no fence starts below `maxLen`, else the end of the last one
      that does. */
  predicate EndsLastBelow(fs: seq<nat>, maxLen: int, r: int, lastClose: int) {
    || (r == lastClose && forall p :: p in fs ==> p >= maxLen)
    || (r - 3 in fs && r - 3 < maxLen && forall p :: p in fs && p < maxLen ==> p <= r - 3)
  }

  lemma {:induction false} BoundaryScanFindsLast(s: string, maxLen: int, pos: nat, lastClose: int)
    ensures EndsLastBelow(FenceStarts(s, pos), maxLen, BoundaryScan(s, maxLen, pos, lastClose), lastClose)
  {
    BoundaryScanAsList(s, maxLen, pos, lastClose);
    ScanListFindsLast(FenceStarts(s, pos), maxLen, lastClose);
  }

  /** The same scan over the list of fence starts. */
  function ScanList(fs: seq<nat>, maxLen: int, lastClose: int): int
    decreases |fs|
  {
    if |fs| == 0 || fs[0] >= maxLen then lastClose
    else ScanList(fs[1..], maxLen, fs[0] + 3)
  }

  predicate Increasing(fs: seq<nat>) {
    forall k :: 0 < k < |fs| ==> fs[k - 1] + 3 <= fs[k]
  }

  lemma {:induction false} BoundaryScanAsList(s: string, maxLen: int, pos: nat, lastClose: int)
    ensures BoundaryScan(s, maxLen, pos, lastClose) == ScanList(FenceStarts(s, pos), maxLen, lastClose)
    decreases |s| - pos
  {
    var idx := IndexOfFence(s, pos);
    if idx != -1 {
      var fs := FenceStarts(s, pos);
      var next: nat := idx + 3;
      assert fs == [idx] + FenceStarts(s, next);
      assert fs[1..] == FenceStarts(s, next);
      if pos < maxLen && idx < maxLen {
        BoundaryScanAsList(s, maxLen, next, next);
      }
    }
  }

  lemma {:induction false} ScanListFindsLast(fs: seq<nat>, maxLen: int, lastClose: int)
    requires Increasing(fs)
    ensures EndsLastBelow(fs, maxLen, ScanList(fs, maxLen, lastClose), lastClose)
    decreases |fs|
  {
    if |fs| > 0 {
      var rest := fs[1..];
      IncreasingTail(fs);
      if fs[0] < maxLen {
        ScanListFindsLast(rest, maxLen, fs[0] + 3);
        LastOfCons(fs[0], rest, maxLen, ScanList(rest, maxLen, fs[0] + 3), lastClose);
      } else {
        NoneBelow(fs[0], rest, maxLen, lastClose);
      }
    }
  }

  /** The tail of an increasing list is increasing and lies past its head. */
  lemma IncreasingTail(fs: seq<nat>)
    requires Increasing(fs) && |fs| > 0
    ensures fs == [fs[0]] + fs[1..]
    ensures Increasing(fs[1..])
    ensures forall p :: p in fs[1..] ==> p >= fs[0] + 3
  {
    var rest := fs[1..];
    forall k | 0 <= k < |rest| ensures rest[k] >= fs[0] + 3 {
      IncreasingFromHead(fs, k + 1);
    }
  }

  lemma {:induction false} IncreasingFromHead(fs: seq<nat>, k: nat)
    requires Increasing(fs) && 0 < k < |fs|
    ensures fs[k] >= fs[0] + 3 * k
    decreases k
  {
    if k > 1 {
      IncreasingFromHead(fs, k - 1);
    }
  }

  /** A list of fence starts that begins below the limit: its last start
      below the limit is the head's, or the tail's last one. */
  lemma LastOfCons(idx: nat, rest: seq<nat>, maxLen: int, r: int, lastClose: int)
    requires idx < maxLen
    requires forall p :: p in rest ==> p >= idx + 3
    requires EndsLastBelow(rest, maxLen, r, idx + 3)
    ensures EndsLastBelow([idx] + rest, maxLen, r, lastClose)
  {
  }

  /** A list of fence starts whose head is at or past the limit has no
      start below it. */
  lemma NoneBelow(idx: nat, rest: seq<nat>, maxLen: int, lastClose: int)
    requires idx >= maxLen
    requires forall p :: p in rest ==> p >= idx + 3
    ensures EndsLastBelow([idx] + rest, maxLen, lastClose, lastClose)
  {
  }

  /** `findCodeBlockBoundary`: the end of the last fence starting below
      `maxLen`, provided it lies beyond half of `maxLen`; otherwise -1. */
  function FindCodeBlockBoundary(s: string, maxLen: int): (r: int)
    ensures r == -1 || (3 <= r <= maxLen + 2 && 2 * r > maxLen
                        && r - 3 in FenceStarts(s, 0)
                        && forall p :: p in FenceStarts(s, 0) && p < maxLen ==> p <= r - 3)
    ensures r == -1 <==> forall p :: p in FenceStarts(s, 0) && p < maxLen ==> 2 * (p + 3) <= maxLen
  {
    var lastClose := BoundaryScan(s, maxLen, 0, -1);
    BoundaryScanFindsLast(s, maxLen, 0, -1);
    if 2 * lastClose > maxLen then lastClose else -1
  }

  /** `s.lastIndexOf("\n", from)` */
  function LastIndexOfNewline(s: string, from: nat): (r: int)
    ensures r == -1 || (0 <= r <= from && r < |s| && s[r] == '\n')
    ensures forall j :: r < j <= from && j < |s| ==> s[j] != '\n'
  {
    NewlineAtOrBefore(s, if from < |s| then from else |s| - 1)
  }

  function NewlineAtOrBefore(s: string, k: int): (r: int)
    requires k < |s|
    decreases k + 1
    ensures r == -1 || (0 <= r <= k && s[r] == '\n')
    ensures forall j :: r < j <= k ==> s[j] != '\n'
  {
    if k < 0 then -1
    else if s[k] == '\n' then k
    else NewlineAtOrBefore(s, k - 1)
  }

  /** Where one iteration of the loop at formatter.ts:10-31 cuts the
      remaining text: at a fence end, else at the last newline at or before
      `maxLen`, else at `maxLen`. A cut never falls at 0, so every
      iteration consumes text. */
  function SplitIndex(remaining: string, maxLen: nat): (r: nat)
    requires 1 <= maxLen < |remaining|
    ensures 1 <= r <= |remaining|
    ensures r <= maxLen + 2
  {
    var boundary := FindCodeBlockBoundary(remaining, maxLen);
    var split := if boundary == -1 then LastIndexOfNewline(remaining, maxLen) else boundary;
    if split <= 0 then maxLen else split
  }

  /** A piece as cut from the text, and the whitespace `trimStart` dropped
      after it. */
  datatype Piece = Piece(body: string, gap: string)

  function Flatten(pieces: seq<Piece>): string
    decreases |pieces|
  {
    if |pieces| == 0 then "" else pieces[0].body + pieces[0].gap + Flatten(pieces[1..])
  }

  function Bodies(pieces: seq<Piece>): (r: seq<string>)
    ensures |r| == |pieces|
    ensures forall i :: 0 <= i < |r| ==> r[i] == pieces[i].body
  {
    seq(|pieces|, i requires 0 <= i < |pieces| => pieces[i].body)
  }

  /** The split loop of `chunkResponse`. The pieces and dropped gaps put
      back together are the text; every gap is whitespace that `trimStart`
      removed in full; every piece is non-empty and at most two characters
      longer than `maxLen`. */
  function SplitPieces(remaining: string, maxLen: nat): (r: seq<Piece>)
    requires maxLen >= 1
    decreases |remaining|
    ensures Flatten(r) == remaining
    ensures |r| == 0 <==> |remaining| == 0
    ensures |r| > 0 ==> IsPrefix(r[0].body, remaining)
    ensures forall i :: 0 <= i < |r| ==> 1 <= |r[i].body| <= maxLen + 2
    ensures forall i :: 0 <= i < |r| ==> AllWhitespace(r[i].gap)
    ensures forall i :: 0 < i < |r| ==> !IsWhitespace(r[i].body[0])
  {
    if |remaining| == 0 then []
    else if |remaining| <= maxLen then
      assert Flatten([Piece(remaining, "")]) == remaining + "" + Flatten([]);
      [Piece(remaining, "")]
    else
      var cut := SplitIndex(remaining, maxLen);
      var rest := remaining[cut..];
      var n := LeadingWhitespace(rest);
      var tail := SplitPieces(rest[n..], maxLen);
      var head := Piece(remaining[..cut], rest[..n]);
      SplitStep(remaining, cut, n, head, tail);
      [head] + tail
  }

  lemma SplitStep(remaining: string, cut: nat, n: nat, head: Piece, tail: seq<Piece>)
    requires cut <= |remaining| && n <= |remaining| - cut
    requires head == Piece(remaining[..cut], remaining[cut..][..n])
    requires Flatten(tail) == remaining[cut..][n..]
    requires |tail| > 0 ==> IsPrefix(tail[0].body, remaining[cut..][n..])
    requires n < |remaining| - cut ==> !IsWhitespace(remaining[cut..][n])
    requires |tail| == 0 <==> |remaining[cut..][n..]| == 0
    ensures Flatten([head] + tail) == remaining
    ensures |tail| > 0 && |tail[0].body| > 0 ==> !IsWhitespace(tail[0].body[0])
    ensures forall i :: 0 < i < |[head] + tail| ==> ([head] + tail)[i] == tail[i - 1]
  {
    var r := [head] + tail;
    assert r[1..] == tail;
    var rest := remaining[cut..];
    assert remaining == remaining[..cut] + rest[..n] + rest[n..];
    if |tail| > 0 && |tail[0].body| > 0 {
      assert tail[0].body[0] == rest[n..][0] == rest[n];
    }
  }

  /** `chunkResponse(text, maxLen)`: split, then repair fences. */
  function ChunkResponse(text: string, maxLen: nat): (r: seq<string>)
    requires maxLen >= 1
    ensures |r| == |SplitPieces(text, maxLen)|
    ensures r == [] <==> text == ""
    ensures forall i :: 0 <= i < |r| ==> OnlyFencesAdded(SplitPieces(text, maxLen)[i].body, r[i])
  {
    FixFromAddsOnlyFences(Bodies(SplitPieces(text, maxLen)), Outside);
    FixCodeBlockContinuity(Bodies(SplitPieces(text, maxLen)))
  }

  /** A text that fits yields one chunk: the text itself, with a closing
      fence appended exactly when it holds an odd number of fences. */
  lemma ShortTextOneChunk(text: string, maxLen: nat)
    requires 1 <= |text| <= maxLen
    ensures ChunkResponse(text, maxLen)
            == [if FenceCount(text) % 2 == 1 then text + CloseFence else text]
  {
    assert SplitPieces(text, maxLen) == [Piece(text, "")];
    assert Bodies([Piece(text, "")]) == [text];
  }

  // ---------------------------------------------------------------------
  // Truncation and footer
  // ---------------------------------------------------------------------

  /** `text.slice(0, end)`, where a negative end counts from the back. */
  function SliceTo(text: string, end: int): string {
    var e := if end < 0 then (if |text| + end < 0 then 0 else |text| + end)
             else if end > |text| then |text| else end;
    text[..e]
  }

  /** `truncate`: text that fits is returned as is; longer text keeps its
      first `maxLen - 3` characters followed by "...". */
  function Truncate(text: string, maxLen: int): (r: string)
    ensures |text| <= maxLen ==> r == text
    ensures 3 <= maxLen < |text| ==> |r| == maxLen && r == text[..maxLen - 3] + "..."
    ensures 3 <= maxLen ==> |r| <= maxLen && IsPrefix(r[..|r| - (if r == text then 0 else 3)], text)
  {
    if |text| <= maxLen then text else SliceTo(text, maxLen - 3) + "..."
  }

  lemma TruncateIdempotent(text: string, maxLen: int)
    requires maxLen >= 3
    ensures Truncate(Truncate(text, maxLen), maxLen) == Truncate(text, maxLen)
  {
  }

  /** `formatTokens`: thousands are rounded half up and marked with "k". */
  function FormatTokens(tokens: nat): (r: string)
    ensures |r| > 0 && (r[|r| - 1] == 'k' <==> tokens >= 1000)
    ensures tokens < 1000 ==> AllDigits(r) && DecimalValue(r) == tokens
    ensures tokens >= 1000 ==>
              && AllDigits(r[..|r| - 1])
              && (var k := DecimalValue(r[..|r| - 1]);
                  k * 1000 - 500 <= tokens < k * 1000 + 500)
    ensures r[0] == '0' ==> r == "0"
  {
    if tokens >= 1000 then
      var k := (tokens + 500) / 1000;
      DecimalRoundTrip(k);
      assert (NatToString(k) + "k")[..|NatToString(k)|] == NatToString(k);
      NatToString(k) + "k"
    else
      DecimalRoundTrip(tokens);
      NatToString(tokens)
  }

  const Separator: string := " \U{B7} "

  function CostText(render: Render, cost: real): string {
    if cost < 0.01 then "<$0.01" else "$" + render.fixed(cost, 3)
  }

  /** The turn count with the plural marker on every count but one. */
  function TurnsText(numTurns: nat): (r: string)
    ensures IsSuffix("turns", r) <==> numTurns != 1
    ensures IsSuffix("turn", r) <==> numTurns == 1
    ensures |r| > 0 && (r[|r| - 1] == 'n' || r[|r| - 1] == 's')
  {
    var digits := NatToString(numTurns);
    TurnSuffixes(digits);
    if numTurns != 1 then digits + " turns" else "1 turn"
  }

  lemma TurnSuffixes(digits: string)
    ensures var r := digits + " turns";
            IsSuffix("turns", r) && !IsSuffix("turn", r) && r[|r| - 1] == 's'
    ensures !IsSuffix("turns", "1 turn") && IsSuffix("turn", "1 turn")
  {
    var r := digits + " turns";
    assert r[|r| - 5..] == "turns";
    assert r[|r| - 4..] == "urns";
    assert "1 turn"[1..] == " turn";
    assert "1 turn"[2..] == "turn";
  }

  function CostParts(render: Render, cost: real, durationMs: nat, numTurns: nat,
                     inputTokens: nat, contextWindow: nat): seq<string>
  {
    var base := [CostText(render, cost), render.fixed(durationMs as real / 1000.0, 1) + "s",
                 TurnsText(numTurns)];
    if inputTokens != 0 && contextWindow != 0 then
      base + [FormatTokens(inputTokens) + "/" + FormatTokens(contextWindow) + " context"]
    else base
  }

  /** `formatCost`: a small-text line of the parts joined by " · "; the
      context part is last and present exactly when both token figures are
      non-zero, otherwise the turn count ends the line. */
  function FormatCost(render: Render, cost: real, durationMs: nat, numTurns: nat,
                      inputTokens: nat, contextWindow: nat): (r: string)
    ensures IsPrefix("-# " + CostText(render, cost) + Separator, r)
    ensures IsSuffix(" context", r) <==> (inputTokens != 0 && contextWindow != 0)
    ensures !(inputTokens != 0 && contextWindow != 0) ==> IsSuffix(TurnsText(numTurns), r)
  {
    var parts := CostParts(render, cost, durationMs, numTurns, inputTokens, contextWindow);
    FooterShape(render, cost, parts, inputTokens != 0 && contextWindow != 0, numTurns);
    "-# " + Join(parts, Separator)
  }

  lemma FooterShape(render: Render, cost: real, parts: seq<string>, withContext: bool, numTurns: nat)
    requires 3 <= |parts| <= 4 && parts[0] == CostText(render, cost)
    requires parts[2] == TurnsText(numTurns)
    requires |parts| == 4 <==> withContext
    requires withContext ==> IsSuffix(" context", parts[3])
    ensures var r := "-# " + Join(parts, Separator);
            && IsPrefix("-# " + CostText(render, cost) + Separator, r)
            && (IsSuffix(" context", r) <==> withContext)
            && (!withContext ==> IsSuffix(TurnsText(numTurns), r))
  {
    var c := CostText(render, cost);
    var last := parts[|parts| - 1];
    var r := "-# " + Join(parts, Separator);
    // The cost comes first ...
    var rest := Join(parts[1..], Separator);
    assert Join(parts, Separator) == c + Separator + rest;
    AppendAssoc("-# ", c + Separator, rest);
    AppendAssoc("-# ", c, Separator);
    PrefixOfAppend("-# " + c + Separator, rest);
    // ... and the last part ends the line.
    JoinLast(parts, Separator);
    var front := Join(parts[..|parts| - 1], Separator) + Separator;
    AppendAssoc("-# ", front, last);
    SuffixOfAppend("-# " + front, last);
    assert IsSuffix(last, r);
    if withContext {
      SuffixTransitive(" context", last, r);
    } else {
      var t := TurnsText(numTurns);
      assert |parts| == 3;
      assert t[|t| - 1] != 't';
      SuffixLastChar(t, r);
      assert (" context")[7] == 't';
      NotSuffixByLastChar(" context", r);
    }
  }
}

=== FILE: orchestrator.dfy ===
/**
  The per-channel rules of src/discord.ts: the overrides applied to a
  query, the session-error test, prompt assembly, the message queue, the
  stream display throttle and the delivery of a finished answer.

  Discord, the SDK and the clock are outside the model. The gateway is a
  state machine over three events taken one at a time: a message arrives,
  a query reports that it has been created, a query finishes. What the
  asynchronous code interleaves is an ordering of these events.
 */
module Orchestrator {
  import opened Basics
  import Formatter
  import Projects
  import Sessions
  import Commands
  import Claude

  const EditThrottleMs: int := 1000
  const StreamDisplayMax: nat := 1900
  const FooterGap: string := "\n\n"
  const AnalyzeUploads: string := "Analyze the uploaded file(s)."
  const SessionExpired: string := "Session expired or corrupted. " + "Starting fresh \U{2014} please resend your message."

  // ---------------------------------------------------------------------
  // Overrides
  // ---------------------------------------------------------------------

  /** `applyOverrides`: a channel's override replaces the project's model
      or permission mode only when it is a non-empty string. */
  function ApplyOverrides(o: Commands.Overrides, p: Projects.ProjectConfig): (r: Projects.ProjectConfig)
    ensures r.(model := p.model, permissionMode := p.permissionMode) == p
    ensures Truthy(Commands.GetModelOverride(o, p.channelId)) ==> r.model == Commands.GetModelOverride(o, p.channelId)
    ensures !Truthy(Commands.GetModelOverride(o, p.channelId)) ==> r.model == p.model
    ensures Truthy(Commands.GetPermissionModeOverride(o, p.channelId)) ==>
              r.permissionMode == Commands.GetPermissionModeOverride(o, p.channelId).value
    ensures !Truthy(Commands.GetPermissionModeOverride(o, p.channelId)) ==> r.permissionMode == p.permissionMode
  {
    var m := Commands.GetModelOverride(o, p.channelId);
    var pm := Commands.GetPermissionModeOverride(o, p.channelId);
    p.(model := if Truthy(m) then m else p.model,
       permissionMode := if Truthy(pm) then pm.value else p.permissionMode)
  }

  /** Applying the overrides twice is applying them once. */
  lemma ApplyOverridesIdempotent(o: Commands.Overrides, p: Projects.ProjectConfig)
    ensures ApplyOverrides(o, ApplyOverrides(o, p)) == ApplyOverrides(o, p)
  {
  }

  /** What `/status` shows is what the query's options carry, unless an
      override is the empty string (status shows it, the query keeps the
      project's setting) or the project's own model is the empty string
      with no override (status shows it, the options leave the model out
      and the agent's default applies). */
  lemma StatusAgreesWithQuery(o: Commands.Overrides, p: Projects.ProjectConfig, sessionId: Option<string>)
    requires Commands.GetModelOverride(o, p.channelId) != Some("")
    requires Commands.GetPermissionModeOverride(o, p.channelId) != Some("")
    ensures var options := Claude.BuildOptions(ApplyOverrides(o, p), sessionId);
            Commands.ShownPermissionMode(o, p, p.channelId) == options.permissionMode
    ensures var options := Claude.BuildOptions(ApplyOverrides(o, p), sessionId);
            p.model != Some("") || Commands.GetModelOverride(o, p.channelId).Some? ==>
              Commands.ShownModel(o, p, p.channelId) == options.model.GetOr("default")
    ensures var options := Claude.BuildOptions(ApplyOverrides(o, p), sessionId);
            p.model == Some("") && Commands.GetModelOverride(o, p.channelId).None? ==>
              Commands.ShownModel(o, p, p.channelId) == "" && options.model == None
  {
  }

  // ---------------------------------------------------------------------
  // Session errors
  // ---------------------------------------------------------------------

  /** `isSessionError`: the lower-cased message names a session problem. */
  predicate IsSessionError(message: string) {
    var m := Lower(message);
    Contains(m, "session") || Contains(m, "resume") || Contains(m, "not found")
    || Contains(m, "expired") || Contains(m, "exited with code")
  }

  lemma LowerAppend(a: string, b: string)
    ensures Lower(a + b) == Lower(a) + Lower(b)
  {
    assert forall i :: 0 <= i < |a + b| ==> Lower(a + b)[i] == (Lower(a) + Lower(b))[i];
  }

  /** The test ignores case. */
  lemma SessionErrorIgnoresCase(message: string)
    ensures IsSessionError(Lower(message)) == IsSessionError(message)
  {
    assert Lower(Lower(message)) == Lower(message);
  }

  /** A session problem named anywhere in a message is found whatever
      surrounds it. */
  lemma SessionErrorInContext(a: string, message: string, b: string)
    requires IsSessionError(message)
    ensures IsSessionError(a + message + b)
  {
    var m := Lower(message);
    LowerAppend(a, message);
    LowerAppend(a + message, b);
    assert Lower(a + message + b) == Lower(a) + m + Lower(b);
    if Contains(m, "session") {
      ContainsInContext(Lower(a), m, Lower(b), "session");
    } else if Contains(m, "resume") {
      ContainsInContext(Lower(a), m, Lower(b), "resume");
    } else if Contains(m, "not found") {
      ContainsInContext(Lower(a), m, Lower(b), "not found");
    } else if Contains(m, "expired") {
      ContainsInContext(Lower(a), m, Lower(b), "expired");
    } else {
      ContainsInContext(Lower(a), m, Lower(b), "exited with code");
    }
  }

  /** One session error among a result's errors makes their joined text a
      session error. */
  lemma {:induction false} SessionErrorInJoin(errors: seq<string>, i: nat, sep: string)
    requires i < |errors| && IsSessionError(errors[i])
    ensures IsSessionError(Join(errors, sep))
    decreases |errors|
  {
    if |errors| == 1 {
      assert Join(errors, sep) == errors[0];
    } else if i == 0 {
      SessionErrorInContext("", errors[0], sep + Join(errors[1..], sep));
      assert "" + errors[0] + (sep + Join(errors[1..], sep)) == Join(errors, sep);
    } else {
      SessionErrorInJoin(errors[1..], i - 1, sep);
      SessionErrorInContext(errors[0] + sep, Join(errors[1..], sep), "");
      assert errors[0] + sep + Join(errors[1..], sep) + "" == Join(errors, sep);
    }
  }

  // ---------------------------------------------------------------------
  // Prompt assembly
  // ---------------------------------------------------------------------

  /** The prompt for a message that is dispatched at once: the upload list
      in front of the text, and a fixed request when nothing but
      whitespace is left. */
  function BuildPrompt(content: string, paths: seq<string>): (r: string)
    ensures !IsBlank(r)
    ensures !IsBlank(Claude.WithUploads(paths, content)) ==> r == Claude.WithUploads(paths, content)
    ensures IsBlank(Claude.WithUploads(paths, content)) ==> r == AnalyzeUploads
  {
    var prompt := Claude.WithUploads(paths, content);
    assert AnalyzeUploads[0] == 'A';
    if IsBlank(prompt) then AnalyzeUploads else prompt
  }

  /** With files attached the upload list is always kept: it starts with
      a bracket, so the prompt is never blank. */
  lemma UploadsAreKept(content: string, paths: seq<string>)
    requires |paths| > 0
    ensures BuildPrompt(content, paths) == Claude.WithUploads(paths, content)
  {
    var w := Claude.WithUploads(paths, content);
    assert w[..22] == "[User uploaded files:\n";
    assert w[0] == '[';
  }

  // ---------------------------------------------------------------------
  // Settling a finished query
  // ---------------------------------------------------------------------

  /** A query in flight: the project with overrides applied, the prompt,
      and the session it resumes. */
  datatype Query = Query(project: Projects.ProjectConfig, prompt: string, sessionId: Option<string>)

  /** The messages that deliver an answer: the first edits the
      placeholder, the rest are sent after it, and the cost footer goes on
      the last one only. */
  function DeliveryPlan(chunks: seq<string>, footer: string): (plan: seq<string>)
    requires |chunks| > 0
    ensures |plan| == |chunks|
    ensures forall i :: 0 <= i < |chunks| - 1 ==> plan[i] == chunks[i]
    ensures plan[|chunks| - 1] == chunks[|chunks| - 1] + FooterGap + footer
  {
    var n := |chunks|;
    var first := if n == 1 then chunks[0] + FooterGap + footer else chunks[0];
    [first] + seq(n - 1, j requires 0 <= j < n - 1 =>
                    if j + 1 == n - 1 then chunks[j + 1] + FooterGap + footer else chunks[j + 1])
  }

  lemma {:induction false} ConcatAppend(a: seq<string>, b: seq<string>)
    ensures Claude.Concat(a + b) == Claude.Concat(a) + Claude.Concat(b)
    decreases |a|
  {
    if |a| == 0 {
      assert a + b == b;
    } else {
      assert (a + b)[1..] == a[1..] + b;
      ConcatAppend(a[1..], b);
    }
  }

  /** Delivery loses nothing and adds only the footer: the messages read
      in order are the chunks followed by the gap and the footer. */
  lemma DeliveryLossless(chunks: seq<string>, footer: string)
    requires |chunks| > 0
    ensures Claude.Concat(DeliveryPlan(chunks, footer)) == Claude.Concat(chunks) + FooterGap + footer
  {
    PlanShape(chunks, footer);
    FooterOnLast(chunks, footer);
  }

  lemma FooterOnLast(chunks: seq<string>, footer: string)
    requires |chunks| > 0
    ensures var n := |chunks|;
            Claude.Concat(chunks[..n - 1] + [chunks[n - 1] + FooterGap + footer])
            == Claude.Concat(chunks) + FooterGap + footer
  {
    SplitLast(chunks);
    FooterAfter(chunks[..|chunks| - 1], chunks[|chunks| - 1], footer);
  }

  lemma SplitLast(chunks: seq<string>)
    requires |chunks| > 0
    ensures chunks == chunks[..|chunks| - 1] + [chunks[|chunks| - 1]]
  {
  }

  lemma FooterAfter(init: seq<string>, x: string, footer: string)
    ensures Claude.Concat(init + [x + FooterGap + footer]) == Claude.Concat(init + [x]) + FooterGap + footer
  {
    ConcatLast(init, x + FooterGap + footer);
    ConcatLast(init, x);
    calc {
      Claude.Concat(init + [x + FooterGap + footer]);
      Claude.Concat(init) + ((x + FooterGap) + footer);
      { AppendAssoc(Claude.Concat(init), x + FooterGap, footer); }
      (Claude.Concat(init) + (x + FooterGap)) + footer;
      { AppendAssoc(Claude.Concat(init), x, FooterGap); }
      ((Claude.Concat(init) + x) + FooterGap) + footer;
      (Claude.Concat(init + [x]) + FooterGap) + footer;
    }
  }

  lemma PlanShape(chunks: seq<string>, footer: string)
    requires |chunks| > 0
    ensures DeliveryPlan(chunks, footer) == chunks[..|chunks| - 1] + [chunks[|chunks| - 1] + FooterGap + footer]
  {
    var n := |chunks|;
    var plan := DeliveryPlan(chunks, footer);
    var want := chunks[..n - 1] + [chunks[n - 1] + FooterGap + footer];
    assert |plan| == |want|;
    forall i | 0 <= i < n ensures plan[i] == want[i] {
      if i < n - 1 {
        assert plan[i] == chunks[i];
      }
    }
  }

  lemma ConcatLast(a: seq<string>, x: string)
    ensures Claude.Concat(a + [x]) == Claude.Concat(a) + x
  {
    ConcatAppend(a, [x]);
    assert Claude.Concat([x]) == x + Claude.Concat([]);
  }

  /** The store, cost records and posted messages after a query returned:
      the new session id is written first, then an error result either
      clears it (a resumed session that failed with a session error) or
      is reported; a good result is chunked and delivered. */
  function Settle(ctx: Commands.Ctx, channelId: string, q: Query, result: Claude.QueryResult,
                  now: nat, render: Render): (r: (Commands.Ctx, seq<string>))
    requires result.text != ""
    ensures var failed := result.isError && result.errors.Some? && |result.errors.value| > 0;
            var cleared := failed && Truthy(q.sessionId) && IsSessionError(Join(result.errors.value, "\n"));
            && Sessions.Get(r.0.sessions, channelId) == (if cleared then None else Some(result.sessionId))
            && r.0.sessions.sessions - {channelId} == ctx.sessions.sessions - {channelId}
            && r.0.sessions.saved == ctx.sessions.saved
            && r.0.lastCosts == ctx.lastCosts[channelId := Commands.CostRecord(result.cost, result.durationMs, result.numTurns)]
            && r.0 == ctx.(sessions := r.0.sessions, lastCosts := r.0.lastCosts)
            && (cleared ==> r.1 == [SessionExpired])
            && (failed && !cleared ==> r.1 == ["Error: " + Join(result.errors.value, "\n")])
            && (!failed ==> var chunks := Formatter.ChunkResponse(result.text, Formatter.MAX_MESSAGE_LENGTH);
                            var footer := Formatter.FormatCost(render, result.cost, result.durationMs, result.numTurns,
                                                               result.contextUsed, result.contextWindow);
                            && |chunks| > 0
                            && r.1 == DeliveryPlan(chunks, footer)
                            && Claude.Concat(r.1) == Claude.Concat(chunks) + FooterGap + footer)
  {
    var store := Sessions.Set(ctx.sessions, channelId, result.sessionId, q.project.name, now);
    var costs := ctx.lastCosts[channelId := Commands.CostRecord(result.cost, result.durationMs, result.numTurns)];
    var ctx1 := ctx.(sessions := store, lastCosts := costs);
    if result.isError && result.errors.Some? && |result.errors.value| > 0 then
      var errorText := Join(result.errors.value, "\n");
      if Truthy(q.sessionId) && IsSessionError(errorText) then
        (ctx1.(sessions := Sessions.Clear(store, channelId)), [SessionExpired])
      else (ctx1, ["Error: " + errorText])
    else
      var chunks := Formatter.ChunkResponse(result.text, Formatter.MAX_MESSAGE_LENGTH);
      var footer := Formatter.FormatCost(render, result.cost, result.durationMs, result.numTurns,
                                         result.contextUsed, result.contextWindow);
      DeliveryLossless(chunks, footer);
      (ctx1, DeliveryPlan(chunks, footer))
  }

  /** The session is written before the error check: a query that started
      a new session keeps the id it was given even when it fails. */
  lemma NewSessionSurvivesError(ctx: Commands.Ctx, channelId: string, q: Query,
                                result: Claude.QueryResult, now: nat, render: Render)
    requires result.text != "" && !Truthy(q.sessionId)
    ensures Sessions.Get(Settle(ctx, channelId, q, result, now, render).0.sessions, channelId) == Some(result.sessionId)
  {
  }

  /** The store and posted message after the query threw. */
  function Fail(ctx: Commands.Ctx, channelId: string, q: Query, message: string): (r: (Commands.Ctx, seq<string>))
    ensures var cleared := Truthy(q.sessionId) && IsSessionError(message);
            && r.0 == (if cleared then ctx.(sessions := Sessions.Clear(ctx.sessions, channelId)) else ctx)
            && r.1 == [if cleared then SessionExpired else "Error: " + message]
  {
    if Truthy(q.sessionId) && IsSessionError(message) then
      (ctx.(sessions := Sessions.Clear(ctx.sessions, channelId)), [SessionExpired])
    else (ctx, ["Error: " + message])
  }

  // ---------------------------------------------------------------------
  // The gateway
  // ---------------------------------------------------------------------

  datatype Message = Message(channelId: string, content: string, attachments: nat, fromBot: bool)

  /** The command context plus the waiting messages and the queries in
      flight, per channel. A channel's entries are removed when they
      become empty. */
  datatype Gateway = Gateway(
    ctx: Commands.Ctx,
    queues: map<string, seq<Message>>,
    running: map<string, seq<Query>>)

  /** How a query ended: the placeholder could not be posted (the early
      return before the `try`), the SDK produced these events, it threw,
      or it produced these events but posting the reply threw after
      `sent` of its parts went out. */
  datatype Ending =
    | NoPlaceholder
    | Returned(events: seq<Claude.Event>, hasActivity: bool)
    | Threw(message: string)
    | Undelivered(events: seq<Claude.Event>, hasActivity: bool, sent: nat, message: string)

  datatype Event =
    | Arrive(msg: Message, paths: seq<string>)
    | Created(channelId: string)
    | Finish(channelId: string, index: nat, ending: Ending)

  /** A step's result: the new gateway, the query it started, and the
      texts it posted for the finishing query. */
  datatype Effect = Effect(g: Gateway, dispatched: Option<Query>, posted: seq<string>)

  function QueueOf(g: Gateway, channelId: string): seq<Message> {
    if channelId in g.queues then g.queues[channelId] else []
  }

  function RunningIn(g: Gateway, channelId: string): seq<Query> {
    if channelId in g.running then g.running[channelId] else []
  }

  /** Events that can occur: only a query in flight reports creation or
      finishes. `Created` is over-approximated: it may fire for a channel
      whose query has not posted its placeholder, or more than once for
      the same query; the code reports creation once per query, after its
      placeholder. */
  predicate Possible(g: Gateway, ev: Event) {
    match ev
    case Arrive(_, _) => true
    case Created(c) => c in g.running && |g.running[c]| > 0
    case Finish(c, i, _) => c in g.running && i < |g.running[c]|
  }

  /** `processQuery` begins: the query runs with the overrides in force
      and the channel's current session. */
  function StartQuery(g: Gateway, channelId: string, project: Projects.ProjectConfig, prompt: string): (e: Effect)
    ensures e.dispatched == Some(Query(ApplyOverrides(g.ctx.overrides, project), prompt, Sessions.Get(g.ctx.sessions, channelId)))
    ensures RunningIn(e.g, channelId) == RunningIn(g, channelId) + [e.dispatched.value]
    ensures forall c :: c != channelId ==> RunningIn(e.g, c) == RunningIn(g, c)
    ensures e.g.ctx == g.ctx && e.g.queues == g.queues && e.posted == []
  {
    var q := Query(ApplyOverrides(g.ctx.overrides, project), prompt, Sessions.Get(g.ctx.sessions, channelId));
    Effect(g.(running := g.running[channelId := RunningIn(g, channelId) + [q]]), Some(q), [])
  }

  /** Whether `messageCreate` ignores a message. */
  predicate Ignored(g: Gateway, msg: Message) {
    msg.fromBot || (msg.content == "" && msg.attachments == 0)
    || Projects.GetByChannelId(g.ctx.registry, msg.channelId).None?
  }

  /** `messageCreate`: ignored messages change nothing; while the channel
      has a running-query handle the message joins the tail of its queue;
      otherwise it is dispatched at once. */
  function ArriveStep(g: Gateway, msg: Message, paths: seq<string>): (e: Effect)
    ensures e.g.ctx == g.ctx && e.posted == []
    ensures Ignored(g, msg) ==> e == Effect(g, None, [])
    ensures !Ignored(g, msg) && msg.channelId in g.ctx.active ==>
              && e.dispatched == None && e.g.running == g.running
              && QueueOf(e.g, msg.channelId) == QueueOf(g, msg.channelId) + [msg]
              && (forall c :: c != msg.channelId ==> QueueOf(e.g, c) == QueueOf(g, c))
    ensures !Ignored(g, msg) && msg.channelId !in g.ctx.active ==>
              && e.g.queues == g.queues
              && e.dispatched.Some? && e.dispatched.value.prompt == BuildPrompt(msg.content, paths)
              && RunningIn(e.g, msg.channelId) == RunningIn(g, msg.channelId) + [e.dispatched.value]
  {
    var c := msg.channelId;
    if Ignored(g, msg) then Effect(g, None, [])
    else if c in g.ctx.active then
      Effect(g.(queues := g.queues[c := QueueOf(g, c) + [msg]]), None, [])
    else
      StartQuery(g, c, Projects.GetByChannelId(g.ctx.registry, c).value, BuildPrompt(msg.content, paths))
  }

  /** `onQueryCreated`: the channel gets its running-query handle. */
  function CreatedStep(g: Gateway, channelId: string): (r: Gateway)
    ensures channelId in r.ctx.active
    ensures r == g.(ctx := g.ctx.(active := r.ctx.active))
    ensures r.ctx.active - {channelId} == g.ctx.active - {channelId}
  {
    g.(ctx := g.ctx.(active := g.ctx.active + {channelId}))
  }

  /** Takes query `i` of a channel out of flight. */
  function Retire(g: Gateway, channelId: string, i: nat): (r: (Gateway, Query))
    requires channelId in g.running && i < |g.running[channelId]|
    ensures r.1 == g.running[channelId][i]
    ensures RunningIn(r.0, channelId) == g.running[channelId][..i] + g.running[channelId][i + 1..]
    ensures forall c :: c != channelId ==> RunningIn(r.0, c) == RunningIn(g, c)
    ensures channelId in r.0.running ==> |r.0.running[channelId]| > 0
    ensures r.0 == g.(running := r.0.running)
  {
    var qs := g.running[channelId];
    var rest := qs[..i] + qs[i + 1..];
    (g.(running := if rest == [] then g.running - {channelId} else g.running[channelId := rest]), qs[i])
  }

  /** The `finally` block: the handle is dropped and the head of the queue
      is taken; it is dispatched with its raw text as the prompt if the
      channel still has a project and the text is non-empty, and dropped
      otherwise. */
  function FinallyStep(g: Gateway, channelId: string): (e: Effect)
    ensures channelId !in e.g.ctx.active && e.g.ctx == g.ctx.(active := g.ctx.active - {channelId})
    ensures e.posted == []
    ensures forall c :: c != channelId ==> QueueOf(e.g, c) == QueueOf(g, c) && RunningIn(e.g, c) == RunningIn(g, c)
    ensures QueueOf(g, channelId) == [] ==> e.dispatched == None && e.g.queues == g.queues && e.g.running == g.running
    ensures QueueOf(g, channelId) != [] ==>
              var next := QueueOf(g, channelId)[0];
              && QueueOf(e.g, channelId) == QueueOf(g, channelId)[1..]
              && (channelId in e.g.queues ==> |e.g.queues[channelId]| > 0)
              && (e.dispatched.Some? <==> Projects.GetByChannelId(g.ctx.registry, channelId).Some? && next.content != "")
              && (e.dispatched.Some? ==> e.dispatched.value.prompt == next.content
                                         && RunningIn(e.g, channelId) == RunningIn(g, channelId) + [e.dispatched.value])
              && (e.dispatched.None? ==> e.g.running == g.running)
  {
    var g1 := g.(ctx := g.ctx.(active := g.ctx.active - {channelId}));
    var queue := QueueOf(g1, channelId);
    if queue == [] then Effect(g1, None, [])
    else
      var next := queue[0];
      var rest := queue[1..];
      var g2 := g1.(queues := if rest == [] then g1.queues - {channelId} else g1.queues[channelId := rest]);
      var project := Projects.GetByChannelId(g2.ctx.registry, channelId);
      if project.Some? && next.content != "" then StartQuery(g2, channelId, project.value, next.content)
      else Effect(g2, None, [])
  }

  /** A query that returned, but one of the edits or sends of its reply
      failed after `sent` of them went out: the result has already been
      settled when the `catch` block handles the failure, and what was
      posted is a prefix of the settled reply followed by the failure
      reply. */
  function Undeliver(ctx: Commands.Ctx, channelId: string, q: Query, result: Claude.QueryResult, sent: nat,
                     message: string, now: nat, render: Render): (r: (Commands.Ctx, seq<string>))
    requires result.text != ""
    ensures var settled := Settle(ctx, channelId, q, result, now, render);
            var failed := Fail(settled.0, channelId, q, message);
            && r.0 == failed.0
            && (exists k :: 0 <= k < |settled.1| && r.1 == settled.1[..k] + failed.1)
            && |r.1| > 0 && r.1[|r.1| - 1] == failed.1[0]
  {
    var settled := Settle(ctx, channelId, q, result, now, render);
    var k := if sent < |settled.1| then sent else |settled.1| - 1;
    var failed := Fail(settled.0, channelId, q, message);
    (failed.0, settled.1[..k] + failed.1)
  }

  /** A reply that cannot be delivered can cost a resumed channel its
      session: the session the query just returned is written, and then
      the failure's message, if it reads like a session error, clears it. */
  lemma UndeliveredDropsSession(ctx: Commands.Ctx, channelId: string, q: Query, result: Claude.QueryResult,
                                sent: nat, message: string, now: nat, render: Render)
    requires result.text != "" && Truthy(q.sessionId) && IsSessionError(message)
    ensures var r := Undeliver(ctx, channelId, q, result, sent, message, now, render);
            && (!(result.isError && result.errors.Some? && |result.errors.value| > 0) ==>
                  Sessions.Get(Settle(ctx, channelId, q, result, now, render).0.sessions, channelId) == Some(result.sessionId))
            && Sessions.Get(r.0.sessions, channelId) == None
            && r.0.lastCosts[channelId] == Commands.CostRecord(result.cost, result.durationMs, result.numTurns)
            && |r.1| > 0 && r.1[|r.1| - 1] == SessionExpired
  {
    var settled := Settle(ctx, channelId, q, result, now, render);
    assert settled.0.lastCosts[channelId] == Commands.CostRecord(result.cost, result.durationMs, result.numTurns);
    var failed := Fail(settled.0, channelId, q, message);
    assert failed.0 == settled.0.(sessions := Sessions.Clear(settled.0.sessions, channelId));
  }

  /** What the `try`/`catch` part of `processQuery` leaves behind: the
      context and the texts posted. Only the session store and the cost
      records can change. */
  function AfterQuery(ctx: Commands.Ctx, channelId: string, q: Query, ending: Ending,
                      now: nat, render: Render): (r: (Commands.Ctx, seq<string>))
    ensures r.0 == ctx.(sessions := r.0.sessions, lastCosts := r.0.lastCosts)
    ensures ending.NoPlaceholder? ==> r == (ctx, [])
    ensures !ending.NoPlaceholder? ==> |r.1| > 0
    ensures ending.Returned? ==>
              r == Settle(ctx, channelId, q, Claude.RunQuery(q.prompt, q.project, q.sessionId, [], ending.events, ending.hasActivity).result,
                          now, render)
    ensures ending.Threw? ==> r == Fail(ctx, channelId, q, ending.message)
    ensures ending.Undelivered? ==>
              r == Undeliver(ctx, channelId, q, Claude.RunQuery(q.prompt, q.project, q.sessionId, [], ending.events,
                                                                ending.hasActivity).result, ending.sent, ending.message, now, render)
  {
    match ending
    case NoPlaceholder => (ctx, [])
    case Returned(events, hasActivity) =>
      Settle(ctx, channelId, q, Claude.RunQuery(q.prompt, q.project, q.sessionId, [], events, hasActivity).result, now, render)
    case Threw(message) => Fail(ctx, channelId, q, message)
    case Undelivered(events, hasActivity, sent, message) =>
      Undeliver(ctx, channelId, q, Claude.RunQuery(q.prompt, q.project, q.sessionId, [], events, hasActivity).result,
                sent, message, now, render)
  }

  /** `processQuery` from the end of the query on. An early return before
      the `try` skips the `finally` block altogether. */
  function FinishStep(g: Gateway, channelId: string, i: nat, ending: Ending, now: nat, render: Render): (e: Effect)
    requires channelId in g.running && i < |g.running[channelId]|
    ensures ending.NoPlaceholder? ==> e == Effect(Retire(g, channelId, i).0, None, [])
    ensures !ending.NoPlaceholder? ==>
              var (g1, q) := Retire(g, channelId, i);
              && var ctx1 := AfterQuery(g1.ctx, channelId, q, ending, now, render).0;
              && e.posted == AfterQuery(g1.ctx, channelId, q, ending, now, render).1
              && |e.posted| > 0
              && e.g.ctx == ctx1.(active := ctx1.active - {channelId})
              && e.dispatched == FinallyStep(g1.(ctx := ctx1), channelId).dispatched
              && (e.dispatched.Some? ==> e.dispatched.value.prompt == QueueOf(g, channelId)[0].content)
              && channelId !in e.g.ctx.active
              && QueueOf(e.g, channelId) == (if QueueOf(g, channelId) == [] then [] else QueueOf(g, channelId)[1..])
  {
    var (g1, q) := Retire(g, channelId, i);
    if ending.NoPlaceholder? then Effect(g1, None, [])
    else
      var (ctx1, posted) := AfterQuery(g1.ctx, channelId, q, ending, now, render);
      var f := FinallyStep(g1.(ctx := ctx1), channelId);
      Effect(f.g, f.dispatched, posted)
  }

  /** A query that returns leaves its figures in the cost records and,
      unless it failed, its session as the channel's current one, for the
      next message to resume. */
  lemma FinishRecordsSession(g: Gateway, channelId: string, i: nat, events: seq<Claude.Event>, hasActivity: bool,
                             now: nat, render: Render)
    requires channelId in g.running && i < |g.running[channelId]|
    ensures var q := g.running[channelId][i];
            var result := Claude.RunQuery(q.prompt, q.project, q.sessionId, [], events, hasActivity).result;
            var e := FinishStep(g, channelId, i, Returned(events, hasActivity), now, render);
            && e.g.ctx.lastCosts == g.ctx.lastCosts[channelId := Commands.CostRecord(result.cost, result.durationMs, result.numTurns)]
            && (!(result.isError && result.errors.Some? && |result.errors.value| > 0) ==>
                  Sessions.Get(e.g.ctx.sessions, channelId) == Some(result.sessionId))
  {
  }

  /** One event of the gateway as written. */
  function Step(g: Gateway, ev: Event, now: nat, render: Render): (e: Effect)
    requires Possible(g, ev)
  {
    match ev
    case Arrive(msg, paths) => ArriveStep(g, msg, paths)
    case Created(c) => Effect(CreatedStep(g, c), None, [])
    case Finish(c, i, ending) => FinishStep(g, c, i, ending, now, render)
  }

  /** The channel an event belongs to. */
  function ChannelOf(ev: Event): string {
    match ev
    case Arrive(msg, _) => msg.channelId
    case Created(c) => c
    case Finish(c, _, _) => c
  }

  /** Channels are independent: an event for one channel leaves every
      other channel's queue, queries in flight and handle as they were,
      and never changes the registry or the overrides. */
  lemma StepLeavesOthers(g: Gateway, ev: Event, now: nat, render: Render, c: string)
    requires Possible(g, ev) && c != ChannelOf(ev)
    ensures var e := Step(g, ev, now, render);
            && QueueOf(e.g, c) == QueueOf(g, c) && RunningIn(e.g, c) == RunningIn(g, c)
            && (c in e.g.ctx.active <==> c in g.ctx.active)
            && e.g.ctx.registry == g.ctx.registry && e.g.ctx.overrides == g.ctx.overrides
  {
  }

  // ---------------------------------------------------------------------
  // Queue order
  // ---------------------------------------------------------------------

  function ArriveAll(g: Gateway, msgs: seq<Message>): Gateway
    decreases |msgs|
  {
    if |msgs| == 0 then g else ArriveAll(ArriveStep(g, msgs[0], []).g, msgs[1..])
  }

  /** Messages that arrive while a query holds the channel wait in the
      order they arrived, behind those already waiting, and start
      nothing. */
  lemma {:induction false} QueuedInArrivalOrder(g: Gateway, channelId: string, msgs: seq<Message>)
    requires channelId in g.ctx.active
    requires Projects.GetByChannelId(g.ctx.registry, channelId).Some?
    requires forall k :: 0 <= k < |msgs| ==> msgs[k].channelId == channelId && !msgs[k].fromBot && msgs[k].content != ""
    ensures QueueOf(ArriveAll(g, msgs), channelId) == QueueOf(g, channelId) + msgs
    ensures ArriveAll(g, msgs).running == g.running
    ensures ArriveAll(g, msgs).ctx == g.ctx
    decreases |msgs|
  {
    if |msgs| == 0 {
      assert QueueOf(g, channelId) + msgs == QueueOf(g, channelId);
    } else {
      var g1 := ArriveStep(g, msgs[0], []).g;
      assert ArriveAll(g, msgs) == ArriveAll(g1, msgs[1..]);
      assert !Ignored(g, msgs[0]);
      assert QueueOf(g1, channelId) == QueueOf(g, channelId) + [msgs[0]];
      QueuedInArrivalOrder(g1, channelId, msgs[1..]);
      AppendAssoc(QueueOf(g, channelId), [msgs[0]], msgs[1..]);
      assert msgs == [msgs[0]] + msgs[1..];
    }
  }

  /** A finishing query hands the channel to the message at the head of
      its queue, and the others move up by one. */
  lemma FinishServesHead(g: Gateway, channelId: string, ending: Ending, now: nat, render: Render)
    requires channelId in g.running && |g.running[channelId]| == 1
    requires !ending.NoPlaceholder? && |QueueOf(g, channelId)| > 0
    requires Projects.GetByChannelId(g.ctx.registry, channelId).Some?
    requires QueueOf(g, channelId)[0].content != ""
    ensures var e := FinishStep(g, channelId, 0, ending, now, render);
            && e.dispatched.Some? && e.dispatched.value.prompt == QueueOf(g, channelId)[0].content
            && QueueOf(e.g, channelId) == QueueOf(g, channelId)[1..]
            && RunningIn(e.g, channelId) == [e.dispatched.value]
  {
    var (g1, q) := Retire(g, channelId, 0);
    assert RunningIn(g1, channelId) == [];
    var (ctx1, posted) := AfterQuery(g1.ctx, channelId, q, ending, now, render);
    assert QueueOf(g1.(ctx := ctx1), channelId) == QueueOf(g, channelId);
  }

  // ---------------------------------------------------------------------
  // Stream display
  // ---------------------------------------------------------------------

  /** A stream update: when it came and the text so far. */
  datatype Update = Update(time: int, text: string)

  /** What the placeholder shows for an update. */
  function Shown(u: Update): Update {
    Update(u.time, Formatter.Truncate(u.text, StreamDisplayMax))
  }

  /** Each edit comes at least the throttle interval after the one before
      it (the first after `lastEdit`). */
  predicate Spaced(edits: seq<Update>, lastEdit: int) {
    forall k :: 0 <= k < |edits| ==> edits[k].time - Previous(edits, k, lastEdit) >= EditThrottleMs
  }

  /** The time of the edit before edit `k`. */
  function Previous(edits: seq<Update>, k: nat, lastEdit: int): int
    requires k < |edits|
  {
    if k == 0 then lastEdit else edits[k - 1].time
  }

  /** The `onStreamText` callback over a run of updates: an update within
      the throttle interval of the last edit is dropped, not deferred. */
  function StreamEdits(updates: seq<Update>, lastEdit: int): (edits: seq<Update>)
    decreases |updates|
    ensures |edits| <= |updates|
    ensures Spaced(edits, lastEdit)
    ensures forall k :: 0 <= k < |edits| ==> |edits[k].text| <= StreamDisplayMax
    ensures forall e :: e in edits ==> exists u :: u in updates && e == Shown(u)
    ensures |updates| > 0 && updates[0].time - lastEdit >= EditThrottleMs ==>
              |edits| > 0 && edits[0] == Shown(updates[0])
  {
    if |updates| == 0 then []
    else
      var u := updates[0];
      if u.time - lastEdit < EditThrottleMs then
        var rest := StreamEdits(updates[1..], lastEdit);
        ShownFromTail(updates, rest);
        rest
      else
        var rest := StreamEdits(updates[1..], u.time);
        ShownFromTail(updates, rest);
        SpacedCons(Shown(u), rest, lastEdit);
        [Shown(u)] + rest
  }

  /** The time of the last edit so far, or `lastEdit` when none was made. */
  function LastEditTime(edits: seq<Update>, lastEdit: int): int {
    if |edits| == 0 then lastEdit else edits[|edits| - 1].time
  }

  /** The callback's view, one update at a time: a new update is shown
      exactly when it comes at least the throttle interval after the last
      edit made so far, and the edits before it stay as they were. */
  lemma {:induction false} StreamEditsExtend(updates: seq<Update>, u: Update, lastEdit: int)
    ensures var before := StreamEdits(updates, lastEdit);
            StreamEdits(updates + [u], lastEdit)
            == before + (if u.time - LastEditTime(before, lastEdit) >= EditThrottleMs then [Shown(u)] else [])
    decreases |updates|
  {
    if |updates| == 0 {
      assert updates + [u] == [u];
      assert [u][1..] == [];
    } else {
      var x := updates[0];
      var tail := updates[1..];
      assert (updates + [u])[0] == x;
      assert (updates + [u])[1..] == tail + [u];
      if x.time - lastEdit < EditThrottleMs {
        StreamEditsExtend(tail, u, lastEdit);
      } else {
        StreamEditsExtend(tail, u, x.time);
        var rest := StreamEdits(tail, x.time);
        assert LastEditTime([Shown(x)] + rest, lastEdit) == LastEditTime(rest, x.time);
        var extra := if u.time - LastEditTime(rest, x.time) >= EditThrottleMs then [Shown(u)] else [];
        AppendAssoc([Shown(x)], rest, extra);
      }
    }
  }

  lemma ShownFromTail(updates: seq<Update>, rest: seq<Update>)
    requires |updates| > 0
    requires forall e :: e in rest ==> exists v :: v in updates[1..] && e == Shown(v)
    ensures forall e :: e in rest ==> exists v :: v in updates && e == Shown(v)
  {
    forall e | e in rest ensures exists v :: v in updates && e == Shown(v) {
      var v :| v in updates[1..] && e == Shown(v);
      assert v in updates;
    }
  }

  lemma SpacedCons(x: Update, rest: seq<Update>, lastEdit: int)
    requires x.time - lastEdit >= EditThrottleMs && Spaced(rest, x.time)
    ensures Spaced([x] + rest, lastEdit)
  {
    var r := [x] + rest;
    forall k | 0 <= k < |r|
      ensures r[k].time - Previous(r, k, lastEdit) >= EditThrottleMs
    {
      if k > 0 {
        assert r[k] == rest[k - 1];
        assert rest[k - 1].time - Previous(rest, k - 1, x.time) >= EditThrottleMs;
      }
    }
  }

  /** Updates already spaced by the throttle interval are all shown. */
  lemma {:induction false} SpacedUpdatesAllShown(updates: seq<Update>, lastEdit: int)
    requires Spaced(updates, lastEdit)
    ensures StreamEdits(updates, lastEdit) == seq(|updates|, k requires 0 <= k < |updates| => Shown(updates[k]))
    decreases |updates|
  {
    if |updates| > 0 {
      var tail := updates[1..];
      SpacedTail(updates, lastEdit);
      SpacedUpdatesAllShown(tail, updates[0].time);
      assert updates[0].time - Previous(updates, 0, lastEdit) >= EditThrottleMs;
      assert StreamEdits(updates, lastEdit) == [Shown(updates[0])] + StreamEdits(tail, updates[0].time);
      ShownCons(updates);
    }
  }

  lemma SpacedTail(updates: seq<Update>, lastEdit: int)
    requires |updates| > 0 && Spaced(updates, lastEdit)
    ensures Spaced(updates[1..], updates[0].time)
  {
    var tail := updates[1..];
    forall k | 0 <= k < |tail|
      ensures tail[k].time - Previous(tail, k, updates[0].time) >= EditThrottleMs
    {
      assert tail[k] == updates[k + 1];
      assert updates[k + 1].time - Previous(updates, k + 1, lastEdit) >= EditThrottleMs;
    }
  }

  lemma ShownCons(updates: seq<Update>)
    requires |updates| > 0
    ensures seq(|updates|, k requires 0 <= k < |updates| => Shown(updates[k]))
            == [Shown(updates[0])] + seq(|updates| - 1, k requires 0 <= k < |updates| - 1 => Shown(updates[1..][k]))
  {
  }

  /** The last update can be lost: an answer whose final text arrives
      within a second of the previous edit never reaches the placeholder
      during streaming. */
  lemma LastUpdateDropped()
    ensures StreamEdits([Update(1000, "a"), Update(1500, "ab")], 0) == [Update(1000, "a")]
  {
    var us := [Update(1000, "a"), Update(1500, "ab")];
    assert us[1..] == [Update(1500, "ab")];
    assert StreamEdits(us[1..], 1000) == [];
  }

  // ---------------------------------------------------------------------
  // The queue as written: counterexamples
  // ---------------------------------------------------------------------

  const DemoProject := Projects.ProjectConfig("demo", "/p/demo", "c1", None, "default", None, None, None)

  const DemoGateway := Gateway(
    Commands.Ctx(Projects.Registry("/p", [DemoProject]), Sessions.Empty, {}, Commands.NoOverrides, map[]),
    map[], map[])

  /** The handle is registered only when the query reports creation, so a
      second message arriving before that starts a second query in the
      same channel. */
  lemma RaceDispatchesTwice()
    ensures var e1 := ArriveStep(DemoGateway, Message("c1", "one", 0, false), []);
            var e2 := ArriveStep(e1.g, Message("c1", "two", 0, false), []);
            && e1.dispatched.Some? && e2.dispatched.Some?
            && |RunningIn(e2.g, "c1")| == 2
  {
    assert Projects.GetByChannelId(DemoGateway.ctx.registry, "c1") == Some(DemoProject);
  }

  /** A queued message that cannot be dispatched is dropped without
      passing the channel on, so the messages behind it stay queued while
      the channel is idle and a later message overtakes them. */
  lemma QueueStranded(render: Render)
    ensures var second := Message("c1", "second", 0, false);
            var g := DemoGateway.(ctx := DemoGateway.ctx.(active := {"c1"}),
                                  queues := map["c1" := [Message("c1", "", 1, false), second]],
                                  running := map["c1" := [Query(DemoProject, "first", None)]]);
            var e1 := FinishStep(g, "c1", 0, Threw("boom"), 0, render);
            var e2 := ArriveStep(e1.g, Message("c1", "third", 0, false), []);
            && e1.dispatched == None
            && e2.dispatched.Some? && e2.dispatched.value.prompt == "third"
            && QueueOf(e2.g, "c1") == [second]
  {
    assert Projects.GetByChannelId(DemoGateway.ctx.registry, "c1") == Some(DemoProject);
    var third := Message("c1", "third", 0, false);
    assert BuildPrompt("third", []) == "third" by {
      assert "third"[0] == 't';
    }
  }

  // ---------------------------------------------------------------------
  // The queue as intended: the channel is reserved at dispatch
  // ---------------------------------------------------------------------

  /** The first message that can be dispatched, or the queue's length. */
  function FirstDispatchable(queue: seq<Message>): (k: nat)
    ensures k <= |queue|
    ensures forall j :: 0 <= j < k ==> queue[j].content == ""
    ensures k < |queue| ==> queue[k].content != ""
    decreases |queue|
  {
    if |queue| == 0 then 0
    else if queue[0].content != "" then 0
    else FirstDispatchable(queue[1..]) + 1
  }

  /** Starting a query also reserves the channel. */
  function Reserve(e: Effect, channelId: string): Effect {
    e.(g := e.g.(ctx := e.g.ctx.(active := e.g.ctx.active + {channelId})))
  }

  function ReservingArrive(g: Gateway, msg: Message, paths: seq<string>): (e: Effect)
    ensures !Ignored(g, msg) && msg.channelId !in g.ctx.active ==> msg.channelId in e.g.ctx.active
    ensures e.dispatched == ArriveStep(g, msg, paths).dispatched
  {
    var e := ArriveStep(g, msg, paths);
    if e.dispatched.Some? then Reserve(e, msg.channelId) else e
  }

  /** Every way out of a query releases the channel and passes it to the
      first queued message that can run, dropping those before it. */
  function ReservingFinally(g: Gateway, channelId: string): (e: Effect)
    ensures e.posted == []
    ensures var queue := QueueOf(g, channelId);
            var k := if Projects.GetByChannelId(g.ctx.registry, channelId).None? then |queue| else FirstDispatchable(queue);
            && (k == |queue| ==> e.dispatched == None && channelId !in e.g.queues && channelId !in e.g.ctx.active
                                 && e.g.running == g.running)
            && (k < |queue| ==> e.dispatched.Some? && e.dispatched.value.prompt == queue[k].content
                                && QueueOf(e.g, channelId) == queue[k + 1..]
                                && RunningIn(e.g, channelId) == RunningIn(g, channelId) + [e.dispatched.value]
                                && channelId in e.g.ctx.active)
    ensures channelId in e.g.queues ==> |e.g.queues[channelId]| > 0
    ensures e.g.ctx.registry == g.ctx.registry
  {
    var g1 := g.(ctx := g.ctx.(active := g.ctx.active - {channelId}));
    var queue := QueueOf(g1, channelId);
    var project := Projects.GetByChannelId(g1.ctx.registry, channelId);
    var k := if project.None? then |queue| else FirstDispatchable(queue);
    if k == |queue| then Effect(g1.(queues := g1.queues - {channelId}), None, [])
    else
      var rest := queue[k + 1..];
      var g2 := g1.(queues := if rest == [] then g1.queues - {channelId} else g1.queues[channelId := rest]);
      Reserve(StartQuery(g2, channelId, project.value, queue[k].content), channelId)
  }

  /** Releasing one channel leaves every other channel's queue, running
      queries and hold as they were. */
  lemma FinallyLeavesOthers(g: Gateway, channelId: string, c: string)
    requires c != channelId
    ensures var e := ReservingFinally(g, channelId);
            && QueueOf(e.g, c) == QueueOf(g, c) && RunningIn(e.g, c) == RunningIn(g, c)
            && (c in e.g.ctx.active <==> c in g.ctx.active)
            && (c in e.g.running <==> c in g.running) && (c in e.g.queues <==> c in g.queues)
  {
  }

  function ReservingFinish(g: Gateway, channelId: string, i: nat, ending: Ending, now: nat, render: Render): (e: Effect)
    requires channelId in g.running && i < |g.running[channelId]|
    ensures e.posted == AfterQuery(Retire(g, channelId, i).0.ctx, channelId, Retire(g, channelId, i).1, ending, now, render).1
  {
    var (g1, q) := Retire(g, channelId, i);
    var (ctx1, posted) := AfterQuery(g1.ctx, channelId, q, ending, now, render);
    var f := ReservingFinally(g1.(ctx := ctx1), channelId);
    Effect(f.g, f.dispatched, posted)
  }

  /** One event of the gateway with the channel reserved at dispatch. */
  function ReservingStep(g: Gateway, ev: Event, now: nat, render: Render): (e: Effect)
    requires Possible(g, ev)
    ensures ev.Arrive? ==> e == ReservingArrive(g, ev.msg, ev.paths)
    ensures ev.Finish? ==> e == ReservingFinish(g, ev.channelId, ev.index, ev.ending, now, render)
    ensures ev.Created? ==> e.g == CreatedStep(g, ev.channelId)
  {
    match ev
    case Arrive(msg, paths) => ReservingArrive(g, msg, paths)
    case Created(c) => Effect(CreatedStep(g, c), None, [])
    case Finish(c, i, ending) => ReservingFinish(g, c, i, ending, now, render)
  }

  /** At most one query per channel, a channel is held exactly while its
      query runs, and a channel has waiting messages only while it is
      held. */
  ghost predicate OneAtATime(g: Gateway) {
    forall c :: OneAtATimeIn(g, c)
  }

  /** The same three facts for one channel. */
  predicate OneAtATimeIn(g: Gateway, c: string) {
    && (c in g.running ==> c in g.ctx.active && |g.running[c]| == 1)
    && (c in g.ctx.active ==> c in g.running)
    && (c in g.queues ==> c in g.ctx.active && |g.queues[c]| > 0)
  }

  /** With the channel reserved at dispatch and released on every way
      out, each event keeps one query per channel and keeps waiting
      messages behind a running query, so none is overtaken. */
  lemma ReservedKeepsOne(g: Gateway, ev: Event, now: nat, render: Render)
    requires OneAtATime(g) && Possible(g, ev)
    ensures OneAtATime(ReservingStep(g, ev, now, render).g)
  {
    match ev
    case Arrive(msg, paths) =>
      ReservedArriveKeepsOne(g, msg, paths);
    case Created(c) =>
      assert OneAtATimeIn(g, c);
      assert CreatedStep(g, c) == g;
    case Finish(c, i, ending) =>
      ReservedFinishKeepsOne(g, c, i, ending, now, render);
  }

  lemma ReservedArriveKeepsOne(g: Gateway, msg: Message, paths: seq<string>)
    requires OneAtATime(g)
    ensures OneAtATime(ReservingArrive(g, msg, paths).g)
  {
    var c := msg.channelId;
    var e := ReservingArrive(g, msg, paths);
    assert OneAtATimeIn(g, c);
    if !Ignored(g, msg) && c !in g.ctx.active {
      assert RunningIn(g, c) == [];
    }
    forall d
      ensures OneAtATimeIn(e.g, d)
    {
      assert OneAtATimeIn(g, d);
    }
  }

  lemma ReservedFinishKeepsOne(g: Gateway, c: string, i: nat, ending: Ending, now: nat, render: Render)
    requires OneAtATime(g) && c in g.running && i < |g.running[c]|
    ensures OneAtATime(ReservingFinish(g, c, i, ending, now, render).g)
  {
    var (g1, q) := Retire(g, c, i);
    var (ctx1, posted) := AfterQuery(g1.ctx, c, q, ending, now, render);
    var g2 := g1.(ctx := ctx1);
    assert OneAtATimeIn(g, c);
    assert c !in g2.running;
    forall d | d != c
      ensures OneAtATimeIn(g2, d)
    {
      assert OneAtATimeIn(g, d);
      assert RunningIn(g1, d) == RunningIn(g, d);
    }
    FinallyKeepsOne(g2, c);
  }

  /** Releasing a channel that has no running query keeps the invariant,
      whether or not a queued message takes the channel over. */
  lemma FinallyKeepsOne(g: Gateway, c: string)
    requires forall d :: d != c ==> OneAtATimeIn(g, d)
    requires c !in g.running
    ensures OneAtATime(ReservingFinally(g, c).g)
  {
    var f := ReservingFinally(g, c);
    assert RunningIn(g, c) == [];
    forall d
      ensures OneAtATimeIn(f.g, d)
    {
      if d != c {
        assert OneAtATimeIn(g, d);
        FinallyLeavesOthers(g, c, d);
      }
    }
  }

  /** With the reservation, the second message of the race waits. */
  lemma ReservedRaceQueues()
    ensures var m2 := Message("c1", "two", 0, false);
            var e1 := ReservingArrive(DemoGateway, Message("c1", "one", 0, false), []);
            var e2 := ReservingArrive(e1.g, m2, []);
            && e1.dispatched.Some? && e2.dispatched.None?
            && QueueOf(e2.g, "c1") == [m2] && |RunningIn(e2.g, "c1")| == 1
  {
    assert Projects.GetByChannelId(DemoGateway.ctx.registry, "c1") == Some(DemoProject);
  }

  /** With the drain, the message behind an undispatchable one runs next. */
  lemma ReservedDrainsPastEmpty(render: Render)
    ensures var second := Message("c1", "second", 0, false);
            var g := DemoGateway.(ctx := DemoGateway.ctx.(active := {"c1"}),
                                  queues := map["c1" := [Message("c1", "", 1, false), second]],
                                  running := map["c1" := [Query(DemoProject, "first", None)]]);
            var e1 := ReservingFinish(g, "c1", 0, Threw("boom"), 0, render);
            && e1.dispatched.Some? && e1.dispatched.value.prompt == "second"
            && QueueOf(e1.g, "c1") == [] && "c1" in e1.g.ctx.active
  {
    assert Projects.GetByChannelId(DemoGateway.ctx.registry, "c1") == Some(DemoProject);
  }
}

=== FILE: permissions.dfy ===
/**
  The approval logic of src/permissions.ts: what the permission callback
  answers the agent for a tool call, given what the user did with the
  buttons shown in the channel, and the text of the approval prompt.

  The user's actions are inputs: for an ordinary tool, the button clicked
  or `None` when the ten-minute wait ended (or was aborted); for
  `AskUserQuestion`, one entry per question holding the custom id of the
  clicked button or `None` when the two-minute wait ended.
 */
module Permissions {
  import opened Basics
  import Formatter

  /** What the callback answers: run the tool with this input, or refuse. */
  datatype Decision = Allow(updatedInput: ToolInput) | Deny(message: string)

  datatype Click = Approve | Reject

  const DeniedByUser: string := "User denied via Discord"
  const PermissionTimedOut: string := "Permission request timed out"
  const QuestionTimedOut: string := "Question timed out"
  const AskTool: string := "AskUserQuestion"

  // ---------------------------------------------------------------------
  // Question buttons
  // ---------------------------------------------------------------------

  /** The custom id of the `i`-th option button. */
  function ButtonId(i: nat): string {
    "opt_" + NatToString(i)
  }

  /** `parseInt(customId.replace("opt_", ""), 10)`; `None` is NaN. */
  function SelectedIndex(customId: string): Option<nat> {
    ParseLeadingInt(RemoveFirst(customId, "opt_"))
  }

  /** A button id reads back as the index it was rendered from. */
  lemma ButtonIdRoundTrip(i: nat)
    ensures SelectedIndex(ButtonId(i)) == Some(i)
  {
    var s := ButtonId(i);
    assert IsPrefix("opt_", s);
    assert RemoveFirst(s, "opt_") == NatToString(i);
    ParseRendered(i);
  }

  /** The label chosen for a question, or `None` when the wait timed out
      or the click does not name one of the question's options (then
      `selected` is undefined, reading its label throws, and the `catch`
      treats it like a timeout). */
  function Chosen(q: Question, pick: Option<string>): (r: Option<string>)
    ensures r.Some? ==> exists i :: 0 <= i < |q.options| && r.value == q.options[i].optionLabel
  {
    if pick.None? then None
    else
      var idx := SelectedIndex(pick.value);
      if idx.None? || idx.value >= |q.options| then None
      else Some(q.options[idx.value].optionLabel)
  }

  /** Clicking the `i`-th button of a question chooses its `i`-th option. */
  lemma ClickChoosesOption(q: Question, i: nat)
    requires i < |q.options|
    ensures Chosen(q, Some(ButtonId(i))) == Some(q.options[i].optionLabel)
  {
    ButtonIdRoundTrip(i);
  }

  function PickAt(picks: seq<Option<string>>, qi: nat): Option<string> {
    if qi < |picks| then picks[qi] else None
  }

  /** The `questions` field, when it is a list; any other value is read as
      no questions at all. */
  function QuestionsOf(input: ToolInput): seq<Question> {
    if "questions" in input && input["questions"].QuestionList? then input["questions"].items else []
  }

  /** Every question from `qi` on got an answer. */
  predicate AllChosen(qs: seq<Question>, picks: seq<Option<string>>, qi: nat) {
    forall j :: qi <= j < |qs| ==> Chosen(qs[j], PickAt(picks, j)).Some?
  }

  /** The question loop at permissions.ts:96-148 from question `qi` on,
      with the answers collected so far. `None` is the `catch` path. */
  function AskFrom(qs: seq<Question>, picks: seq<Option<string>>, qi: nat, answers: map<string, string>): (r: Option<map<string, string>>)
    decreases |qs| - qi
    ensures r.Some? <==> AllChosen(qs, picks, qi)
  {
    if qi >= |qs| then Some(answers)
    else
      var c := Chosen(qs[qi], PickAt(picks, qi));
      if c.None? then None
      else AskFrom(qs, picks, qi + 1, answers[NatToString(qi) := c.value])
  }

  /** `handleAskUserQuestion` */
  function AskUserQuestion(input: ToolInput, picks: seq<Option<string>>): (d: Decision)
    ensures |QuestionsOf(input)| == 0 ==> d == Allow(input)
    ensures |QuestionsOf(input)| > 0 && !AllChosen(QuestionsOf(input), picks, 0) ==> d == Deny(QuestionTimedOut)
    ensures d.Deny? ==> d.message == QuestionTimedOut
  {
    var qs := QuestionsOf(input);
    if |qs| == 0 then Allow(input)
    else match AskFrom(qs, picks, 0, map[])
      case None => Deny(QuestionTimedOut)
      case Some(answers) => Allow(input["answers" := AnswerMap(answers)])
  }

  lemma NatToStringInjective(a: nat, b: nat)
    requires NatToString(a) == NatToString(b)
    ensures a == b
  {
    DecimalRoundTrip(a);
    DecimalRoundTrip(b);
  }

  /** Every key of `m` is the decimal text of a number below `n`. */
  predicate KeysBelow(m: map<string, string>, n: nat) {
    forall k :: k in m ==> exists j: nat :: j < n && k == NatToString(j)
  }

  lemma {:induction false} AskFromAnswers(qs: seq<Question>, picks: seq<Option<string>>, qi: nat, answers: map<string, string>)
    requires qi <= |qs|
    requires AllChosen(qs, picks, qi)
    requires KeysBelow(answers, qi)
    ensures var a := AskFrom(qs, picks, qi, answers).value;
            && (forall j :: qi <= j < |qs| ==> NatToString(j) in a && a[NatToString(j)] == Chosen(qs[j], PickAt(picks, j)).value)
            && (forall j :: 0 <= j < qi && NatToString(j) in answers ==> NatToString(j) in a && a[NatToString(j)] == answers[NatToString(j)])
            && KeysBelow(a, |qs|)
    decreases |qs| - qi
  {
    if qi < |qs| {
      var c := Chosen(qs[qi], PickAt(picks, qi));
      var key := NatToString(qi);
      var next := answers[key := c.value];
      forall j | 0 <= j < qi ensures NatToString(j) != key {
        if NatToString(j) == key {
          NatToStringInjective(j, qi);
        }
      }
      assert KeysBelow(next, qi + 1) by {
        forall k | k in next ensures exists j: nat :: j < qi + 1 && k == NatToString(j) {
          if k == key {
            assert qi < qi + 1 && k == NatToString(qi);
          } else {
            assert k in answers;
            var j: nat :| j < qi && k == NatToString(j);
            assert j < qi + 1;
          }
        }
      }
      AskFromAnswers(qs, picks, qi + 1, next);
      assert AskFrom(qs, picks, qi, answers) == AskFrom(qs, picks, qi + 1, next);
      var a := AskFrom(qs, picks, qi + 1, next).value;
      assert key in next && next[key] == c.value;
      forall j | 0 <= j < qi && NatToString(j) in answers
        ensures NatToString(j) in a && a[NatToString(j)] == answers[NatToString(j)]
      {
        assert NatToString(j) in next && next[NatToString(j)] == answers[NatToString(j)];
      }
    } else {
      assert AskFrom(qs, picks, qi, answers) == Some(answers);
    }
  }

  /** When every question is answered, the tool runs with its input plus an
      `answers` record that maps each question's position, as a decimal
      string, to the label of the option clicked for it, and holds nothing
      else. */
  lemma AnsweredQuestionsAllow(input: ToolInput, picks: seq<Option<string>>)
    requires |QuestionsOf(input)| > 0 && AllChosen(QuestionsOf(input), picks, 0)
    ensures var qs := QuestionsOf(input);
            var d := AskUserQuestion(input, picks);
            && d.Allow?
            && d.updatedInput - {"answers"} == input - {"answers"}
            && "answers" in d.updatedInput && d.updatedInput["answers"].AnswerMap?
            && var a := d.updatedInput["answers"].answers;
               && (forall j :: 0 <= j < |qs| ==> NatToString(j) in a && a[NatToString(j)] == Chosen(qs[j], PickAt(picks, j)).value)
               && KeysBelow(a, |qs|)
  {
    AskFromAnswers(QuestionsOf(input), picks, 0, map[]);
  }

  /** Answering question `j` by clicking its `i`-th button records the
      `i`-th option's label under the key `j`. */
  lemma ClickedButtonsAnswer(input: ToolInput, buttons: seq<nat>)
    requires |QuestionsOf(input)| > 0 && |buttons| == |QuestionsOf(input)|
    requires forall j :: 0 <= j < |buttons| ==> buttons[j] < |QuestionsOf(input)[j].options|
    ensures var qs := QuestionsOf(input);
            var picks := seq(|buttons|, j requires 0 <= j < |buttons| => Some(ButtonId(buttons[j])));
            var d := AskUserQuestion(input, picks);
            && d.Allow?
            && "answers" in d.updatedInput && d.updatedInput["answers"].AnswerMap?
            && forall j :: 0 <= j < |qs| ==>
                 NatToString(j) in d.updatedInput["answers"].answers
                 && d.updatedInput["answers"].answers[NatToString(j)] == qs[j].options[buttons[j]].optionLabel
  {
    var qs := QuestionsOf(input);
    var picks := seq(|buttons|, j requires 0 <= j < |buttons| => Some(ButtonId(buttons[j])));
    forall j | 0 <= j < |qs| ensures Chosen(qs[j], PickAt(picks, j)) == Some(qs[j].options[buttons[j]].optionLabel) {
      ClickChoosesOption(qs[j], buttons[j]);
    }
    AnsweredQuestionsAllow(input, picks);
  }

  // ---------------------------------------------------------------------
  // The permission callback
  // ---------------------------------------------------------------------

  /** `createPermissionHandler`'s callback: `AskUserQuestion` goes to the
      question handler; any other tool is approved or denied by a click,
      and a wait that ends without one denies. */
  function CanUseTool(toolName: string, input: ToolInput, click: Option<Click>, picks: seq<Option<string>>): (d: Decision)
    ensures toolName == AskTool ==> d == AskUserQuestion(input, picks)
    ensures toolName != AskTool ==>
              && (d.Allow? <==> click == Some(Approve))
              && (d.Allow? ==> d.updatedInput == input)
              && (click == Some(Reject) ==> d == Deny(DeniedByUser))
              && (click.None? ==> d == Deny(PermissionTimedOut))
  {
    if toolName == AskTool then AskUserQuestion(input, picks)
    else match click
      case Some(Approve) => Allow(input)
      case Some(Reject) => Deny(DeniedByUser)
      case None => Deny(PermissionTimedOut)
  }

  /** Fail-closed: a tool runs only on an explicit approval or a complete
      set of answers, and the input it runs with differs from the one
      requested at most in the `answers` field. */
  lemma FailClosed(toolName: string, input: ToolInput, click: Option<Click>, picks: seq<Option<string>>)
    ensures var d := CanUseTool(toolName, input, click, picks);
            d.Allow? ==>
              && d.updatedInput - {"answers"} == input - {"answers"}
              && (toolName != AskTool ==> click == Some(Approve))
              && (toolName == AskTool && |QuestionsOf(input)| > 0 ==> AllChosen(QuestionsOf(input), picks, 0))
  {
    if toolName == AskTool && |QuestionsOf(input)| > 0 && AllChosen(QuestionsOf(input), picks, 0) {
      AnsweredQuestionsAllow(input, picks);
    }
  }

  /** A question that times out denies the whole request, whatever was
      answered before it. */
  lemma QuestionTimeoutDenies(input: ToolInput, picks: seq<Option<string>>, j: nat)
    requires j < |QuestionsOf(input)| && PickAt(picks, j).None?
    ensures CanUseTool(AskTool, input, None, picks) == Deny(QuestionTimedOut)
  {
    assert Chosen(QuestionsOf(input)[j], PickAt(picks, j)).None?;
  }

  // ---------------------------------------------------------------------
  // Approval prompt text
  // ---------------------------------------------------------------------

  const BashHead: string := "Run command:\n```bash\n"
  const BlockTail: string := "\n```"
  const JsonHead: string := "\n```json\n"

  /** `formatToolDescription`. `json` is `JSON.stringify(input, null, 2)`,
      which this model does not compute. */
  function FormatToolDescription(toolName: string, input: ToolInput, json: string): (r: string)
    ensures toolName == "Bash" ==>
              && IsPrefix(BashHead, r) && IsSuffix(BlockTail, r)
              && |r| <= |BashHead| + 500 + |BlockTail|
              && (|FieldText(input, "command")| <= 500 ==> r == BashHead + FieldText(input, "command") + BlockTail)
              && (|FieldText(input, "command")| > 500 ==> r == BashHead + FieldText(input, "command")[..497] + "..." + BlockTail)
    ensures toolName == "Write" ==>
              r == "Create file: `" + FieldText(input, "file_path") + "`\n"
                   + NatToString(|FieldText(input, "content")|) + " characters"
    ensures toolName == "Edit" ==>
              && |r| <= 34 + |FieldText(input, "file_path")| + 100 + 100
              && (|FieldText(input, "old_string")| <= 100 && |FieldText(input, "new_string")| <= 100 ==>
                    r == "Edit file: `" + FieldText(input, "file_path") + "`\nReplace: `" + FieldText(input, "old_string")
                         + "`\nWith: `" + FieldText(input, "new_string") + "`")
    ensures toolName == "Task" ==>
              && |r| <= 24 + |FieldText(input, "subagent_type")| + 200
              && var head := "Launch subagent: " + FieldText(input, "subagent_type") + "\nTask: ";
              var desc := FieldText(input, "description");
              && (|desc| <= 200 ==> r == head + desc)
              && (|desc| > 200 ==> r == head + desc[..197] + "...")
    ensures toolName !in {"Bash", "Write", "Edit", "Task"} ==>
              && IsPrefix("Tool: " + toolName + JsonHead, r)
              && |r| <= 6 + |toolName| + |JsonHead| + 500 + |BlockTail|
              && (|json| <= 500 ==> r == "Tool: " + toolName + JsonHead + json + BlockTail)
              && (|json| > 500 ==> r == "Tool: " + toolName + JsonHead + json[..497] + "..." + BlockTail)
  {
    match toolName
      case "Bash" => BashPreview(FieldText(input, "command"))
      case "Write" =>
        "Create file: `" + FieldText(input, "file_path") + "`\n"
        + NatToString(|FieldText(input, "content")|) + " characters"
      case "Edit" =>
        EditPreview(FieldText(input, "file_path"), FieldText(input, "old_string"), FieldText(input, "new_string"))
      case "Task" => TaskPreview(FieldText(input, "subagent_type"), FieldText(input, "description"))
      case _ => OtherPreview(toolName, json)
  }

  /** The Bash preview: the command in a shell block, cut at 500. */
  function BashPreview(cmd: string): (r: string)
    ensures IsPrefix(BashHead, r) && IsSuffix(BlockTail, r)
    ensures |r| <= |BashHead| + 500 + |BlockTail|
    ensures |cmd| <= 500 ==> r == BashHead + cmd + BlockTail
    ensures |cmd| > 500 ==> r == BashHead + cmd[..497] + "..." + BlockTail
  {
    var r := BashHead + Formatter.Truncate(cmd, 500) + BlockTail;
    assert r[..|BashHead|] == BashHead;
    assert r[|r| - |BlockTail|..] == BlockTail;
    r
  }

  /** The Edit preview: the path and both strings, each cut at 100. */
  function EditPreview(path: string, before: string, after: string): (r: string)
    ensures |r| <= 34 + |path| + 100 + 100
    ensures |before| <= 100 && |after| <= 100 ==>
              r == "Edit file: `" + path + "`\nReplace: `" + before + "`\nWith: `" + after + "`"
  {
    "Edit file: `" + path + "`\nReplace: `" + Formatter.Truncate(before, 100) + "`\nWith: `"
    + Formatter.Truncate(after, 100) + "`"
  }

  /** The Task preview: the subagent type and the description cut at 200. */
  function TaskPreview(agentType: string, desc: string): (r: string)
    ensures |r| <= 24 + |agentType| + 200
    ensures |desc| <= 200 ==> r == "Launch subagent: " + agentType + "\nTask: " + desc
    ensures |desc| > 200 ==> r == "Launch subagent: " + agentType + "\nTask: " + desc[..197] + "..."
  {
    "Launch subagent: " + agentType + "\nTask: " + Formatter.Truncate(desc, 200)
  }

  /** Any other tool: its name and its JSON input cut at 500. */
  function OtherPreview(toolName: string, json: string): (r: string)
    ensures IsPrefix("Tool: " + toolName + JsonHead, r)
    ensures |r| <= 6 + |toolName| + |JsonHead| + 500 + |BlockTail|
    ensures |json| <= 500 ==> r == "Tool: " + toolName + JsonHead + json + BlockTail
    ensures |json| > 500 ==> r == "Tool: " + toolName + JsonHead + json[..497] + "..." + BlockTail
  {
    var head := "Tool: " + toolName + JsonHead;
    var r := head + Formatter.Truncate(json, 500) + BlockTail;
    assert r[..|head|] == head;
    r
  }

  /** The Write prompt never shows the file's content: two inputs with the
      same path and content length give the same text. */
  lemma WriteHidesContent(a: ToolInput, b: ToolInput, json1: string, json2: string)
    requires FieldText(a, "file_path") == FieldText(b, "file_path")
    requires |FieldText(a, "content")| == |FieldText(b, "content")|
    ensures FormatToolDescription("Write", a, json1) == FormatToolDescription("Write", b, json2)
  {
  }
}

=== FILE: projects.dfy ===
/**
  The project registry of src/projects.ts.

  Discovery walks the entries of the projects root in the order the
  directory listing gives them and registers every sub-directory whose
  `discord.json` names a channel. The file system is the `entries`
  parameter: each entry carries what reading and parsing its
  `discord.json` produced. The registry's map is kept as the sequence of
  its values in insertion order, which is the order `getAll` returns.
 */
module Projects {
  import opened Basics

  /** A tool list as written in `discord.json`: absent, `null`, or a list. */
  datatype ToolList = Unset | NullList | Tools(names: seq<string>)

  /** The fields of a parsed `discord.json`; `None` is an absent field (or,
      for `channelId`, any non-string value). */
  datatype DiscordJson = DiscordJson(
    channelId: Option<string>,
    model: Option<string>,
    permissionMode: Option<string>,
    maxBudgetUsd: Option<real>,
    allowedTools: ToolList,
    disallowedTools: ToolList)

  /** What the entry's `discord.json` turned out to be: missing, failing to
      read or parse (the `catch` path), or parsed. */
  datatype ConfigFile = Missing | Unreadable | Parsed(json: DiscordJson)

  datatype DirEntry = DirEntry(name: string, isDirectory: bool, config: ConfigFile)

  datatype ProjectConfig = ProjectConfig(
    name: string,
    path: string,
    channelId: string,
    model: Option<string>,
    permissionMode: string,
    maxBudgetUsd: Option<real>,
    allowedTools: Option<seq<string>>,
    disallowedTools: Option<seq<string>>)

  datatype Registry = Registry(root: string, projects: seq<ProjectConfig>)

  const DefaultPermissionMode: string := "default"

  /** `path.join(root, name)` for a root without a trailing separator and a
      plain directory name. */
  function JoinPath(root: string, name: string): string {
    root + "/" + name
  }

  /** `list ?? undefined`: a `null` list is the same as an absent one. */
  function ToolsOrAbsent(t: ToolList): (r: Option<seq<string>>)
    ensures r.Some? <==> t.Tools?
    ensures t.Tools? ==> r.value == t.names
  {
    if t.Tools? then Some(t.names) else None
  }

  /** The project an entry would register, before the duplicate check:
      non-directories, entries without a `discord.json`, unreadable files
      and configs without a truthy `channelId` register nothing. */
  function Candidate(root: string, e: DirEntry): (r: Option<ProjectConfig>)
    ensures r.Some? <==> e.isDirectory && e.config.Parsed? && Truthy(e.config.json.channelId)
    ensures r.Some? ==> var p := r.value; var cfg := e.config.json;
            && p.name == e.name
            && p.path == JoinPath(root, e.name)
            && p.channelId == cfg.channelId.value && p.channelId != ""
            && p.model == cfg.model
            && p.maxBudgetUsd == cfg.maxBudgetUsd
            && (p.permissionMode == DefaultPermissionMode <==> !Truthy(cfg.permissionMode) || cfg.permissionMode.value == DefaultPermissionMode)
            && (Truthy(cfg.permissionMode) ==> p.permissionMode == cfg.permissionMode.value)
            && p.allowedTools == ToolsOrAbsent(cfg.allowedTools)
            && p.disallowedTools == ToolsOrAbsent(cfg.disallowedTools)
  {
    if !e.isDirectory then None
    else match e.config
      case Missing => None
      case Unreadable => None
      case Parsed(cfg) =>
        if !Truthy(cfg.channelId) then None
        else Some(ProjectConfig(
          e.name,
          JoinPath(root, e.name),
          cfg.channelId.value,
          cfg.model,
          if Truthy(cfg.permissionMode) then cfg.permissionMode.value else DefaultPermissionMode,
          cfg.maxBudgetUsd,
          ToolsOrAbsent(cfg.allowedTools),
          ToolsOrAbsent(cfg.disallowedTools)))
  }

  function ChannelIds(projects: seq<ProjectConfig>): (r: seq<string>)
    ensures |r| == |projects|
    ensures forall i :: 0 <= i < |r| ==> r[i] == projects[i].channelId
  {
    seq(|projects|, i requires 0 <= i < |projects| => projects[i].channelId)
  }

  /** The loop at projects.ts:42-80 from entry `entries[0]` on, with the
      projects registered so far in `acc`. */
  function DiscoverFrom(root: string, entries: seq<DirEntry>, acc: seq<ProjectConfig>): (r: seq<ProjectConfig>)
    requires Distinct(ChannelIds(acc))
    decreases |entries|
    ensures Distinct(ChannelIds(r))
    ensures IsPrefixSeq(acc, r)
  {
    if |entries| == 0 then acc
    else
      var c := Candidate(root, entries[0]);
      if c.None? || c.value.channelId in ChannelIds(acc) then DiscoverFrom(root, entries[1..], acc)
      else
        var acc' := acc + [c.value];
        assert ChannelIds(acc') == ChannelIds(acc) + [c.value.channelId];
        DiscoverFrom(root, entries[1..], acc')
  }

  predicate IsPrefixSeq<T(==)>(a: seq<T>, b: seq<T>) {
    |a| <= |b| && b[..|a|] == a
  }

  /** `discover`: `None` is the process exiting because the root does not
      exist; otherwise a fresh registry built from the entries. */
  function Discover(root: string, rootExists: bool, entries: seq<DirEntry>): (r: Option<Registry>)
    ensures r.Some? <==> rootExists
    ensures r.Some? ==> r.value.root == root && Distinct(ChannelIds(r.value.projects))
  {
    if !rootExists then None
    else Some(Registry(root, DiscoverFrom(root, entries, [])))
  }

  /** `getByChannelId` */
  function GetByChannelId(reg: Registry, channelId: string): (r: Option<ProjectConfig>)
    ensures r.Some? <==> channelId in ChannelIds(reg.projects)
    ensures r.Some? ==> r.value in reg.projects && r.value.channelId == channelId
    decreases |reg.projects|
  {
    Lookup(reg.projects, channelId)
  }

  function Lookup(projects: seq<ProjectConfig>, channelId: string): (r: Option<ProjectConfig>)
    ensures r.Some? <==> channelId in ChannelIds(projects)
    ensures r.Some? ==> r.value in projects && r.value.channelId == channelId
    decreases |projects|
  {
    if |projects| == 0 then None
    else if projects[0].channelId == channelId then Some(projects[0])
    else
      assert ChannelIds(projects) == [projects[0].channelId] + ChannelIds(projects[1..]);
      Lookup(projects[1..], channelId)
  }

  /** `getAll`: every registered project, in registration order. */
  function GetAll(reg: Registry): (r: seq<ProjectConfig>)
    ensures forall p :: p in r <==> p in reg.projects
  {
    reg.projects
  }

  /** `count`: the number of registered channels. */
  function Count(reg: Registry): (n: nat)
    ensures Distinct(ChannelIds(reg.projects)) ==> n == |set c | c in ChannelIds(reg.projects)|
  {
    ChannelCount(reg.projects);
    |reg.projects|
  }

  lemma ChannelCount(projects: seq<ProjectConfig>)
    ensures Distinct(ChannelIds(projects)) ==> |projects| == |set c | c in ChannelIds(projects)|
  {
    if Distinct(ChannelIds(projects)) {
      DistinctCard(ChannelIds(projects));
    }
  }

  // ---------------------------------------------------------------------
  // Discovery against a reference definition
  // ---------------------------------------------------------------------

  /** Reference definition: the candidate of the earliest entry naming the
      channel. */
  function FirstCandidate(root: string, entries: seq<DirEntry>, channelId: string): Option<ProjectConfig>
    decreases |entries|
  {
    if |entries| == 0 then None
    else
      var c := Candidate(root, entries[0]);
      if c.Some? && c.value.channelId == channelId then c
      else FirstCandidate(root, entries[1..], channelId)
  }

  lemma {:induction false} DiscoverFromLookup(root: string, entries: seq<DirEntry>, acc: seq<ProjectConfig>, channelId: string)
    requires Distinct(ChannelIds(acc))
    ensures Lookup(DiscoverFrom(root, entries, acc), channelId)
            == if channelId in ChannelIds(acc) then Lookup(acc, channelId)
               else FirstCandidate(root, entries, channelId)
    decreases |entries|
  {
    if |entries| > 0 {
      var c := Candidate(root, entries[0]);
      if c.None? || c.value.channelId in ChannelIds(acc) {
        DiscoverFromLookup(root, entries[1..], acc, channelId);
      } else {
        var acc' := acc + [c.value];
        assert ChannelIds(acc') == ChannelIds(acc) + [c.value.channelId];
        DiscoverFromLookup(root, entries[1..], acc', channelId);
        LookupAppend(acc, c.value, channelId);
      }
    }
  }

  lemma {:induction false} LookupAppend(acc: seq<ProjectConfig>, p: ProjectConfig, channelId: string)
    ensures Lookup(acc + [p], channelId)
            == if channelId in ChannelIds(acc) then Lookup(acc, channelId)
               else if p.channelId == channelId then Some(p) else None
    decreases |acc|
  {
    if |acc| > 0 {
      assert (acc + [p])[1..] == acc[1..] + [p];
      assert ChannelIds(acc) == [acc[0].channelId] + ChannelIds(acc[1..]);
      LookupAppend(acc[1..], p, channelId);
    }
  }

  /** First entry wins: after discovery, the project found for a channel is
      the one built from the earliest entry that names it, and a channel no
      entry names has no project. */
  lemma DiscoverFirstWins(root: string, entries: seq<DirEntry>, channelId: string)
    ensures var reg := Discover(root, true, entries).value;
            GetByChannelId(reg, channelId) == FirstCandidate(root, entries, channelId)
  {
    DiscoverFromLookup(root, entries, [], channelId);
  }

  /** Discovery starts from an empty map: what an earlier registry held does
      not survive a new discovery. */
  lemma RediscoverForgets(root: string, entries: seq<DirEntry>, channelId: string)
    requires forall e :: e in entries ==> Candidate(root, e).None?
    ensures GetByChannelId(Discover(root, true, entries).value, channelId).None?
  {
    DiscoverFirstWins(root, entries, channelId);
    NoCandidateNoFirst(root, entries, channelId);
  }

  lemma {:induction false} NoCandidateNoFirst(root: string, entries: seq<DirEntry>, channelId: string)
    requires forall e :: e in entries ==> Candidate(root, e).None?
    ensures FirstCandidate(root, entries, channelId).None?
    decreases |entries|
  {
    if |entries| > 0 {
      assert entries[0] in entries;
      NoCandidateNoFirst(root, entries[1..], channelId);
    }
  }
}

=== FILE: sessions.dfy ===
/**
  The session store of src/sessions.ts: two tables, modelled as maps.

  `sessions` maps a channel to the agent session it currently continues;
  `savedSessions` maps a (channel, label) pair to a snapshot of such a
  session. SQLite's `datetime('now')` is a clock reading `now` passed in
  by the caller; it is a whole number of seconds, so two writes in the
  same second carry the same time.
 */
module Sessions {
  import opened Basics

  datatype SessionRecord = SessionRecord(sessionId: string, projectName: string, updatedAt: nat)

  datatype SavedRecord = SavedRecord(sessionId: string, projectName: string, savedAt: nat)

  /** Key of a saved snapshot: the channel and the label given to it. */
  datatype SavedKey = SavedKey(channelId: string, name: string)

  datatype Store = Store(sessions: map<string, SessionRecord>, saved: map<SavedKey, SavedRecord>)

  const Empty := Store(map[], map[])

  /** `get`: the session id stored for the channel, or null. */
  function Get(store: Store, channelId: string): (r: Option<string>)
    ensures r.Some? <==> channelId in store.sessions
    ensures r.Some? ==> r.value == store.sessions[channelId].sessionId
  {
    if channelId in store.sessions then Some(store.sessions[channelId].sessionId) else None
  }

  /** `set`: an upsert on the channel; every other row and every snapshot
      is left as it was. */
  function Set(store: Store, channelId: string, sessionId: string, projectName: string, now: nat): (r: Store)
    ensures Get(r, channelId) == Some(sessionId)
    ensures r.sessions[channelId] == SessionRecord(sessionId, projectName, now)
    ensures r.sessions - {channelId} == store.sessions - {channelId}
    ensures r.saved == store.saved
  {
    store.(sessions := store.sessions[channelId := SessionRecord(sessionId, projectName, now)])
  }

  /** `clear`: deletes the channel's row, if any; snapshots stay. */
  function Clear(store: Store, channelId: string): (r: Store)
    ensures Get(r, channelId) == None
    ensures r.sessions == store.sessions - {channelId}
    ensures r.saved == store.saved
  {
    store.(sessions := store.sessions - {channelId})
  }

  /** `save`: snapshots the channel's current session under `name`,
      replacing an older snapshot with the same name. With no current
      session nothing is written and the answer is false. */
  function Save(store: Store, channelId: string, name: string, now: nat): (r: (bool, Store))
    ensures r.0 <==> channelId in store.sessions
    ensures !r.0 ==> r.1 == store
    ensures r.0 ==> var cur := store.sessions[channelId];
                    && SavedKey(channelId, name) in r.1.saved
                    && r.1.saved[SavedKey(channelId, name)] == SavedRecord(cur.sessionId, cur.projectName, now)
    ensures r.1.saved - {SavedKey(channelId, name)} == store.saved - {SavedKey(channelId, name)}
    ensures r.1.sessions == store.sessions
  {
    if channelId !in store.sessions then (false, store)
    else
      var cur := store.sessions[channelId];
      var key := SavedKey(channelId, name);
      (true, store.(saved := store.saved[key := SavedRecord(cur.sessionId, cur.projectName, now)]))
  }

  /** `restore`: makes the snapshot the channel's current session and
      deletes the snapshot. With no such snapshot nothing changes and the
      answer is false. */
  function Restore(store: Store, channelId: string, name: string, now: nat): (r: (bool, Store))
    ensures r.0 <==> SavedKey(channelId, name) in store.saved
    ensures !r.0 ==> r.1 == store
    ensures r.0 ==> var snap := store.saved[SavedKey(channelId, name)];
                    && Get(r.1, channelId) == Some(snap.sessionId)
                    && r.1.sessions[channelId] == SessionRecord(snap.sessionId, snap.projectName, now)
                    && r.1.saved == store.saved - {SavedKey(channelId, name)}
    ensures r.1.sessions - {channelId} == store.sessions - {channelId}
  {
    var key := SavedKey(channelId, name);
    if key !in store.saved then (false, store)
    else
      var snap := store.saved[key];
      var afterSet := Set(store, channelId, snap.sessionId, snap.projectName, now);
      (true, afterSet.(saved := afterSet.saved - {key}))
  }

  // ---------------------------------------------------------------------
  // Properties relating several operations
  // ---------------------------------------------------------------------

  /** Saving, clearing and restoring brings back the session that was
      current, and leaves the snapshot table as it was before the save
      apart from the consumed name. */
  lemma SaveClearRestore(store: Store, channelId: string, name: string, t1: nat, t2: nat)
    requires channelId in store.sessions
    ensures var (saved, s1) := Save(store, channelId, name, t1);
            var s2 := Clear(s1, channelId);
            var (restored, s3) := Restore(s2, channelId, name, t2);
            && saved && restored
            && Get(s3, channelId) == Get(store, channelId)
            && s3.sessions[channelId].projectName == store.sessions[channelId].projectName
            && s3.sessions - {channelId} == store.sessions - {channelId}
            && s3.saved == store.saved - {SavedKey(channelId, name)}
  {
    var (saved, s1) := Save(store, channelId, name, t1);
    var s2 := Clear(s1, channelId);
    var (restored, s3) := Restore(s2, channelId, name, t2);
    assert s3.saved == s1.saved - {SavedKey(channelId, name)};
    assert s1.saved - {SavedKey(channelId, name)} == store.saved - {SavedKey(channelId, name)};
  }

  /** A snapshot is consumed by restoring it: a second restore under the
      same name reports false and changes nothing. */
  lemma RestoreConsumes(store: Store, channelId: string, name: string, t1: nat, t2: nat)
    ensures var s1 := Restore(store, channelId, name, t1).1;
            var (again, s2) := Restore(s1, channelId, name, t2);
            !again && s2 == s1
  {
  }

  /** A channel's session survives operations on other channels. */
  lemma OtherChannelsUntouched(store: Store, a: string, b: string, sid: string, proj: string, name: string, now: nat)
    requires a != b
    ensures Get(Set(store, a, sid, proj, now), b) == Get(store, b)
    ensures Get(Clear(store, a), b) == Get(store, b)
    ensures Get(Save(store, a, name, now).1, b) == Get(store, b)
    ensures Get(Restore(store, a, name, now).1, b) == Get(store, b)
  {
    assert b in store.sessions - {a} <==> b in store.sessions;
  }

  // ---------------------------------------------------------------------
  // Listings
  // ---------------------------------------------------------------------

  /** One row of `listSaved`. */
  datatype SavedView = SavedView(name: string, sessionId: string, projectName: string, savedAt: nat)

  function ViewOf(name: string, rec: SavedRecord): SavedView {
    SavedView(name, rec.sessionId, rec.projectName, rec.savedAt)
  }

  predicate NewestFirst(xs: seq<SavedView>) {
    forall i, j :: 0 <= i < j < |xs| ==> xs[i].savedAt >= xs[j].savedAt
  }

  function Names(xs: seq<SavedView>): (r: seq<string>)
    ensures |r| == |xs|
    ensures forall i :: 0 <= i < |xs| ==> r[i] == xs[i].name
  {
    seq(|xs|, i requires 0 <= i < |xs| => xs[i].name)
  }

  /** Where a snapshot saved at time `t` goes in a newest-first list: after
      every entry at least as recent. */
  function InsertionPoint(xs: seq<SavedView>, t: nat): (k: nat)
    ensures k <= |xs|
    ensures forall i :: 0 <= i < k ==> xs[i].savedAt >= t
    ensures NewestFirst(xs) ==> forall i :: k <= i < |xs| ==> xs[i].savedAt < t
  {
    if |xs| == 0 || xs[0].savedAt < t then 0
    else 1 + InsertionPoint(xs[1..], t)
  }

  /** Inserting a snapshot row into a newest-first list: the list stays
      newest first and gains exactly that row. */
  function Insert(xs: seq<SavedView>, e: SavedView): (r: seq<SavedView>)
    requires NewestFirst(xs)
    ensures NewestFirst(r)
    ensures |r| == |xs| + 1
    ensures forall m :: m in Names(r) <==> m == e.name || m in Names(xs)
    ensures e.name !in Names(xs) && Distinct(Names(xs)) ==> Distinct(Names(r))
    ensures forall i :: 0 <= i < |r| ==> r[i] == e || r[i] in xs
  {
    var k := InsertionPoint(xs, e.savedAt);
    InsertKeepsOrder(xs, e);
    InsertNames(xs, e, k);
    xs[..k] + [e] + xs[k..]
  }

  lemma InsertKeepsOrder(xs: seq<SavedView>, e: SavedView)
    requires NewestFirst(xs)
    ensures var k := InsertionPoint(xs, e.savedAt);
            NewestFirst(xs[..k] + [e] + xs[k..])
  {
    var k := InsertionPoint(xs, e.savedAt);
    var ys := xs[..k] + [e] + xs[k..];
    forall i, j | 0 <= i < j < |ys| ensures ys[i].savedAt >= ys[j].savedAt {
      if j < k {
        assert ys[i] == xs[i] && ys[j] == xs[j];
      } else if j == k {
        assert ys[i] == xs[i];
      } else if i < k {
        assert ys[i] == xs[i] && ys[j] == xs[j - 1];
      } else if i > k {
        assert ys[i] == xs[i - 1] && ys[j] == xs[j - 1];
      } else {
        assert ys[j] == xs[j - 1];
      }
    }
  }

  lemma InsertNames(xs: seq<SavedView>, e: SavedView, k: nat)
    requires k <= |xs|
    ensures var ys := xs[..k] + [e] + xs[k..];
            && (forall m :: m in Names(ys) <==> m == e.name || m in Names(xs))
            && (e.name !in Names(xs) && Distinct(Names(xs)) ==> Distinct(Names(ys)))
            && (forall i :: 0 <= i < |ys| ==> ys[i] == e || ys[i] in xs)
  {
    var ys := xs[..k] + [e] + xs[k..];
    var ns := Names(xs);
    assert Names(ys) == ns[..k] + [e.name] + ns[k..];
    assert ns == ns[..k] + ns[k..];
    InsertedFromEither(xs, e, k);
    if e.name !in ns && Distinct(ns) {
      InsertDistinct(ns, e.name, k);
    }
  }

  lemma InsertedFromEither(xs: seq<SavedView>, e: SavedView, k: nat)
    requires k <= |xs|
    ensures var ys := xs[..k] + [e] + xs[k..];
            forall i :: 0 <= i < |ys| ==> ys[i] == e || ys[i] in xs
  {
    var ys := xs[..k] + [e] + xs[k..];
    forall i | 0 <= i < |ys| ensures ys[i] == e || ys[i] in xs {
      if i < k {
        assert ys[i] == xs[i];
      } else if i > k {
        assert ys[i] == xs[i - 1];
      }
    }
  }

  lemma InsertDistinct(ns: seq<string>, n: string, k: nat)
    requires k <= |ns| && n !in ns && Distinct(ns)
    ensures Distinct(ns[..k] + [n] + ns[k..])
  {
    var ys := ns[..k] + [n] + ns[k..];
    forall i, j | 0 <= i < j < |ys| ensures ys[i] != ys[j] {
      if i == k {
        assert ys[j] == ns[j - 1];
      } else if j == k {
        assert ys[i] == ns[i];
      } else {
        assert ys[i] == ns[if i < k then i else i - 1];
        assert ys[j] == ns[if j < k then j else j - 1];
      }
    }
  }

  /** `rows` is a listing of the channel's snapshots: newest first, one row
      per saved name, each row carrying that snapshot's stored data. */
  ghost predicate ListsSaved(store: Store, channelId: string, rows: seq<SavedView>) {
    && NewestFirst(rows)
    && Distinct(Names(rows))
    && (forall n :: n in Names(rows) <==> SavedKey(channelId, n) in store.saved)
    && (forall i :: 0 <= i < |rows| ==>
          && SavedKey(channelId, rows[i].name) in store.saved
          && rows[i] == ViewOf(rows[i].name, store.saved[SavedKey(channelId, rows[i].name)]))
  }

  /** `listSaved`: the channel's snapshots, newest first, one row per name. */
  method ListSaved(store: Store, channelId: string) returns (rows: seq<SavedView>)
    ensures NewestFirst(rows)
    ensures Distinct(Names(rows))
    ensures forall n :: n in Names(rows) <==> SavedKey(channelId, n) in store.saved
    ensures forall i :: 0 <= i < |rows| ==>
              && SavedKey(channelId, rows[i].name) in store.saved
              && rows[i] == ViewOf(rows[i].name, store.saved[SavedKey(channelId, rows[i].name)])
  {
    var pending := set k | k in store.saved && k.channelId == channelId :: k.name;
    rows := [];
    while pending != {}
      invariant forall n :: n in pending ==> SavedKey(channelId, n) in store.saved
      invariant forall n :: SavedKey(channelId, n) in store.saved ==> n in pending || n in Names(rows)
      invariant forall n :: n in Names(rows) ==> n !in pending && SavedKey(channelId, n) in store.saved
      invariant NewestFirst(rows)
      invariant Distinct(Names(rows))
      invariant forall i :: 0 <= i < |rows| ==>
                  && SavedKey(channelId, rows[i].name) in store.saved
                  && rows[i] == ViewOf(rows[i].name, store.saved[SavedKey(channelId, rows[i].name)])
      decreases |pending|
    {
      var n :| n in pending;
      var next := Insert(rows, ViewOf(n, store.saved[SavedKey(channelId, n)]));
      rows := next;
      pending := pending - {n};
    }
  }

  /** One row of `getAll`. */
  datatype SessionRow = SessionRow(channelId: string, sessionId: string, projectName: string, updatedAt: nat)

  function Channels(rows: seq<SessionRow>): (r: seq<string>)
    ensures |r| == |rows|
    ensures forall i :: 0 <= i < |rows| ==> r[i] == rows[i].channelId
  {
    seq(|rows|, i requires 0 <= i < |rows| => rows[i].channelId)
  }

  /** `getAll`: one row per stored channel, in no particular order. */
  method GetAll(store: Store) returns (rows: seq<SessionRow>)
    ensures Distinct(Channels(rows))
    ensures forall c :: c in Channels(rows) <==> c in store.sessions
    ensures forall i :: 0 <= i < |rows| ==>
              && rows[i].channelId in store.sessions
              && var rec := store.sessions[rows[i].channelId];
                 rows[i] == SessionRow(rows[i].channelId, rec.sessionId, rec.projectName, rec.updatedAt)
  {
    var pending := store.sessions.Keys;
    rows := [];
    while pending != {}
      invariant pending <= store.sessions.Keys
      invariant forall c :: c in store.sessions ==> c in pending || c in Channels(rows)
      invariant forall c :: c in Channels(rows) ==> c !in pending && c in store.sessions
      invariant Distinct(Channels(rows))
      invariant forall i :: 0 <= i < |rows| ==>
                  && rows[i].channelId in store.sessions
                  && var rec := store.sessions[rows[i].channelId];
                     rows[i] == SessionRow(rows[i].channelId, rec.sessionId, rec.projectName, rec.updatedAt)
      decreases |pending|
    {
      var c :| c in pending;
      var rec := store.sessions[c];
      var next := rows + [SessionRow(c, rec.sessionId, rec.projectName, rec.updatedAt)];
      assert Channels(next) == Channels(rows) + [c];
      rows := next;
      pending := pending - {c};
    }
  }
}
